=== FILE: README.md ===
# feedreader core in Dafny

A model of the core of `feedreader`, a command-line reader of RSS and Atom feeds written in C. The model covers:

- the growable C strings (`string_t`) and the URL list of `common.c`;
- the URL parser of `url.c`, including the POSIX regular expressions of `url.h`, modelled as languages with a longest-match function;
- the HTTP response head parser of `utils.c`;
- the status check and redirection of `http.c`, and the request text that `send_request` formats;
- the feed-file reader, the settings check, the URL list walk and the exit status of `feedreader.c`;
- the option parser of `cli.c`.

Modules follow the source:

| module | models |
|---|---|
| `Common` | result codes, `Option`, NUL-free strings, `tolower` |
| `Buffers` | `string_t`: the whole allocated array, whose content runs up to the first NUL |
| `Queue` | list elements and the list operations |
| `Grammar` | the URL component languages |
| `Url` | `url.c` |
| `Response` | `utils.c` |
| `Http` | `http.c` |
| `Feedfile` | `proc_char` and `parse_feedfile` |
| `Feedreader` | the rest of `feedreader.c` |
| `Cli` | `cli.c` |

C strings are sequences of characters without NUL, and pointers into a text are indices into it. `int`, `size_t` and `unsigned long` arithmetic is written out where it wraps:

- `strtoul` saturates and is then cast to `int`;
- the `size_t` length of a `Location` slice wraps modulo 2^64.

The POSIX matcher is modelled as follows:

- the URL patterns are compiled with `REG_EXTENDED | REG_ICASE`;
- the response patterns with `REG_EXTENDED | REG_NEWLINE`, so `^` matches after every line feed;
- a search takes the leftmost match position at or after the cursor, and the longest match there;
- inside brackets a backslash is an ordinary character, so the scheme class is `a-z 0-9 + \ .` and does not contain `-`.

The document loaders and the feed parser are function parameters of the driver: `Loader` and `FeedParser` in `Feedreader`.

## Model

| member | source | states |
|---|---|---|
| Common.ToLower | url.c:124-132 | the case folding of `strcasecmp` and `tolower` in the C locale: an upper-case ASCII letter becomes its lower-case letter, every other character is kept |
| Common.LowerAll | url.c:243 | lowering a string lowers every character and keeps the length |
| Buffers.FirstNul | common.c:35-37 | the content length of a buffer is the index of its first NUL, and there is no NUL before it |
| Buffers.FirstNulUnique | common.c:35-37 | any NUL-free prefix ended by a NUL is the content: the length is determined |
| Buffers.NewString | common.c:248-264 | `new_string(size)` allocates `size` bytes that are all NUL: empty content, and well formed when size > 0 |
| Buffers.ExtString | common.c:208-223 | `ext_string` doubles the capacity, keeps the old bytes and zero-fills the new half, so the content is unchanged |
| Buffers.Grow | common.c:186-205 | the capacity doubling loop of `set_string` ends above the requested length, keeps an already large enough capacity and never overshoots by more than a factor of two |
| Buffers.SetString | common.c:186-205 | `set_string` leaves exactly `src` as content; a NULL destination gets `strlen(src)+1` bytes, an existing one is grown by doubling |
| Buffers.SetStringN | common.c:226-245 | `set_stringn` copies at most `n` characters of `src`, and the capacity exceeds `n` |
| Buffers.EraseString | common.c:148-154 | `erase_string` empties the content and keeps the capacity |
| Buffers.IsEmpty | common.c:35-37 | `is_empty` holds exactly for a NULL string or an empty content |
| Buffers.TruncString | common.c:157-170 | `trunc_string(+n)` drops the first n characters of the content. `trunc_string(-k)` writes NUL at the k bytes before the last byte of the ALLOCATED array, so the content is cut to at most `capacity - k - 1` characters, not `length - k` |
| Buffers.AppChar | common.c:173-183 | `app_char` appends the character, doubling the capacity first when the buffer is full |
| Buffers.StringToLower | url.c:243 | lowers the content and keeps the capacity |
| Buffers.SliceToString | common.c:267-275 | `slice_to_string` copies the slice's characters, up to the end of the text, into a buffer of `len+1` bytes |
| Queue.NewElement | common.c:64-87 | a new element holds the URL at level 0 with result SUCCESS |
| Buffers.CanAllocate | common.c:96-106 | the copy of `len` characters can be allocated exactly when `len` is below PTRDIFF_MAX: larger `size_t` requests fail, and SIZE_MAX wraps to a zero request |
| Queue.Slice2Element | common.c:90-112 | NULL exactly when the string of `len + 1` bytes cannot be allocated; otherwise an element holding the slice's text (cut at the terminator of the text) at the given redirection level |
| Queue.ListAppend | common.c:132-145 | `list_append` keeps the list and adds the element at the end |
| Queue.InsertAfter | http.c:241-242 | linking after element `i` keeps the elements up to `i` and after it, with the new one in between |
| Queue.InsertAfterRemove | http.c:241-242 | removing the inserted element gives back the original list |
| Queue.BuildFrom | common.c:132-145 | appending elements one by one from a list gives that list followed by the elements, in order |
| Grammar.Run | url.h:18-44 | the length of the leading run of units of a character class |
| Grammar.RunLongest | url.h:37-44 | the run is a sequence of class characters and percent-encodings, and no longer prefix is one |
| Grammar.TokensChars | url.h:22-24 | every character of such a run is in the class or belongs to a `%` followed by two hex digits |
| Grammar.Longest | url.c:280-294 | the longest prefix of the text in a component's language, or none if there is none |
| Grammar.LongestIs | url.c:280-294 | a match with no longer match after it is the longest one |
| Grammar.MatchNonEmpty | url.c:143-149 | no component language holds the empty string |
| Grammar.SchemeClosedForm | url.c:143 | the scheme pattern matches exactly a letter, a run of scheme characters and `://` |
| Grammar.UserInfoClosedForm | url.c:144 | the userinfo pattern matches up to and including the LAST `@` in the leading run of userinfo characters |
| Grammar.Ipv4Subsumed | url.h:25-26 | every string in the IPv4 alternation as written (which is not parenthesised) is also a reg-name, so it never changes the host match |
| Grammar.HostClosedForm | url.c:145 | a host not starting with `[` is the longest run of reg-name units |
| Grammar.HostMatchIsRegName | url.c:145 | such a host contains no `/`, `?`, `#`, `:` or `[` |
| Grammar.PortClosedForm | url.c:146 | the port pattern matches `:` and all the digits after it |
| Grammar.PathQueryFragClosedForm | url.c:147-149 | path, query and fragment match their lead character (`/`, `?`, `#`) and the maximal run of units after it |
| Grammar.PathAbsShape | url.h:40 | an absolute path starts with `/` and contains no `?` or `#` |
| Grammar.RootlessStart | url.h:44 | a rootless path starts with a path character or a percent-encoding |
| Grammar.NoSchemeColon | url.h:41-42 | a `:` in a path without a scheme comes after a `/` |
| Url.Index | url.h:48-58 | the component order of `re_url_indexes` |
| Url.Scan | url.c:278-295 | the matching loop: each component is matched at the cursor left by the previous one, and the steps chain |
| Url.ScanMatched | url.c:280-294 | every step of the loop holds the longest match of its component's pattern at its cursor |
| Url.JoinedCovers | url.c:293 | the matched pieces laid end to end are exactly the text from the first cursor to the last |
| Url.SpelledWhole | url.c:296-298 | when the final cursor is the end of the URL, the matched pieces spell the whole URL |
| Url.InitUrl | url.c:5-11 | `init_url`: no parts, type UNKNOWN |
| Url.EraseUrl | url.c:14-18 | `erase_url` empties every allocated part, keeping its capacity |
| Url.StorePart | url.c:285-291 | one `set_stringn`: a hit stores exactly the matched text, a miss leaves the part as it was |
| Url.GetSrcType | url.c:119-136 | case-insensitive comparison with `file://`, `https://` and `http://`; NULL means `https://` |
| Url.SchemesDistinct | url.c:124-132 | the three scheme comparisons exclude each other, so the order of the tests does not matter |
| Url.GetSrcTypeIgnoresCase | url.c:119-136 | lowering the scheme does not change the source type |
| Url.ResUrl | url.c:171-207 | no scheme hit gives HTTPS; an unsupported scheme, or a missing path (file) or host (network), or unparsed rest, gives URL_ERROR |
| Url.DefaultPart | url.c:217-225 | an empty part gets the default text and a non-empty one is kept |
| Url.NormalizePort | url.c:227-243 | the port loses its `:`; an empty port is replaced by the scheme cut by `trunc_string(-3)`, which counts from the buffer's capacity; the port is then lowered |
| Url.BareColonPort | url.c:227-241 | with the port `:` the capacity rule gives different ports by scheme: `https://` is kept whole, `http://` becomes `http` |
| Url.Normalize | url.c:210-264 | a file URL is untouched; otherwise the scheme and path get their defaults and the port is normalized, and no other part changes |
| Url.Tokenize | url.c:278-295 | every part holds its component's matched text, or is left as it was when the component did not match |
| Url.SchemeHitLength | url.c:143 | a scheme hit is at least four characters long |
| Url.MatchUrl | url.c:268-316 | the loop and `res_url`: the type is the one of the matched scheme (HTTPS without one), and URL_ERROR comes exactly for the rejected scans |
| Url.ParseUrl | url.c:268-322 | `parse_url` returns the scan of the matching loop and fails, with URL_ERROR, exactly when `res_url` rejects that scan under the scheme's source type; on success the matched parts spell the whole URL; an accepted network URL has the matched scheme or "https://", the matched path or "/" and the normalized matched port, an accepted file URL keeps every part as the loop stored it, and userinfo, host, query and fragment hold their matched text or stay as erased when unmatched |
| Url.NormalizeMatched | url.c:314-319 | after an accepted scan, userinfo, host, query and fragment keep their matched text; a file URL keeps scheme, port and path as well; a network URL gets the matched scheme or the default, the matched path or "/", and the normalized port |
| Url.IsPath | url.c:83-116 | as written `is_path` reports SUCCESS with "not a path" for every input |
| Url.IsPathIgnoresMatch | url.c:101-109 | `/` is in the absolute path language, yet `is_path` reports false |
| Url.IsPathIntended | url.c:87-106 | a path exactly when one of the three path patterns has a non-empty match at the start |
| Url.IsPathIntendedShape | url.h:40-44 | every string starting with `/` is a path, and a path starts with `/`, a path character or `%` |
| Url.AppendAuthority | url.c:58-63 | the copy loop dereferences an absent (NULL) part (undefined) exactly when some part before the path is absent; otherwise it yields the concatenation of those parts |
| Url.AppendAuthorityIntended | url.c:58-63 | skipping absent parts always yields the concatenation of the present parts before the path |
| Url.ReplacePath | url.c:44-80 | as written: a rejected URL gives NULL; a URL without userinfo makes the loop dereference NULL; otherwise the result is the parts before the path, the old path if the new one is relative, then the new path. The port is stored without its `:` |
| Url.ParseFresh | url.c:45-56 | the URL is parsed into a freshly initialised `url_t` |
| Url.Assemble | url.c:58-79 | the rebuilt URL is the parts before the path, then the old path for a relative new path, then the new path |
| Url.ReplacePathIntended | url.c:44-80 | with absent parts skipped the result is never undefined, and is NULL exactly when the URL is rejected |
| Response.Wrap | utils.c:366-367 | a `size_t` difference wraps modulo 2^64 |
| Response.MatchEnd | utils.c:264-272 | the end of the longest match of each response pattern at a position |
| Response.PairedUpTo | utils.c:266 | the header-block prefix holds exactly while every LF follows a CR |
| Response.MatchEndIsLongest | utils.c:264-275 | the match end is the longest prefix in the pattern's language, and none means no prefix is |
| Response.SearchLeftmost | utils.c:309-372 | `regexec` with `REG_NEWLINE` finds the leftmost line start with a match, with the longest match there |
| Response.SearchAtCursor | utils.c:309-326 | a match at the cursor itself is found with offset 0 |
| Response.Search | utils.c:352-353 | a `regexec` match lies in the text from the cursor, its start no later than its end |
| Response.IsLineEmpty | utils.c:339-341 | a line is empty exactly when the line pattern matches at it with just its CRLF |
| Response.Skip | utils.c:285-291 | `skip_w_spaces` stops at the first non-space |
| Response.ParseFirstLine | utils.c:304-336 | fills version, status and phrase on SUCCESS, leaves location and body alone, and the version, status and phrase slices it sets lie inside the text |
| Response.FirstLineVersion | utils.c:309-313 | the version is the run of characters up to the first blank or line end |
| Response.FirstLineStatus | utils.c:315-323 | HTTP_ERROR exactly when no line from the cursor on starts with three digits; the status is a 3-character slice at the cursor |
| Response.FirstLinePhrase | utils.c:325-333 | the phrase runs up to the next CR or LF |
| Response.LineMatchLength | utils.c:267 | a line match includes its CRLF |
| Response.LocationUpdate | utils.c:362-368 | a `Location:` match sets the location slice and changes nothing else |
| Response.LocationOnOwnLine | utils.c:362-368 | with `Location:` at the line start the value is the text after the spaces, up to the CRLF |
| Response.LocationFromLaterLine | utils.c:362-367 | for a header line whose line end is its own CRLF (the line search found it at the cursor, as always in the corrected loop), a `Location:` found on a LATER line gives a slice that starts past that end and whose `size_t` length has wrapped |
| Response.LocationTagCaseSensitive | utils.c:271-275 | the pattern is compiled without `REG_ICASE`, so `location:` is not recognised |
| Response.Finish | utils.c:376-381 | no header line read gives HTTP_ERROR |
| Response.Headers | utils.c:344-382 | the header loop: an error only from the first line or an empty head, and the first line's fields are kept by the later lines |
| Response.HeaderStepOvershoots | utils.c:371-373 | as written, after lines skipped by the line search both the next cursor and the line end given to the `Location` step lie `so` characters past the end of the line found |
| Response.OvershotLocation | utils.c:362-371 | as written, a `Location` line reached after `so` skipped characters gets a slice `so` characters longer than its value, over its own CR |
| Response.HeadersIntended | utils.c:344-382 | the corrected loop (next cursor at the end of the line found) always reaches a verdict and keeps the first line's fields and the text bounds |
| Response.HeaderStepIntended | utils.c:371-373 | in the corrected loop every round hands the `Location` step the end of the line found and resumes there |
| Response.IntendedLocation | utils.c:362-367 | in the corrected loop a `Location` line reached after skipped lines gets exactly its value, without CRLF |
| Response.ParseHttpRespIntended | utils.c:385-411 | over the corrected loop the response is always judged, with the fields and bounds of `parse_http_resp` |
| Response.ParseHttpResp | utils.c:385-411 | SUCCESS fills version, status, phrase and body; the version, status and phrase slices lie inside the text, the `Location` slice starts inside it (its `size_t` length may run past the end), and the body starts at most at the end |
| Response.NoHeaderBlockRejected | utils.c:397-402 | HTTP_ERROR with nothing filled exactly when no line start has a header block |
| Response.HeaderBlockBody | utils.c:397-404 | the body starts right after the longest header block ending in CRLFCRLF |
| Response.HeaderBlockGreedy | utils.c:266 | the body starts no earlier than any CRLFCRLF the block can reach |
| Response.EmptyFirstLineRejected | utils.c:355-379 | a response starting with an empty line is an HTTP error |
| Response.StatusLineAtStart | utils.c:355-360 | with a header block and a first line, the outcome is that of `parse_first_line` on it |
| Http.StrToul | http.c:267 | `strtoul` saturates at ULONG_MAX |
| Http.ToInt | http.c:267 | the conversion to `int` wraps modulo 2^32 |
| Http.CDiv | http.c:215 | C division truncates toward zero |
| Http.CheckHttpStatus | http.c:214-225 | 2xx is SUCCESS, 3xx HTTP_REDIRECT, anything else HTTP_ERROR (negative codes included) |
| Http.ThreeDigitStatus | http.c:254-268 | a three-digit status has its decimal value, and its class is its first digit |
| Http.NonNumericStatus | http.c:267-268 | a status that does not start with a digit, sign or space reads as 0, an HTTP error |
| Http.Redirect | http.c:228-250 | below MAX_REDIR_NUM and with a location, the target is linked right after the entry one level deeper, or INTERNAL_ERROR when the location's copy cannot be allocated; otherwise HTTP_ERROR; only a redirect changes the list |
| Http.StatusOfSlice | http.c:254-267 | the status value is read from the status slice's text |
| Http.CheckHttpResp | http.c:253-281 | only a redirect changes the list |
| Http.CheckHttpRespOutcome | http.c:253-281 | SUCCESS exactly for 2xx; HTTP_REDIRECT exactly for 3xx below the limit with a location whose copy can be allocated, with the target inserted; INTERNAL_ERROR exactly when that copy cannot be allocated |
| Http.LaterLocationRefused | http.c:233-239 | for a header line whose line end is its own CRLF, a `Location` tag found on a later line gets a wrapped length, so its copy cannot be allocated and the redirect is an INTERNAL_ERROR |
| Http.OvershotLocationFollowed | http.c:233-243 | a `Location` line reached after lines not ending in CRLF gets a length past its value that can be allocated, so the redirect is followed to a URL holding the header line's CR |
| Http.Request | http.c:20-28 | `snprintf` into INIT_NET_BUFF_SIZE bytes: the request text, cut to 16383 characters when longer |
| Http.RequestPaired | http.c:21-26 | every LF of the request follows a CR |
| Http.RequestIsHeaderBlock | http.c:21-26 | a request that fits is, in full, one header block for the response grammar |
| Http.RequestLine | http.c:22 | the first line is `GET <path> HTTP/1.1` |
| Feedfile.NextLf | feedreader.c:69-101 | the next line feed, or the end |
| Feedfile.UrlText | feedreader.c:69-101 | the characters of a line that are kept: no white space and no NUL |
| Feedfile.UrlsFromOriginal | feedreader.c:20-33 | every list entry from a file is an original URL at level 0 with SUCCESS |
| Feedfile.ProcChar | feedreader.c:69-101 | one character step keeps the buffer well formed |
| Feedfile.ProcCharTracks | feedreader.c:69-101 | after each character the state holds the URLs of the finished lines and the kept characters of the current line |
| Feedfile.FoldTracks | feedreader.c:125-132 | the character loop over a prefix of the file tracks its lines |
| Feedfile.FlushTracks | feedreader.c:134-141 | after the last character, moving a non-empty buffer into the list gives the file's URL list |
| Feedfile.ProcChars | feedreader.c:125-132 | the loop computes the fold of `proc_char` over the file |
| Feedfile.ParseFeedfile | feedreader.c:111-157 | an unreadable file is FILE_ERROR with no URLs; otherwise the URLs are the non-comment lines with white space removed, one per line with content, in file order |
| Feedfile.SpacesDropped | feedreader.c:85-87 | white space inside a line is dropped, not a separator |
| Feedfile.CommentMark | feedreader.c:85-98 | `#` starts a comment only as the first kept character of a line, even after leading white space; after URL characters it is part of the URL |
| Cli.InitSettings | cli.c:12-14 | every pointer NULL and every flag false |
| Cli.RecOpt | cli.c:99-139 | the letters `hTua` are flags, `fcC` take arguments, any other letter is a usage error |
| Cli.RecLopt | cli.c:152-171 | the only long option is `--help` |
| Cli.GetArg | cli.c:184-199 | an attached argument is taken as it is; otherwise the next `argv` element, and it is missing only at the end |
| Cli.SetValues | cli.c:212-228 | sets the option's flag and stores its argument; a missing argument is a usage error |
| Cli.ScanShort | cli.c:259-271 | the letter loop ends with SUCCESS or USAGE_ERROR, uses only `argv` elements that exist, and never sets the URL or clears the help flag |
| Cli.ParseFrom | cli.c:233-273 | the argument loop ends with SUCCESS or USAGE_ERROR; a changed URL is a plain element at or after the start; the help flag stays set |
| Cli.ParseOpts | cli.c:231-276 | SUCCESS exactly when the last element the loop visits lets it go on; the URL is the last visited plain element (elements taken as option arguments are not visited), or unchanged when none is |
| Cli.ScanEndAgrees | cli.c:259-271 | the letter loop fails exactly where the letter-by-letter account `ScanEnd` fails, and otherwise ends at the element it names, whatever the settings |
| Cli.ParseStep | cli.c:233-272 | one round of the argument loop fails exactly where `Next` says, and otherwise goes on at `Next` with the URL set only by a plain element |
| Cli.LastVisitedPlainWins | cli.c:233-273 | from any element the loop's outcome and URL are those of the elements it visits: the last visited plain element wins |
| Cli.ArgumentNotUrl | cli.c:236-267 | for `prog a -f b` the URL is `a` and `b` is the feed file |
| Cli.LastUrlWins | cli.c:236-238 | with only plain arguments the last one is the URL |
| Cli.LongOption | cli.c:245-256 | `--help` sets the help flag; any other long option is a usage error |
| Cli.UnknownShortOption | cli.c:259-263 | a letter that is no option, at any place in a short-option token after flag letters, is a usage error |
| Cli.ClusteredFlags | cli.c:259-271 | a token of flag letters sets each flag in turn and moves on to the next element |
| Cli.TimeUrlAuthor | cli.c:99-139 | `-Tua` sets the time, URL and author flags |
| Cli.SeparateArgument | cli.c:184-199 | `-f file` takes the next element; a trailing `-f` is a usage error |
| Cli.AttachedArgumentRescanned | cli.c:259-271 | `-ffile` is a usage error because the argument's letters are scanned as options, while the intended parser sets the feed file |
| Cli.ParseOptsIntended | cli.c:184-199 | the parser that ends the token at an attached argument: SUCCESS and the URL are again those of the visited elements, the last visited plain element winning |
| Cli.AttachedArgumentIntended | cli.c:184-199 | with the token ended, `-ffile` stores `file` and goes on to the next element |
| Feedreader.ValidateSettings | feedreader.c:43-56 | USAGE_ERROR exactly when both or neither of a URL and a feed file are given |
| Feedreader.CreateUrlList | feedreader.c:386-406 | the feed file takes precedence over the URL; a single URL becomes one original entry; the list holds only original entries |
| Feedreader.GetReturnCode | feedreader.c:412-426 | SUCCESS exactly when every entry succeeded, else the first failing entry's result |
| Feedreader.LoadData | feedreader.c:240-252 | an unknown source type is a URL error without loading; any other type goes to the loader |
| Feedreader.ParseData | feedreader.c:259-315 | UNKNOWN gives a URL error; a file is an XML document as it stands; a response is judged by its status class; only a redirect changes the list |
| Feedreader.ParseHttpData | feedreader.c:259-275 | a head that does not parse is an HTTP error with the list unchanged; otherwise the outcome of `check_http_resp` by status class, with the document after the header block on SUCCESS; only a redirect changes the list, splicing the target in after the entry |
| Feedreader.AfterLoad | feedreader.c:356-365 | a redirect counts as SUCCESS with the target spliced in; an error is recorded; a document's parser result is recorded |
| Feedreader.ReparseUrl | feedreader.c:345-348 | the URL is parsed into the erased `url_t`, SUCCESS exactly for accepted URLs |
| Feedreader.Round | feedreader.c:342-365 | one loop round: the entry gets its outcome, a URL error is kept, and no entry keeps HTTP_REDIRECT |
| Feedreader.Visit | feedreader.c:341-366 | one round records a refused URL as a URL error and changes only its own entry and the one after it |
| Feedreader.RecordedWalk | feedreader.c:341 | a round that only records a result keeps the loop invariant and lowers the work still ahead |
| Feedreader.SplicedWalk | feedreader.c:341 | a round that splices in a redirection target keeps the invariant and lowers the work still ahead |
| Feedreader.WalkStep | feedreader.c:341-366 | each round keeps the loop invariant, and the remaining redirection budget strictly decreases |
| Feedreader.WeightBound | http.c:229 | each original URL can cause at most MAX_REDIR_NUM further entries |
| Feedreader.DoFeedread | feedreader.c:328-374 | the loop ends; the original URLs stay in order with their levels; every added entry follows a successful entry one level deeper and at most MAX_REDIR_NUM; no HTTP_REDIRECT is left; every refused URL is a URL error; the list grows to at most (MAX_REDIR_NUM+1) times its length |

## Left out

- Reading files, sockets, TLS (`https_load`, `http_load`, `load_from_file`) and `parse_and_print`: these are the `Loader` and `FeedParser` parameters of `Feedreader`. The model assumes they never return HTTP_REDIRECT: in http.c only `check_http_status` (http.c:220) returns it.
- `fopen` failure in `parse_feedfile` is the `None` file contents. The reading loop is modelled on the whole contents.
- Allocation failure and the INTERNAL_ERROR paths it leads to, except for the copy of the `Location` slice: a request of more than PTRDIFF_MAX bytes fails (`Buffers.CanAllocate`), and every other allocation is treated as infallible.
- `regcomp` failure: the pattern texts are constants and are treated as compiling.
- `main`, `printerr`, `printw`, `print_usage` and `print_help`: these are output and the exit call.
- `MAX_REDIR_NUM` and the value of `HTTP_REDIRECT`: their definitions are not part of this model. `MAX_REDIR_NUM` is taken as 5, and result codes are a datatype.
- `string_to_lower` and `app_string` are not part of this model. They are modelled as ASCII lowering and concatenation.
- Grammar: the IPv6 literal of the host pattern is approximated by its alphabet: a non-empty bracketed run of hex digits, `:` and `.` containing a `:`.
- The feed parser in `feed.c` takes a different number of arguments than its caller in `feedreader.c`; it is outside the model anyway.
- The response document type: `parse_resp_headers` never sets `doc_type`, so a response document keeps the zeroed value, modelled as `Rss`.
- `list_dtor`, `url_dtor` and `string_dtor`: memory release has no counterpart over values.
- `slice2element` leaves `result` uninitialised. The model gives it SUCCESS; `do_feedread` overwrites it before reading it.
- Feedreader.DoFeedread: states the structure of the final list, not each entry's result. The per-entry results are stated round by round by `Feedreader.Round` and `Feedreader.AfterLoad`; `Feedreader.Visit` states only the refusals. A round over a response whose header lines run past the end of the text is undefined behaviour and ends the walk with `None`.
- Url.ReplacePathIntended: still drops the `:` before the port, because `normalize_url` strips it and the rebuilt URL takes the stored port as it is. The corrected member fixes only the NULL part.
- Url.NormalizePort: there is no corrected version of the capacity-relative `trunc_string(-3)`; `Url.BareColonPort` exhibits its effect.

## Findings

| source | as written | input that shows it | evidently intended | confidence | as-written member | corrected member |
|---|---|---|---|---|---|---|
| url.c:101-109 | after the match loop sets the result to true, the next statement sets it to false | `/` (matches the absolute path pattern, reported as not a path) | true when one of the three path patterns matches at the start | not executed | Url.IsPath, Url.IsPathIgnoresMatch | Url.IsPathIntended, Url.IsPathIntendedShape |
| url.c:58-63 | the copy loop reads `->str` of every part before the path, including parts that did not match and are NULL | `https://example.com/feed` (no userinfo part) | skip the parts that are absent | not executed | Url.ReplacePath, Url.AppendAuthority | Url.ReplacePathIntended, Url.AppendAuthorityIntended |
| cli.c:259-271 | after an option letter whose argument is attached, the loop goes on over the argument's characters as option letters | `feedreader -ffile` (second `f` then `i`: usage error) | end the token once the option has taken its attached argument | not executed | Cli.ParseOpts, Cli.AttachedArgumentRescanned | Cli.ParseOptsIntended, Cli.AttachedArgumentIntended |
| utils.c:371-373 | the next cursor is `line_st + rm_eo`, but `rm_eo` counts from the old cursor, so after lines not ending in CRLF it lands `rm_so` characters past the line found, and the `Location` length is measured to that point | `HTTP/1.1 301 M\r\nA\nLocation: /abc\r\n\r\n` (`Location` value taken as `/abc\r\n`, and followed) | start the next round, and end the `Location` value, at the end of the line found (`cursor + rm_eo`) | not executed | Response.Headers, Response.HeaderStepOvershoots, Response.OvershotLocation, Http.OvershotLocationFollowed | Response.HeadersIntended, Response.HeaderStepIntended, Response.IntendedLocation, Response.ParseHttpRespIntended |

=== FILE: buffers.dfy ===
/**
  The growable string ADT `string_t` of common.c.

  A `Buffer` is the whole allocated character array: its length is the
  allocated size (the capacity), and the string it holds is the prefix up to
  the first NUL. The code keeps two facts about its buffers: there is room
  for the terminator (capacity > length, `Valid`), and every byte after the
  terminator is NUL (`Clean`), because every write path first zero-fills.
 */
module Buffers {
  import opened Common

  const INIT_STRING_SIZE: nat := 32
  const INIT_NET_BUFF_SIZE: nat := 16384

  /** The largest request `malloc` can grant: an object may not exceed
      PTRDIFF_MAX bytes, and glibc refuses larger requests. Requests up to
      it are taken to succeed. */
  const PTRDIFF_MAX: int := 0x7FFF_FFFF_FFFF_FFFF

  /** Whether a copy of `len` characters (`new_string(len + 1)`, then
      `set_stringn` of `len`) can be allocated. The request `len + 1` is a
      `size_t`: up to PTRDIFF_MAX it is granted, and its size already
      exceeds `len`, so `set_stringn` does not extend it; above, `malloc`
      fails; for `len` = SIZE_MAX it wraps to zero, and the extension loop
      of `set_stringn` then asks `realloc` for zero bytes, which frees the
      array and fails as well. */
  function CanAllocate(len: nat): (r: bool)
    ensures len < SIZE_MOD ==> (r <==> len < PTRDIFF_MAX)
  {
    var size := (len + 1) % SIZE_MOD;
    if size == 0 then false
    else size <= PTRDIFF_MAX && size > len
  }

  datatype Buffer = Buffer(data: seq<char>)

  /** Index of the first NUL of `s`, or `|s|` when there is none (`strlen`). */
  function FirstNul(s: seq<char>): (r: nat)
    ensures r <= |s|
    ensures NoNul(s[..r])
    ensures r < |s| ==> s[r] == NUL
  {
    if |s| == 0 then 0
    else if s[0] == NUL then 0
    else
      assert s[..1 + FirstNul(s[1..])] == [s[0]] + s[1..][..FirstNul(s[1..])];
      1 + FirstNul(s[1..])
  }

  /** The terminator position is determined by the two facts `FirstNul` promises. */
  lemma {:induction false} FirstNulUnique(s: seq<char>, k: nat)
    requires k <= |s| && NoNul(s[..k])
    requires k < |s| ==> s[k] == NUL
    ensures FirstNul(s) == k
  {
    assert k > 0 ==> s[..k][0] == s[0];
    if |s| > 0 && s[0] != NUL {
      assert k != 0;
      var rest := s[1..][..k - 1];
      assert NoNul(rest) by {
        forall i | 0 <= i < k - 1 ensures rest[i] != NUL {
          assert rest[i] == s[..k][i + 1];
        }
      }
      FirstNulUnique(s[1..], k - 1);
    }
  }

  function Len(b: Buffer): nat { FirstNul(b.data) }

  function Content(b: Buffer): (r: seq<char>)
    ensures NoNul(r) && |r| == Len(b)
  {
    b.data[..Len(b)]
  }

  /** Room for the terminator: capacity > length. */
  predicate Valid(b: Buffer) { Len(b) < |b.data| }

  /** Nothing but NUL after the terminator. */
  predicate Clean(b: Buffer) {
    forall i :: Len(b) <= i < |b.data| ==> b.data[i] == NUL
  }

  predicate Wf(b: Buffer) { Valid(b) && Clean(b) }

  function Zeros(n: nat): (r: seq<char>)
    ensures |r| == n && forall i :: 0 <= i < n ==> r[i] == NUL
  {
    seq(n, i => NUL)
  }

  /** A buffer that holds `s` followed only by NULs. */
  lemma Holds(s: seq<char>, pad: nat)
    requires NoNul(s)
    ensures Content(Buffer(s + Zeros(pad))) == s
    ensures Clean(Buffer(s + Zeros(pad)))
    ensures pad > 0 ==> Wf(Buffer(s + Zeros(pad)))
  {
    var d := s + Zeros(pad);
    assert d[..|s|] == s;
    FirstNulUnique(d, |s|);
  }

  /** `new_string(size)`: an empty string of the given capacity. */
  function NewString(size: nat): (r: Buffer)
    ensures |r.data| == size && Content(r) == [] && Clean(r)
    ensures size > 0 ==> Wf(r)
  {
    Holds([], size);
    assert [] + Zeros(size) == Zeros(size);
    Buffer(Zeros(size))
  }

  /** `ext_string`: doubles the capacity, keeps the old bytes, zero-fills the new ones. */
  function ExtString(b: Buffer): (r: Buffer)
    ensures |r.data| == 2 * |b.data|
    ensures r.data[..|b.data|] == b.data
    ensures forall i :: |b.data| <= i < |r.data| ==> r.data[i] == NUL
    ensures Valid(b) ==> Content(r) == Content(b) && Valid(r)
    ensures Wf(b) ==> Wf(r)
  {
    var r := Buffer(b.data + Zeros(|b.data|));
    assert r.data[..|b.data|] == b.data;
    ExtFacts(b, r);
    r
  }

  lemma ExtFacts(b: Buffer, r: Buffer)
    requires r.data == b.data + Zeros(|b.data|)
    ensures Valid(b) ==> Len(r) == Len(b)
  {
    if Valid(b) {
      assert r.data[..Len(b)] == b.data[..Len(b)];
      FirstNulUnique(r.data, Len(b));
    }
  }

  /** The capacity reached by doubling `cap` until it exceeds `n`
      (the `while(size <= n) ext_string` loops). */
  function Grow(cap: nat, n: nat): (r: nat)
    requires cap > 0
    ensures r > n && r >= cap
    ensures cap > n ==> r == cap
    ensures cap <= n ==> r <= 2 * n
    decreases n + 1 - cap
  {
    if cap > n then cap else Grow(2 * cap, n)
  }

  /** `set_string`: the content becomes `src`; a missing string is allocated
      with capacity strlen(src)+1, an existing one is cleared and doubled as needed. */
  function SetString(dest: Option<Buffer>, src: seq<char>): (r: Buffer)
    requires NoNul(src)
    requires dest.Some? ==> |dest.value.data| > 0
    ensures Wf(r) && Content(r) == src && |r.data| > |src|
    ensures dest.None? ==> |r.data| == |src| + 1
    ensures dest.Some? ==> |r.data| == Grow(|dest.value.data|, |src|)
  {
    var d := if dest.None? then NewString(|src| + 1) else dest.value;
    var cap := Grow(|d.data|, |src|);
    Holds(src, cap - |src|);
    Buffer(src + Zeros(cap - |src|))
  }

  /** `set_stringn(dest, src, n)`: `src` is the C string at the source pointer;
      `strncpy` copies at most `n` characters and stops at its terminator. */
  function SetStringN(dest: Option<Buffer>, src: seq<char>, n: nat): (r: Buffer)
    requires NoNul(src)
    requires dest.Some? ==> |dest.value.data| > 0
    ensures Wf(r) && |r.data| > n
    ensures Content(r) == src[..Min(n, |src|)]
    ensures dest.None? ==> |r.data| == n + 1
    ensures dest.Some? ==> |r.data| == Grow(|dest.value.data|, n)
  {
    var d := if dest.None? then NewString(n + 1) else dest.value;
    var cap := Grow(|d.data|, n);
    var k := Min(n, |src|);
    assert NoNul(src[..k]) by {
      forall i | 0 <= i < k ensures src[..k][i] != NUL { assert src[..k][i] == src[i]; }
    }
    Holds(src[..k], cap - k);
    Buffer(src[..k] + Zeros(cap - k))
  }

  /** `erase_string`: every byte becomes NUL, the capacity stays. */
  function EraseString(b: Buffer): (r: Buffer)
    ensures |r.data| == |b.data| && Content(r) == [] && Clean(r)
    ensures |b.data| > 0 ==> Wf(r)
  {
    NewString(|b.data|)
  }

  /** `is_empty`: no string, no storage, or a NUL first byte. */
  predicate IsEmpty(o: Option<Buffer>)
    ensures IsEmpty(o) <==> o.None? || Content(o.value) == []
  {
    o.None? || |o.value.data| == 0 || o.value.data[0] == NUL
  }

  /** `trunc_string(s, n)`: with n > 0 the bytes are shifted left by
      t = min(|n|, size) over the first size-t positions (the last t keep
      their old values); with n <= 0 the t bytes ending just before index
      size-1 are zeroed. The negative case writes before the array when
      |n| >= size, which the code must not do. */
  function TruncString(b: Buffer, n: int): (r: Buffer)
    requires n < 0 ==> -n < |b.data|
    ensures |r.data| == |b.data|
    ensures n >= |b.data| ==> r == b
    ensures n > 0 && n < |b.data| && Valid(b) && n <= Len(b) ==> Content(r) == Content(b)[n..]
    ensures n > 0 && n < |b.data| && Wf(b) ==> Content(r) == Content(b)[Min(n, Len(b))..]
    ensures n > 0 && Wf(b) && (n <= |b.data| - Len(b) || n >= |b.data|) ==> Wf(r)
    ensures n <= 0 && Wf(b) ==> Wf(r) && Content(r) == Content(b)[..Min(Len(b), |b.data| + n - 1)]
  {
    var size := |b.data|;
    var a := if n >= 0 then n else -n;
    var t := if a > size then size else a;
    if n > 0 then
      var r := Buffer(seq(size, i requires 0 <= i < size =>
                            if i + t < size then b.data[i + t] else b.data[i]));
      TruncFrontFacts(b, n, t, r);
      r
    else
      var r := Buffer(seq(size, i requires 0 <= i < size =>
                            if size - t - 1 <= i < size - 1 then NUL else b.data[i]));
      TruncBackFacts(b, n, t, r);
      r
  }

  lemma TruncFrontFacts(b: Buffer, n: int, t: nat, r: Buffer)
    requires n > 0 && t == Min(n, |b.data|) && |r.data| == |b.data|
    requires forall i :: 0 <= i < |b.data| - t ==> r.data[i] == b.data[i + t]
    requires forall i :: |b.data| - t <= i < |b.data| ==> r.data[i] == b.data[i]
    ensures n >= |b.data| ==> r == b
    ensures n < |b.data| && Valid(b) && n <= Len(b) ==> Content(r) == Content(b)[n..]
    ensures n < |b.data| && Wf(b) ==> Content(r) == Content(b)[Min(n, Len(b))..]
    ensures Wf(b) && (n <= |b.data| - Len(b) || n >= |b.data|) ==> Wf(r)
  {
    var size, L := |b.data|, Len(b);
    if n >= size {
      assert r.data == b.data;
    } else if Valid(b) {
      if t <= L {
        assert r.data[..L - t] == Content(b)[t..];
        FirstNulUnique(r.data, L - t);
        if Clean(b) && t <= size - L {
          forall i | L - t <= i < size ensures r.data[i] == NUL {
            if i + t < size {
              assert r.data[i] == b.data[i + t];
              assert b.data[i + t] == NUL;
            } else {
              assert r.data[i] == b.data[i];
              assert b.data[i] == NUL;
            }
          }
        }
      } else if Clean(b) {
        assert r.data[0] == b.data[t];
        assert b.data[t] == NUL;
        FirstNulUnique(r.data, 0);
        assert Content(b)[Min(n, L)..] == [];
        if t <= size - L {
          forall i | 0 <= i < size ensures r.data[i] == NUL {
            if i + t < size {
              assert r.data[i] == b.data[i + t];
              assert b.data[i + t] == NUL;
            } else {
              assert r.data[i] == b.data[i];
              assert b.data[i] == NUL;
            }
          }
        }
      }
    }
  }

  lemma TruncBackFacts(b: Buffer, n: int, t: nat, r: Buffer)
    requires n <= 0 && t == -n && (n < 0 ==> t < |b.data|) && |r.data| == |b.data|
    requires forall i :: 0 <= i < |b.data| ==>
               r.data[i] == (if |b.data| - t - 1 <= i < |b.data| - 1 then NUL else b.data[i])
    ensures Wf(b) ==> Wf(r) && Content(r) == Content(b)[..Min(Len(b), |b.data| + n - 1)]
  {
    if Wf(b) {
      var size, L := |b.data|, Len(b);
      var k := Min(L, size - t - 1);
      assert r.data[..k] == Content(b)[..k];
      assert NoNul(r.data[..k]) by {
        forall i | 0 <= i < k ensures r.data[..k][i] != NUL { assert Content(b)[i] != NUL; }
      }
      assert k < size && r.data[k] == NUL;
      FirstNulUnique(r.data, k);
    }
  }

  /** `app_char`: when the string fills the buffer up to its last byte the
      buffer is doubled once, then `c` is written over the terminator. */
  function AppChar(b: Buffer, c: char): (r: Buffer)
    requires Valid(b)
    ensures |r.data| > Len(b) + 1
    ensures |r.data| == (if Len(b) >= |b.data| - 1 then 2 * |b.data| else |b.data|)
    ensures c == NUL && Wf(b) ==> Wf(r) && Content(r) == Content(b)
    ensures c != NUL && Wf(b) ==> Wf(r) && Content(r) == Content(b) + [c]
  {
    var b1 := if Len(b) >= |b.data| - 1 then ExtString(b) else b;
    assert Len(b1) == Len(b);
    var r := Buffer(b1.data[Len(b1) := c]);
    AppCharFacts(b, b1, c, r);
    r
  }

  lemma AppCharFacts(b: Buffer, b1: Buffer, c: char, r: Buffer)
    requires Valid(b) && Len(b1) == Len(b) && |b1.data| > Len(b) + 1 && |b1.data| >= |b.data|
    requires b1.data[..|b.data|] == b.data
    requires forall i :: |b.data| <= i < |b1.data| ==> b1.data[i] == NUL
    requires r.data == b1.data[Len(b) := c]
    ensures c == NUL && Wf(b) ==> Wf(r) && Content(r) == Content(b)
    ensures c != NUL && Wf(b) ==> Wf(r) && Content(r) == Content(b) + [c]
  {
    if Wf(b) {
      var L := Len(b);
      assert b1.data[..L] == Content(b);
      if c == NUL {
        assert r.data == b1.data;
      } else {
        assert r.data[..L + 1] == Content(b) + [c];
        assert r.data[L + 1] == NUL;
        FirstNulUnique(r.data, L + 1);
      }
    }
  }

  /** `string_to_lower` (its definition is not part of this model): ASCII
      lower-casing of every byte, which leaves NULs where they are. */
  function StringToLower(b: Buffer): (r: Buffer)
    ensures |r.data| == |b.data|
    ensures Content(r) == LowerAll(Content(b))
    ensures Wf(b) ==> Wf(r)
  {
    var r := Buffer(LowerAll(b.data));
    assert r.data[..Len(b)] == LowerAll(Content(b));
    assert NoNul(LowerAll(Content(b)));
    FirstNulUnique(r.data, Len(b));
    r
  }

  /** `slice_to_string`: a fresh string holding at most `len` characters of
      the C string at `text[st..]`. */
  function SliceToString(text: seq<char>, st: nat, len: nat): (r: Buffer)
    requires NoNul(text) && st <= |text|
    ensures Wf(r) && |r.data| == len + 1
    ensures Content(r) == text[st..st + Min(len, |text| - st)]
  {
    var r := SetStringN(Some(NewString(len + 1)), text[st..], len);
    assert text[st..][..Min(len, |text| - st)] == text[st..st + Min(len, |text| - st)];
    r
  }
}

=== FILE: cli.dfy ===
/**
  The command line parser of cli.c. `argv` is a sequence of strings whose
  first element is the program name. The settings record holds option
  arguments as strings where the C code keeps pointers into `argv`; `None`
  is a NULL pointer.

  `ParseOpts` is the parser as written: after an option letter that takes
  an argument attached to it ("-ffile"), scanning goes on over the
  argument's own characters as further option letters.
  `ParseOptsIntended` ends the token at such an argument, as the comment of
  `get_arg` describes.
 */
module Cli {
  import opened Common

  datatype Settings = Settings(url: Option<seq<char>>, feedfile: Option<seq<char>>,
                               certfile: Option<seq<char>>, certaddr: Option<seq<char>>,
                               timeFlag: bool, authorFlag: bool, asocUrlFlag: bool, helpFlag: bool)

  /** `init_settings`: every pointer NULL and every flag false. */
  function InitSettings(): (r: Settings)
    ensures r.url.None? && r.feedfile.None? && r.certfile.None? && r.certaddr.None?
    ensures !r.timeFlag && !r.authorFlag && !r.asocUrlFlag && !r.helpFlag
  {
    Settings(None, None, None, None, false, false, false, false)
  }

  /** The settings fields an option points at: a flag, or an argument. */
  datatype Flag = HelpFlag | TimeFlag | AsocUrlFlag | AuthorFlag
  datatype ArgField = FeedfileArg | CertfileArg | CertaddrArg

  /** `opt_t`: the option's name and the field it sets. */
  datatype Opt = Opt(name: seq<char>, flag: Option<Flag>, arg: Option<ArgField>)

  /** The short options that are flags, and those that take an argument. */
  const SHORT_FLAGS: seq<char> := "hTua"
  const SHORT_ARGS: seq<char> := "fcC"

  function SetFlag(s: Settings, f: Flag): (r: Settings) {
    match f
    case HelpFlag => s.(helpFlag := true)
    case TimeFlag => s.(timeFlag := true)
    case AsocUrlFlag => s.(asocUrlFlag := true)
    case AuthorFlag => s.(authorFlag := true)
  }

  function SetArg(s: Settings, a: ArgField, v: Option<seq<char>>): (r: Settings) {
    match a
    case FeedfileArg => s.(feedfile := v)
    case CertfileArg => s.(certfile := v)
    case CertaddrArg => s.(certaddr := v)
  }

  /** `rec_opt`: a letter of `SHORT_FLAGS` names a flag, a letter of
      `SHORT_ARGS` an argument field, and any other character is a usage
      error. */
  function RecOpt(c: char): (r: (Code, Opt))
    ensures r.0 == Success || r.0 == UsageError
    ensures r.0 == Success <==> c in SHORT_FLAGS || c in SHORT_ARGS
    ensures r.0 == Success ==> r.1.name == [c]
    ensures r.1.flag.Some? <==> c in SHORT_FLAGS
    ensures r.1.arg.Some? <==> c in SHORT_ARGS
  {
    match c
    case 'h' => (Success, Opt("h", Some(HelpFlag), None))
    case 'T' => (Success, Opt("T", Some(TimeFlag), None))
    case 'u' => (Success, Opt("u", Some(AsocUrlFlag), None))
    case 'a' => (Success, Opt("a", Some(AuthorFlag), None))
    case 'f' => (Success, Opt("f", None, Some(FeedfileArg)))
    case 'c' => (Success, Opt("c", None, Some(CertfileArg)))
    case 'C' => (Success, Opt("C", None, Some(CertaddrArg)))
    case _ => (UsageError, Opt([], None, None))
  }

  /** `rec_lopt` on a token starting with "--": only "--help" is known; it
      is a flag, and the index after it is the end of the token. */
  function RecLopt(t: seq<char>): (r: (Code, Opt, nat))
    requires |t| >= 2
    ensures r.0 == Success || r.0 == UsageError
    ensures r.0 == Success <==> t[2..] == "help"
    ensures r.0 == Success ==> r.1.flag == Some(HelpFlag) && r.1.arg.None? && r.2 == |t|
  {
    if t[2..] == "help" then (Success, Opt("help", Some(HelpFlag), None), |t|)
    else (UsageError, Opt([], None, None), 2)
  }

  /** `get_arg`: the rest of the token when it is non-empty; otherwise the
      next element of `argv`, which is then consumed; NULL when there is
      none. The second component is the index of the last element used. */
  function GetArg(args: seq<seq<char>>, i: nat, start: seq<char>): (r: (Option<seq<char>>, nat))
    requires i < |args|
    ensures r.0.None? <==> start == [] && i + 1 == |args|
    ensures start != [] ==> r == (Some(start), i)
    ensures start == [] && r.0.Some? ==> r.1 == i + 1 && r.0.value == args[i + 1]
    ensures r.1 < |args|
  {
    if start == [] then
      if i + 1 == |args| then (None, i) else (Some(args[i + 1]), i + 1)
    else (Some(start), i)
  }

  /** `set_values`: the option's flag is set; its argument field gets
      `get_arg`'s result, and a missing argument is a usage error. */
  function SetValues(args: seq<seq<char>>, i: nat, start: seq<char>, opt: Opt, s: Settings): (r: (Code, Settings, nat))
    requires i < |args|
    ensures r.0 == Success || r.0 == UsageError
    ensures r.0 == UsageError <==> opt.arg.Some? && start == [] && i + 1 == |args|
    ensures opt.arg.None? ==> r.2 == i
    ensures i <= r.2 < |args|
    ensures r.1.url == s.url && (s.helpFlag ==> r.1.helpFlag)
    ensures var s1 := if opt.flag.Some? then SetFlag(s, opt.flag.value) else s;
            r.1 == if opt.arg.Some? then SetArg(s1, opt.arg.value, GetArg(args, i, start).0) else s1
  {
    var s1 := if opt.flag.Some? then SetFlag(s, opt.flag.value) else s;
    if opt.arg.None? then (Success, s1, i)
    else
      var (v, j) := GetArg(args, i, start);
      var s2 := SetArg(s1, opt.arg.value, v);
      if v.None? then (UsageError, s2, j) else (Success, s2, j)
  }

  /** A token that does not start with '-' is a URL. */
  predicate Plain(t: seq<char>) { |t| == 0 || t[0] != '-' }

  /** The loop over the letters of a short-option token `t`, from index
      `cur`; `i` is the index of the last `argv` element used so far. With
      `stop`, the token ends after an option that took its argument. */
  function ScanShort(t: seq<char>, args: seq<seq<char>>, i: nat, cur: nat, s: Settings, stop: bool): (r: (Code, Settings, nat))
    requires i < |args| && cur <= |t|
    ensures r.0 == Success || r.0 == UsageError
    ensures i <= r.2 < |args|
    ensures r.1.url == s.url && (s.helpFlag ==> r.1.helpFlag)
    decreases |t| - cur
  {
    if cur == |t| then (Success, s, i)
    else
      var (c, opt) := RecOpt(t[cur]);
      if c != Success then (c, s, i)
      else
        var (c2, s2, i2) := SetValues(args, i, t[cur + 1..], opt, s);
        if c2 != Success then (c2, s2, i2)
        else if stop && opt.arg.Some? then (Success, s2, i2)
        else ScanShort(t, args, i2, cur + 1, s2, stop)
  }

  /** `parse_opts` from the element at `i`. */
  function ParseFrom(args: seq<seq<char>>, i: nat, s: Settings, stop: bool): (r: (Code, Settings))
    ensures r.0 == Success || r.0 == UsageError
    ensures r.1.url != s.url ==> exists j :: i <= j < |args| && Plain(args[j]) && r.1.url == Some(args[j])
    ensures s.helpFlag ==> r.1.helpFlag
    decreases |args| - i
  {
    if i >= |args| then (Success, s)
    else
      var t := args[i];
      if Plain(t) then ParseFrom(args, i + 1, s.(url := Some(t)), stop)
      else if |t| >= 2 && t[1] == '-' then
        var (c, opt, k) := RecLopt(t);
        if c != Success then (c, s)
        else
          var (c2, s2, i2) := SetValues(args, i, t[k..], opt, s);
          if c2 != Success then (c2, s2) else ParseFrom(args, i2 + 1, s2, stop)
      else
        var (c, s2, i2) := ScanShort(t, args, i, 1, s, stop);
        if c != Success then (c, s2) else ParseFrom(args, i2 + 1, s2, stop)
  }

  /** `parse_opts`: the elements after the program name, in order. */
  function ParseOpts(args: seq<seq<char>>, s: Settings): (r: (Code, Settings))
    ensures r.0 == Success || r.0 == UsageError
    ensures r.1.url != s.url ==> exists j :: 1 <= j < |args| && Plain(args[j]) && r.1.url == Some(args[j])
    ensures VisitedOutcome(args, 1, false, s.url, r)
  {
    LastVisitedPlainWins(args, 1, s, false);
    ParseFrom(args, 1, s, false)
  }

  /** `parse_opts` with an attached argument ending its token. */
  function ParseOptsIntended(args: seq<seq<char>>, s: Settings): (r: (Code, Settings))
    ensures r.0 == Success || r.0 == UsageError
    ensures r.1.url != s.url ==> exists j :: 1 <= j < |args| && Plain(args[j]) && r.1.url == Some(args[j])
    ensures VisitedOutcome(args, 1, true, s.url, r)
  {
    LastVisitedPlainWins(args, 1, s, true);
    ParseFrom(args, 1, s, true)
  }

  /** Where the letter loop over `t` from `cur` ends: the index of the last
      `argv` element it uses, or None when it stops on a usage error. A
      flag letter uses nothing; an argument letter uses the rest of the
      token when there is one (and, with `stop`, ends the token), and the
      next element otherwise. */
  function ScanEnd(t: seq<char>, args: seq<seq<char>>, i: nat, cur: nat, stop: bool): (r: Option<nat>)
    requires i < |args| && cur <= |t|
    ensures r.Some? ==> i <= r.value < |args|
    decreases |t| - cur
  {
    if cur == |t| then Some(i)
    else if t[cur] in SHORT_FLAGS then ScanEnd(t, args, i, cur + 1, stop)
    else if t[cur] !in SHORT_ARGS then None
    else if cur + 1 < |t| then (if stop then Some(i) else ScanEnd(t, args, i, cur + 1, stop))
    else if i + 1 < |args| then Some(i + 1)
    else None
  }

  /** The element the argument loop goes on with after the element at `i`
      and the arguments it uses, or None when it returns a usage error. */
  function Next(args: seq<seq<char>>, i: nat, stop: bool): (r: Option<nat>)
    requires i < |args|
    ensures r.Some? ==> i < r.value <= |args|
  {
    var t := args[i];
    if Plain(t) then Some(i + 1)
    else if |t| >= 2 && t[1] == '-' then (if t[2..] == "help" then Some(i + 1) else None)
    else
      var e := ScanEnd(t, args, i, 1, stop);
      if e.None? then None else Some(e.value + 1)
  }

  /** The indices of the elements the argument loop visits from `i`, in
      order; elements taken as an option's argument are skipped. */
  function Visits(args: seq<seq<char>>, i: nat, stop: bool): (r: seq<nat>)
    ensures forall n :: 0 <= n < |r| ==> i <= r[n] < |args|
    decreases |args| - i
  {
    if i >= |args| then []
    else
      var n := Next(args, i, stop);
      [i] + if n.None? then [] else Visits(args, n.value, stop)
  }

  /** The letter loop fails exactly where `ScanEnd` says, and otherwise
      ends at the element `ScanEnd` names. */
  lemma {:induction false} ScanEndAgrees(t: seq<char>, args: seq<seq<char>>, i: nat, cur: nat, s: Settings, stop: bool)
    requires i < |args| && cur <= |t|
    ensures var r := ScanShort(t, args, i, cur, s, stop);
            (r.0 == Success <==> ScanEnd(t, args, i, cur, stop).Some?)
            && (r.0 == Success ==> r.2 == ScanEnd(t, args, i, cur, stop).value)
    decreases |t| - cur
  {
    if cur < |t| {
      var (c, opt) := RecOpt(t[cur]);
      if c == Success {
        var (c2, s2, i2) := SetValues(args, i, t[cur + 1..], opt, s);
        if c2 == Success && !(stop && opt.arg.Some?) {
          ScanEndAgrees(t, args, i2, cur + 1, s2, stop);
        }
      }
    }
  }

  /** The text of the last element of `ks` that is plain, or `url` when
      none is. */
  function LastPlainUrl(args: seq<seq<char>>, ks: seq<nat>, url: Option<seq<char>>): Option<seq<char>> {
    if |ks| == 0 then url
    else if ks[|ks| - 1] < |args| && Plain(args[ks[|ks| - 1]]) then Some(args[ks[|ks| - 1]])
    else LastPlainUrl(args, ks[..|ks| - 1], url)
  }

  /** A visited list ends normally: it is empty or its last element lets
      the loop go on. */
  predicate Finishes(args: seq<seq<char>>, ks: seq<nat>, stop: bool) {
    |ks| == 0 || (ks[|ks| - 1] < |args| && Next(args, ks[|ks| - 1], stop).Some?)
  }

  /** Whether the loop from `i` ends with SUCCESS and which URL it leaves,
      in terms of the elements it visits: it fails exactly when the last
      visited element is an error, and the URL is the last visited plain
      element, or the one it started with when it visits none. */
  predicate VisitedOutcome(args: seq<seq<char>>, i: nat, stop: bool, url: Option<seq<char>>, r: (Code, Settings)) {
    var ks := Visits(args, i, stop);
    (r.0 == Success <==> Finishes(args, ks, stop)) && r.1.url == LastPlainUrl(args, ks, url)
  }

  /** The last plain element the loop visits is the URL. */
  lemma {:induction false} LastVisitedPlainWins(args: seq<seq<char>>, i: nat, s: Settings, stop: bool)
    ensures VisitedOutcome(args, i, stop, s.url, ParseFrom(args, i, s, stop))
    decreases |args| - i
  {
    if i < |args| {
      var n := Next(args, i, stop);
      var s2 := ParseStep(args, i, s, stop);
      if n.None? {
        assert Visits(args, i, stop) == [i];
        assert [i][..0] == [];
      } else {
        LastVisitedPlainWins(args, n.value, s2, stop);
        var rest := Visits(args, n.value, stop);
        assert Visits(args, i, stop) == [i] + rest;
        LastPlainCons(args, i, rest, s.url);
        FinishesCons(args, i, rest, stop);
      }
    }
  }

  /** One round of the argument loop: it fails where `Next` says, and
      otherwise goes on at `Next` with settings `s2`, whose URL is the
      element itself when it is plain. */
  lemma ParseStep(args: seq<seq<char>>, i: nat, s: Settings, stop: bool) returns (s2: Settings)
    requires i < |args|
    ensures var n := Next(args, i, stop);
            (n.None? ==> !Plain(args[i]) && ParseFrom(args, i, s, stop).0 != Success && ParseFrom(args, i, s, stop).1.url == s.url)
            && (n.Some? ==> ParseFrom(args, i, s, stop) == ParseFrom(args, n.value, s2, stop)
                            && s2.url == if Plain(args[i]) then Some(args[i]) else s.url)
  {
    var t := args[i];
    if Plain(t) {
      s2 := s.(url := Some(t));
    } else if |t| >= 2 && t[1] == '-' {
      var (c, opt, k) := RecLopt(t);
      var (c2, s3, i2) := SetValues(args, i, t[k..], opt, s);
      s2 := s3;
    } else {
      ScanEndAgrees(t, args, i, 1, s, stop);
      var (c, s3, i2) := ScanShort(t, args, i, 1, s, stop);
      s2 := s3;
    }
  }

  lemma FinishesCons(args: seq<seq<char>>, i: nat, rest: seq<nat>, stop: bool)
    requires i < |args| && Next(args, i, stop).Some?
    ensures Finishes(args, [i] + rest, stop) == Finishes(args, rest, stop)
  {
    if |rest| > 0 {
      assert ([i] + rest)[|rest|] == rest[|rest| - 1];
    }
  }

  /** Visiting `i` first only matters when nothing after it is plain. */
  lemma {:induction false} LastPlainCons(args: seq<seq<char>>, i: nat, rest: seq<nat>, url: Option<seq<char>>)
    requires i < |args|
    ensures LastPlainUrl(args, [i] + rest, url) == LastPlainUrl(args, rest, if Plain(args[i]) then Some(args[i]) else url)
    decreases |rest|
  {
    if |rest| > 0 {
      var ks := [i] + rest;
      assert ks[|ks| - 1] == rest[|rest| - 1];
      assert ks[..|ks| - 1] == [i] + rest[..|rest| - 1];
      LastPlainCons(args, i, rest[..|rest| - 1], url);
    } else {
      assert [i] + rest == [i];
      assert [i][..0] == [];
    }
  }

  /** When only URLs follow, parsing succeeds and the last URL wins. */
  lemma {:induction false} LastUrlWins(args: seq<seq<char>>, i: nat, s: Settings, stop: bool)
    requires forall j :: i <= j < |args| ==> Plain(args[j])
    ensures ParseFrom(args, i, s, stop) == (Success, if i < |args| then s.(url := Some(args[|args| - 1])) else s)
    decreases |args| - i
  {
    if i < |args| {
      LastUrlWins(args, i + 1, s.(url := Some(args[i])), stop);
    }
  }

  /** "--help" sets the help flag and parsing goes on; every other token
      starting with "--" is a usage error. */
  lemma LongOption(args: seq<seq<char>>, i: nat, s: Settings, stop: bool)
    requires i < |args| && |args[i]| >= 2 && args[i][0] == '-' && args[i][1] == '-'
    ensures args[i] == "--help" ==> ParseFrom(args, i, s, stop) == ParseFrom(args, i + 1, s.(helpFlag := true), stop)
    ensures args[i] != "--help" ==> ParseFrom(args, i, s, stop) == (UsageError, s)
  {
    assert args[i] == "--help" <==> args[i][2..] == "help" by {
      if args[i][2..] == "help" {
        assert args[i] == args[i][..2] + args[i][2..];
      }
    }
  }

  /** A letter of a short-option token that is not an option is a usage
      error, wherever in the cluster it comes after flag letters. */
  lemma UnknownShortOption(args: seq<seq<char>>, i: nat, bad: nat, s: Settings, stop: bool)
    requires i < |args| && 1 <= bad < |args[i]| && args[i][0] == '-' && args[i][1] != '-'
    requires forall k :: 1 <= k < bad ==> args[i][k] in SHORT_FLAGS
    requires args[i][bad] !in SHORT_FLAGS && args[i][bad] !in SHORT_ARGS
    ensures ParseFrom(args, i, s, stop).0 == UsageError
  {
    ScanUnknown(args[i], args, i, 1, bad, s, stop);
  }

  lemma {:induction false} ScanUnknown(t: seq<char>, args: seq<seq<char>>, i: nat, cur: nat, bad: nat, s: Settings, stop: bool)
    requires i < |args| && cur <= bad < |t|
    requires forall k :: cur <= k < bad ==> t[k] in SHORT_FLAGS
    requires t[bad] !in SHORT_FLAGS && t[bad] !in SHORT_ARGS
    ensures ScanShort(t, args, i, cur, s, stop).0 == UsageError
    decreases bad - cur
  {
    if cur < bad {
      var f := RecOpt(t[cur]).1.flag;
      ScanUnknown(t, args, i, cur + 1, bad, if f.Some? then SetFlag(s, f.value) else s, stop);
    }
  }

  /** The flags named by `t[cur..]`, set one after another. */
  function SetFlags(s: Settings, t: seq<char>, cur: nat): Settings
    requires cur <= |t|
    decreases |t| - cur
  {
    if cur == |t| then s
    else
      var f := RecOpt(t[cur]).1.flag;
      SetFlags(if f.Some? then SetFlag(s, f.value) else s, t, cur + 1)
  }

  lemma {:induction false} ScanFlags(t: seq<char>, args: seq<seq<char>>, i: nat, cur: nat, s: Settings, stop: bool)
    requires i < |args| && cur <= |t|
    requires forall k :: cur <= k < |t| ==> t[k] in SHORT_FLAGS
    ensures ScanShort(t, args, i, cur, s, stop) == (Success, SetFlags(s, t, cur), i)
    decreases |t| - cur
  {
    if cur < |t| {
      var f := RecOpt(t[cur]).1.flag;
      ScanFlags(t, args, i, cur + 1, if f.Some? then SetFlag(s, f.value) else s, stop);
    }
  }

  /** A cluster of flag letters such as "-Tua" sets each of its flags and
      uses no other element. */
  lemma ClusteredFlags(args: seq<seq<char>>, i: nat, s: Settings, stop: bool)
    requires i < |args| && |args[i]| >= 2 && args[i][0] == '-'
    requires forall k :: 1 <= k < |args[i]| ==> args[i][k] in SHORT_FLAGS
    ensures ParseFrom(args, i, s, stop) == ParseFrom(args, i + 1, SetFlags(s, args[i], 1), stop)
  {
    ScanFlags(args[i], args, i, 1, s, stop);
  }

  /** "-Tua" sets the time, URL and author flags. */
  lemma TimeUrlAuthor(s: Settings)
    ensures var r := SetFlags(s, "-Tua", 1);
            r == s.(timeFlag := true, asocUrlFlag := true, authorFlag := true)
  {
  }

  /** The field an argument option letter points at. */
  function ArgOf(c: char): ArgField
    requires c in SHORT_ARGS
  {
    RecOpt(c).1.arg.value
  }

  /** "-f", "-c" or "-C" alone takes the next element as its argument, or
      fails when there is none. */
  lemma SeparateArgument(args: seq<seq<char>>, i: nat, s: Settings, stop: bool)
    requires i < |args| && |args[i]| == 2 && args[i][0] == '-' && args[i][1] in SHORT_ARGS
    ensures i + 1 < |args| ==>
              ParseFrom(args, i, s, stop) == ParseFrom(args, i + 2, SetArg(s, ArgOf(args[i][1]), Some(args[i + 1])), stop)
    ensures i + 1 == |args| ==> ParseFrom(args, i, s, stop).0 == UsageError
  {
    var t := args[i];
    assert t[2..] == [];
    if i + 1 < |args| {
      var opt := RecOpt(t[1]).1;
      assert SetValues(args, i, t[2..], opt, s) == (Success, SetArg(s, ArgOf(t[1]), Some(args[i + 1])), i + 1);
      assert ScanShort(t, args, i, 1, s, stop) == (Success, SetArg(s, ArgOf(t[1]), Some(args[i + 1])), i + 1);
    }
  }

  /** As written, the argument of "-ffile" is scanned again as options:
      'f' sets the feed file again, to "ile", and 'i' is not an option. */
  lemma AttachedArgumentRescanned()
    ensures ParseOpts(["feedreader", "-ffile"], InitSettings()).0 == UsageError
    ensures ParseOptsIntended(["feedreader", "-ffile"], InitSettings())
            == (Success, InitSettings().(feedfile := Some("file")))
  {
    var args: seq<seq<char>> := ["feedreader", "-ffile"];
    var t := args[1];
    assert t[2..] == "file" && t[3..] == "ile";
    assert RecOpt(t[3]).0 == UsageError;
  }

  /** An element taken as an option's argument is not a URL: for
      "prog a -f b" the URL stays "a" and "b" is the feed file. */
  lemma ArgumentNotUrl()
    ensures ParseOpts(["prog", "a", "-f", "b"], InitSettings())
            == (Success, InitSettings().(url := Some("a"), feedfile := Some("b")))
  {
    var args: seq<seq<char>> := ["prog", "a", "-f", "b"];
    assert args[2][2..] == [];
    assert ScanShort(args[2], args, 2, 1, InitSettings().(url := Some("a")), false)
           == (Success, InitSettings().(url := Some("a"), feedfile := Some("b")), 3);
  }

  /** With the token ended at an attached argument, "-fX" sets the field to
      X and parsing goes on with the next element. */
  lemma AttachedArgumentIntended(args: seq<seq<char>>, i: nat, s: Settings)
    requires i < |args| && |args[i]| > 2 && args[i][0] == '-' && args[i][1] in SHORT_ARGS
    ensures ParseFrom(args, i, s, true) == ParseFrom(args, i + 1, SetArg(s, ArgOf(args[i][1]), Some(args[i][2..])), true)
  {
  }
}

=== FILE: common.dfy ===
/**
  Definitions shared by every part of the feed reader model: the optional
  value, the program's result codes, the source and document kinds, and the
  C character predicates (`isspace`, `tolower`, NUL termination) the code
  relies on.
 */
module Common {

  datatype Option<T> = None | Some(value: T)

  /** The result codes of the program, in the order of the error-message
      table of cli.c, plus the internal HTTP_REDIRECT marker used between
      `check_http_resp` and `do_feedread`. */
  datatype Code =
    | Success
    | UsageError
    | FileError
    | UrlError
    | ConnectionError
    | CommunicationError
    | PathError
    | VerificationError
    | HttpError
    | FeedError
    | InternalError
    | HttpRedirect

  /** Where a URL's document comes from (`src_type_t`). */
  datatype SrcType = Unknown | FileSrc | HttpSrc | HttpsSrc

  /** The MIME kinds of `doc_type_t`; `Rss` is the zero value. */
  datatype DocType = Rss | Atom | Xml

  const NUL: char := '\0'

  /** 2^64: `size_t` arithmetic wraps modulo this. */
  const SIZE_MOD: int := 0x1_0000_0000_0000_0000

  /** A C string's content never contains its terminator. */
  predicate NoNul(s: seq<char>) {
    forall i :: 0 <= i < |s| ==> s[i] != NUL
  }

  /** Every slice of a C string's content is NUL-free too. */
  lemma NoNulSlices(s: seq<char>)
    requires NoNul(s)
    ensures forall i :: 0 <= i <= |s| ==> NoNul(s[i..])
    ensures forall i :: 0 <= i <= |s| ==> NoNul(s[..i])
  {
    forall i | 0 <= i <= |s| ensures NoNul(s[i..]) && NoNul(s[..i]) {
      assert forall j :: 0 <= j < |s| - i ==> s[i..][j] == s[i + j];
      assert forall j :: 0 <= j < i ==> s[..i][j] == s[j];
    }
  }

  /** `isspace` in the C locale. */
  predicate IsSpace(c: char) {
    c == ' ' || c == '\t' || c == '\n' || c == '\r' || c == '\U{000B}' || c == '\U{000C}'
  }

  predicate IsUpper(c: char) { 'A' <= c <= 'Z' }

  /** `tolower` in the C locale. */
  function ToLower(c: char): (r: char)
    ensures IsUpper(c) ==> r as int == c as int + 32
    ensures !IsUpper(c) ==> r == c
  {
    if IsUpper(c) then (c as int + 32) as char else c
  }

  function LowerAll(s: seq<char>): (r: seq<char>)
    ensures |r| == |s|
    ensures forall i :: 0 <= i < |s| ==> r[i] == ToLower(s[i])
  {
    seq(|s|, i requires 0 <= i < |s| => ToLower(s[i]))
  }

  /** `strcasecmp(a, b) == 0` on C strings. */
  predicate EqualsIgnoreCase(a: seq<char>, b: seq<char>) {
    |a| == |b| && forall i :: 0 <= i < |a| ==> ToLower(a[i]) == ToLower(b[i])
  }

  function Min(a: int, b: int): int { if a <= b then a else b }
}

=== FILE: feedfile.dfy ===
/**
  The feed file reader of feedreader.c (`proc_char`, `move_to_list` and
  `parse_feedfile`): a text file with one URL per line, in which white
  space is dropped wherever it occurs and a line whose first kept character
  is `#` is a comment.

  `FileUrls` gives an independent, line-based reading of the format;
  `ParseFeedfile` is the character-by-character state machine of the code
  and its contract says the two agree.
 */
module Feedfile {
  import opened Common
  import Buffers
  import Queue

  const LF: char := '\n'

  /** The first line feed at or after `i`, or `|text|`: where the line
      starting at `i` ends. */
  function NextLf(text: seq<char>, i: nat): (r: nat)
    requires i <= |text|
    ensures i <= r <= |text|
    ensures r < |text| ==> text[r] == LF
    decreases |text| - i
  {
    if i == |text| || text[i] == LF then i else NextLf(text, i + 1)
  }

  /** A line feed at `k`, with none between `i` and `k`, is where the line
      starting at `i` ends. */
  lemma {:induction false} NextLfIs(text: seq<char>, i: nat, k: nat)
    requires i <= k <= |text| && (k < |text| ==> text[k] == LF)
    requires forall j :: i <= j < k ==> text[j] != LF
    ensures NextLf(text, i) == k
    decreases k - i
  {
    if i < k {
      NextLfIs(text, i + 1, k);
    }
  }

  /** The first character of `text[a..b]` that is not white space. */
  function FirstKept(text: seq<char>, a: nat, b: nat): (r: Option<nat>)
    requires a <= b <= |text|
    ensures r.Some? ==> a <= r.value < b && !IsSpace(text[r.value])
    decreases b
  {
    if b == a then None
    else
      var f := FirstKept(text, a, b - 1);
      if f.Some? then f else if !IsSpace(text[b - 1]) then Some(b - 1) else None
  }

  /** The number of characters of `text[a..b]` that are not white space. */
  function KeptCount(text: seq<char>, a: nat, b: nat): (r: nat)
    requires a <= b <= |text|
    ensures r == 0 <==> FirstKept(text, a, b).None?
    decreases b
  {
    if b == a then 0 else KeptCount(text, a, b - 1) + (if IsSpace(text[b - 1]) then 0 else 1)
  }

  /** The characters of `text[a..b]` that are neither white space nor NUL,
      in order: what the line buffer holds as a C string. */
  function UrlText(text: seq<char>, a: nat, b: nat): (r: seq<char>)
    requires a <= b <= |text|
    ensures NoNul(r) && |r| <= KeptCount(text, a, b)
    decreases b
  {
    if b == a then []
    else
      var c := text[b - 1];
      UrlText(text, a, b - 1) + (if IsSpace(c) || c == NUL then [] else [c])
  }

  /** The line `text[a..b]` is a comment: its first kept character is `#`. */
  predicate Comment(text: seq<char>, a: nat, b: nat)
    requires a <= b <= |text|
  {
    var f := FirstKept(text, a, b);
    f.Some? && text[f.value] == '#'
  }

  /** The entry the line `text[a..b]` contributes: none for a blank or
      comment line, otherwise its URL text. */
  function LineUrls(text: seq<char>, a: nat, b: nat): (r: seq<Queue.Entry>)
    requires a <= b <= |text|
  {
    if KeptCount(text, a, b) == 0 || Comment(text, a, b) then []
    else [Queue.Entry(UrlText(text, a, b), 0, Success)]
  }

  /** The entries of the lines from position `a` on, in line order. */
  function UrlsFrom(text: seq<char>, a: nat): seq<Queue.Entry>
    requires a <= |text|
    decreases |text| - a
  {
    var k := NextLf(text, a);
    if k < |text| then LineUrls(text, a, k) + UrlsFrom(text, k + 1) else LineUrls(text, a, k)
  }

  /** Every entry of a feed file is an original URL, at depth 0 with
      result SUCCESS, and its text holds no NUL. */
  lemma {:induction false} UrlsFromOriginal(text: seq<char>, a: nat)
    requires a <= |text|
    ensures Queue.AllOriginal(UrlsFrom(text, a))
    decreases |text| - a
  {
    var k := NextLf(text, a);
    var line := LineUrls(text, a, k);
    assert Queue.AllOriginal(line);
    if k < |text| {
      UrlsFromOriginal(text, k + 1);
      Queue.AllOriginalConcat(line, UrlsFrom(text, k + 1));
    }
  }



  /** The URL list a feed file stands for, line by line. */
  function FileUrls(text: seq<char>): seq<Queue.Entry> {
    UrlsFrom(text, 0)
  }

  /** The state `parse_feedfile` threads through `proc_char`: the count of
      characters appended to the line buffer, the comment flag, the buffer
      and the list built so far. */
  datatype State = State(len: nat, cmnt: bool, buf: Buffers.Buffer, list: seq<Queue.Entry>)

  /** `proc_char` (allocation never fails here). A line feed ends the
      comment and, when characters were appended, moves the buffer into
      the list; white space and characters of a comment are skipped; a
      `#` before any appended character starts a comment; any other
      character is appended. */
  function ProcChar(st: State, c: char): (r: State)
    requires Buffers.Wf(st.buf)
    ensures Buffers.Wf(r.buf)
  {
    var cmnt := if c == LF then false else st.cmnt;
    if st.len > 0 && c == LF then
      State(0, cmnt, Buffers.EraseString(st.buf), Queue.ListAppend(st.list, Queue.NewElement(Buffers.Content(st.buf))))
    else if (st.len == 0 && c == LF) || IsSpace(c) || cmnt then
      st.(cmnt := cmnt)
    else if c == '#' && st.len == 0 then
      st.(cmnt := true)
    else
      st.(buf := Buffers.AppChar(st.buf, c), len := st.len + 1)
  }

  /** The comment flag, the count and the buffer describe the current line
      `text[a..i]`, which holds no line feed. */
  predicate LineTracks(st: State, text: seq<char>, a: nat, i: nat)
    requires a <= i <= |text|
  {
    Buffers.Wf(st.buf)
    && (forall j :: a <= j < i ==> text[j] != LF)
    && (st.cmnt <==> Comment(text, a, i))
    && (st.cmnt ==> st.len == 0 && Buffers.Content(st.buf) == [])
    && (!st.cmnt ==> st.len == KeptCount(text, a, i) && Buffers.Content(st.buf) == UrlText(text, a, i))
  }

  /** The state after `text[..i]`, whose current line starts at `a`,
      agrees with the line-based reading: the list and the lines from `a`
      on make up the whole file's list, and the rest of the state describes
      the current line. */
  predicate Tracks(st: State, text: seq<char>, a: nat, i: nat)
    requires a <= i <= |text|
  {
    FileUrls(text) == st.list + UrlsFrom(text, a) && LineTracks(st, text, a, i)
  }

  /** One more character of the line: the three line measures grow by it. */
  lemma LineStep(text: seq<char>, a: nat, i: nat)
    requires a <= i < |text|
    ensures var c := text[i];
            KeptCount(text, a, i + 1) == KeptCount(text, a, i) + (if IsSpace(c) then 0 else 1)
            && FirstKept(text, a, i + 1) == (if FirstKept(text, a, i).Some? then FirstKept(text, a, i)
                                             else if IsSpace(c) then None else Some(i))
            && UrlText(text, a, i + 1) == UrlText(text, a, i) + (if IsSpace(c) || c == NUL then [] else [c])
  {
  }

  /** A character inside a line keeps the line relation. */
  lemma ProcCharInLine(st: State, text: seq<char>, a: nat, i: nat)
    requires a <= i < |text| && text[i] != LF
    requires LineTracks(st, text, a, i)
    ensures ProcChar(st, text[i]).list == st.list
    ensures LineTracks(ProcChar(st, text[i]), text, a, i + 1)
  {
    var c := text[i];
    LineStep(text, a, i);
    if IsSpace(c) || st.cmnt {
      assert ProcChar(st, c) == st;
    } else if c == '#' && st.len == 0 {
      assert ProcChar(st, c) == st.(cmnt := true);
    } else {
      var b := Buffers.AppChar(st.buf, c);
      assert ProcChar(st, c) == st.(buf := b, len := st.len + 1);
      assert Buffers.Content(b) == Buffers.Content(st.buf) + (if c == NUL then [] else [c]);
    }
  }

  /** At a line feed the list gains the entry of the finished line. */
  lemma ListAtLf(st: State, text: seq<char>, a: nat, i: nat)
    requires a <= i < |text| && text[i] == LF
    requires LineTracks(st, text, a, i)
    ensures ProcChar(st, text[i]).list == st.list + LineUrls(text, a, i)
    ensures LineTracks(ProcChar(st, text[i]), text, i + 1, i + 1)
  {
    if st.len > 0 {
      assert !st.cmnt;
      assert Buffers.Content(st.buf) == UrlText(text, a, i);
    } else if !st.cmnt {
      assert KeptCount(text, a, i) == 0;
      assert UrlText(text, a, i) == [];
    }
  }

  /** The lines from `a` on are the line ending at `i` and those after it. */
  lemma UrlsSplit(text: seq<char>, a: nat, i: nat)
    requires a <= i < |text| && NextLf(text, a) == i
    ensures UrlsFrom(text, a) == LineUrls(text, a, i) + UrlsFrom(text, i + 1)
  {
  }

  lemma Regroup(x: seq<Queue.Entry>, y: seq<Queue.Entry>, z: seq<Queue.Entry>)
    ensures x + (y + z) == (x + y) + z
  {
  }

  /** A line feed ends the line: its entry joins the list. */
  lemma ProcCharAtLf(st: State, text: seq<char>, a: nat, i: nat)
    requires a <= i < |text| && text[i] == LF
    requires Tracks(st, text, a, i)
    ensures Tracks(ProcChar(st, text[i]), text, i + 1, i + 1)
  {
    NextLfIs(text, a, i);
    UrlsSplit(text, a, i);
    ListAtLf(st, text, a, i);
    var r := ProcChar(st, text[i]);
    var line := LineUrls(text, a, i);
    var rest := UrlsFrom(text, i + 1);
    Regroup(st.list, line, rest);
  }

  /** One character of the file keeps the relation; a line feed starts
      the next line. */
  lemma ProcCharTracks(st: State, text: seq<char>, a: nat, i: nat)
    requires a <= i < |text| && Tracks(st, text, a, i)
    ensures Tracks(ProcChar(st, text[i]), text, if text[i] == LF then i + 1 else a, i + 1)
  {
    if text[i] == LF {
      ProcCharAtLf(st, text, a, i);
    } else {
      ProcCharInLine(st, text, a, i);
    }
  }

  /** At the end of the file the last line is moved to the list when
      characters were appended to it, which completes the list. */
  lemma FlushTracks(st: State, text: seq<char>, a: nat)
    requires a <= |text| && Tracks(st, text, a, |text|)
    ensures (if st.len > 0 then Queue.ListAppend(st.list, Queue.NewElement(Buffers.Content(st.buf))) else st.list)
            == FileUrls(text)
  {
    NextLfIs(text, a, |text|);
    assert UrlsFrom(text, a) == LineUrls(text, a, |text|);
    if st.len == 0 && !st.cmnt {
      assert KeptCount(text, a, |text|) == 0;
    }
  }

  /** Before the first character: an empty list, no comment, an empty
      buffer. */
  lemma TracksStart(text: seq<char>)
    ensures Tracks(Start(), text, 0, 0)
  {
    assert FileUrls(text) == [] + UrlsFrom(text, 0);
  }

  /** The state `parse_feedfile` starts from: an empty list, no comment,
      an empty buffer of the initial size. */
  function Start(): (r: State)
    ensures Buffers.Wf(r.buf)
  {
    State(0, false, Buffers.NewString(Buffers.INIT_STRING_SIZE), [])
  }

  /** The state after `proc_char` has seen `text[..i]`, one character at a
      time in order. */
  function Fold(text: seq<char>, i: nat): (r: State)
    requires i <= |text|
    ensures Buffers.Wf(r.buf)
  {
    if i == 0 then Start() else ProcChar(Fold(text, i - 1), text[i - 1])
  }

  /** Where the line holding position `i` starts: just after the last line
      feed before `i`, or at 0. */
  function LineStart(text: seq<char>, i: nat): (r: nat)
    requires i <= |text|
    ensures r <= i
  {
    if i == 0 then 0 else if text[i - 1] == LF then i else LineStart(text, i - 1)
  }

  /** Every prefix of the file leaves `proc_char` in a state that agrees
      with the line-based reading. */
  lemma {:induction false} FoldTracks(text: seq<char>, i: nat)
    requires i <= |text|
    ensures Tracks(Fold(text, i), text, LineStart(text, i), i)
  {
    if i == 0 {
      TracksStart(text);
    } else {
      var st, a := Fold(text, i - 1), LineStart(text, i - 1);
      FoldTracks(text, i - 1);
      ProcCharTracks(st, text, a, i - 1);
      assert Fold(text, i) == ProcChar(st, text[i - 1]);
      assert LineStart(text, i) == if text[i - 1] == LF then i else a;
    }
  }

  /** The loop of `parse_feedfile`: every character of the file goes
      through `proc_char` in order. */
  method ProcChars(text: seq<char>) returns (st: State)
    ensures st == Fold(text, |text|)
  {
    st := Start();
    for i := 0 to |text|
      invariant st == Fold(text, i)
    {
      st := ReadChar(text, i, st);
    }
  }

  /** One step of the loop in proc_char's caller: the state after reading `text[i]`. */
  method ReadChar(text: seq<char>, i: nat, st: State) returns (next: State)
    requires i < |text| && st == Fold(text, i)
    ensures next == Fold(text, i + 1)
  {
    next := ProcChar(st, text[i]);
  }

  /** `parse_feedfile` on the file's content, or `None` when the file
      cannot be opened (FILE_ERROR). Characters are fed to `proc_char` one
      by one; a last line without a line feed is moved to the list at the
      end. The list is the line-based reading of the file. */
  method ParseFeedfile(file: Option<seq<char>>) returns (code: Code, list: seq<Queue.Entry>)
    ensures file.None? ==> code == FileError && list == []
    ensures file.Some? ==> code == Success && list == FileUrls(file.value)
  {
    if file.None? {
      return FileError, [];
    }
    var st := ProcChars(file.value);
    FoldTracks(file.value, |file.value|);
    FlushTracks(st, file.value, LineStart(file.value, |file.value|));
    list := st.list;
    if st.len > 0 {
      list := Queue.ListAppend(list, Queue.NewElement(Buffers.Content(st.buf)));
    }
    code := Success;
  }


  /** A line without white space or NUL is its own URL text. */
  lemma {:induction false} PlainLine(text: seq<char>, a: nat, b: nat)
    requires a <= b <= |text|
    requires forall j :: a <= j < b ==> !IsSpace(text[j]) && text[j] != NUL
    ensures UrlText(text, a, b) == text[a..b]
    decreases b
  {
    if b > a {
      PlainLine(text, a, b - 1);
      assert text[a..b] == text[a..b - 1] + [text[b - 1]];
    }
  }

  /** White space inside a line is dropped, not treated as a separator:
      `a b` reads as the single URL `ab`. */
  lemma SpacesDropped()
    ensures FileUrls("a b") == [Queue.Entry("ab", 0, Success)]
  {
    var t := "a b";
    assert NextLf(t, 0) == 3;
    assert UrlText(t, 0, 3) == "ab";
    assert FirstKept(t, 0, 3) == Some(0);
  }

  /** A comment mark counts only before any kept character: in `a#b` it is
      part of the URL, while a line whose first kept character is `#` gives
      no entry, even after leading white space. */
  lemma CommentMark()
    ensures FileUrls("a#b") == [Queue.Entry("a#b", 0, Success)]
    ensures FileUrls(" #x\ny") == [Queue.Entry("y", 0, Success)]
  {
    var t := "a#b";
    assert NextLf(t, 0) == 3;
    assert UrlText(t, 0, 3) == "a#b";
    assert FirstKept(t, 0, 3) == Some(0);
    var c := " #x\ny";
    assert NextLf(c, 0) == 3;
    assert FirstKept(c, 0, 3) == Some(1);
    assert NextLf(c, 4) == 5;
    assert UrlText(c, 4, 5) == "y";
    assert FirstKept(c, 4, 5) == Some(4);
  }
}

=== FILE: feedreader.dfy ===
/**
  The driver of feedreader.c: checking the settings, building the URL
  list, walking it, and choosing the exit status.

  Loading a document (`load_data`'s three loaders) and parsing and printing
  a feed (`parse_and_print`) are outside this model. They are the
  parameters `load` and `feed`. Only `check_http_status` produces
  HTTP_REDIRECT, so neither of them returns it.
 */
module Feedreader {
  import opened Common
  import Buffers
  import Queue
  import Url
  import Response
  import Http
  import Feedfile
  import Cli

  /** A result code other than HTTP_REDIRECT. */
  type Verdict = c: Code | c != HttpRedirect witness Success

  /** A loader: the parsed URL, the URL text and the data buffer before
      loading, to the result and the data buffer after loading. */
  type Loader = (Url.UrlT, seq<char>, Buffers.Buffer) -> (Verdict, Buffers.Buffer)

  /** `parse_and_print`: the expected document type, the document text and
      the URL, to the result. */
  type FeedParser = (DocType, seq<char>, seq<char>) -> Verdict

  /** `validate_settings`: exactly one of a URL and a feed file is given. */
  function ValidateSettings(s: Cli.Settings): (r: Code)
    ensures r == Success || r == UsageError
    ensures r == UsageError <==> (s.url.None? <==> s.feedfile.None?)
  {
    if s.url.None? && s.feedfile.None? then UsageError
    else if s.url.Some? && s.feedfile.Some? then UsageError
    else Success
  }

  /** `create_url_list`: the feed file takes precedence over the URL. `file`
      is the content of the feed file, `None` when it cannot be opened. */
  method CreateUrlList(s: Cli.Settings, file: Option<seq<char>>) returns (code: Code, list: seq<Queue.Entry>)
    requires s.url.Some? ==> NoNul(s.url.value)
    ensures s.feedfile.Some? && file.None? ==> code == FileError && list == []
    ensures s.feedfile.Some? && file.Some? ==> code == Success && list == Feedfile.FileUrls(file.value)
    ensures s.feedfile.None? && s.url.Some? ==> code == Success && list == [Queue.Entry(s.url.value, 0, Success)]
    ensures s.feedfile.None? && s.url.None? ==> code == Success && list == []
    ensures forall k :: 0 <= k < |list| ==> Queue.Original(list[k])
  {
    code, list := Success, [];
    if s.feedfile.Some? {
      code, list := Feedfile.ParseFeedfile(file);
      if file.Some? {
        Feedfile.UrlsFromOriginal(file.value, 0);
      }
    } else if s.url.Some? {
      list := Queue.ListAppend(list, Queue.NewElement(s.url.value));
    }
  }

  /** `get_return_code`: the first result that is not SUCCESS, in list
      order, or SUCCESS when there is none. */
  method GetReturnCode(list: seq<Queue.Entry>) returns (code: Code)
    ensures code == Success <==> forall k :: 0 <= k < |list| ==> list[k].result == Success
    ensures code != Success ==>
              exists k :: 0 <= k < |list| && list[k].result == code
                          && forall j :: 0 <= j < k ==> list[j].result == Success
  {
    code := Success;
    var i := 0;
    while i < |list|
      invariant 0 <= i <= |list|
      invariant forall j :: 0 <= j < i ==> list[j].result == Success
    {
      if list[i].result != Success {
        code := list[i].result;
        return;
      }
      i := i + 1;
    }
  }

  /** The list with `code` recorded as the result of the entry at `i`. */
  function Record(list: seq<Queue.Entry>, i: nat, code: Code): (r: seq<Queue.Entry>)
    requires i < |list|
  {
    list[i := list[i].(result := code)]
  }

  /** `out` is `list` with only the result of the entry at `i` changed. */
  predicate Recorded(list: seq<Queue.Entry>, out: seq<Queue.Entry>, i: nat) {
    i < |list| && |out| == |list| && out[..i] == list[..i] && out[i + 1..] == list[i + 1..]
    && out[i].url == list[i].url && out[i].level == list[i].level
  }

  /** `out` is `list` with the result of the entry at `i` changed and a
      redirection target one level deeper spliced in right after it. */
  predicate Spliced(list: seq<Queue.Entry>, out: seq<Queue.Entry>, i: nat) {
    i < |list| && |out| == |list| + 1 && out[..i] == list[..i] && out[i + 2..] == list[i + 1..]
    && out[i].url == list[i].url && out[i].level == list[i].level
    && out[i + 1].level == list[i].level + 1 <= Http.MAX_REDIR_NUM
    && out[i + 1].result == Success && NoNul(out[i + 1].url)
  }

  predicate IsHttp(kind: SrcType) { kind == HttpSrc || kind == HttpsSrc }

  /** The text of the `Location` slice, as `slice2element` copies it. */
  function LocationText(text: seq<char>, resp: Response.HResp): seq<char>
    requires Response.InText(text, resp) && resp.location.Some?
  {
    var loc := resp.location.value;
    text[loc.st..loc.st + Min(loc.len, |text| - loc.st)]
  }

  /** What `parse_data` leaves: the result, the list, the expected document
      type and the document; or the undefined behaviour of a response whose
      header lines run past its end. */
  datatype DataResult = Data(code: Code, list: seq<Queue.Entry>, exp: DocType, doc: seq<char>) | DataUndefined

  /** The outcome `parse_http_data` gives a response text by the status
      class: 2xx is a document after the header block, 3xx below the
      redirection limit with a location is a redirection, or an internal
      error when the location's copy cannot be allocated, and anything
      else, a head that does not parse included, is an HTTP error. */
  predicate HttpVerdict(text: seq<char>, list: seq<Queue.Entry>, i: nat, r: DataResult)
    requires NoNul(text) && i < |list| && r.Data?
  {
    var p := Response.ParseHttpResp(text);
    p.Done?
    && (p.code != Success ==> r.code == HttpError && r.list == list)
    && (p.code == Success ==>
          var status := Http.StatusOf(text, p.resp);
          (r.code == Success <==> 200 <= status < 300)
          && (r.code == HttpRedirect <==>
                300 <= status < 400 && list[i].level < Http.MAX_REDIR_NUM && p.resp.location.Some?
                && Buffers.CanAllocate(p.resp.location.value.len))
          && (r.code == InternalError <==>
                300 <= status < 400 && list[i].level < Http.MAX_REDIR_NUM && p.resp.location.Some?
                && !Buffers.CanAllocate(p.resp.location.value.len))
          && (r.code != Success && r.code != HttpRedirect && r.code != InternalError ==> r.code == HttpError)
          && (r.code == Success ==> r.exp == Rss && r.doc == text[p.resp.body.value..])
          && (r.code == HttpRedirect ==> |r.list| > i + 1 && r.list[i + 1].url == LocationText(text, p.resp)))
  }

  /** `parse_data` (with `parse_http_data`) for the entry at `i`, whose
      source type is `kind` and whose loaded data is `text`. A file is an
      XML document as it stands. The header parser never sets the document
      type of a response, so it keeps the zero of RSS. */
  method ParseData(kind: SrcType, text: seq<char>, list: seq<Queue.Entry>, i: nat) returns (r: DataResult)
    requires NoNul(text) && i < |list|
    ensures kind == Unknown ==> r.Data? && r.code == UrlError && r.list == list
    ensures kind == FileSrc ==> r == Data(Success, list, Xml, text)
    ensures IsHttp(kind) ==> (r.DataUndefined? <==> Response.ParseHttpResp(text).ReadsPastEnd?)
    ensures IsHttp(kind) && r.Data? ==> HttpVerdict(text, list, i, r)
    ensures r.Data? && r.code != HttpRedirect ==> r.list == list
    ensures r.Data? && r.code == HttpRedirect ==> Spliced(Record(list, i, Success), r.list, i)
  {
    if kind == FileSrc {
      return Data(Success, list, Xml, text);
    } else if kind == Unknown {
      return Data(UrlError, list, Rss, []);
    }
    r := ParseHttpData(text, list, i);
  }

  /** `parse_http_data`: the response head is parsed, then judged by
      `check_http_resp`. */
  method ParseHttpData(text: seq<char>, list: seq<Queue.Entry>, i: nat) returns (r: DataResult)
    requires NoNul(text) && i < |list|
    ensures r.DataUndefined? <==> Response.ParseHttpResp(text).ReadsPastEnd?
    ensures r.Data? ==> HttpVerdict(text, list, i, r)
    ensures r.Data? && r.code != HttpRedirect ==> r.list == list
    ensures r.Data? && r.code == HttpRedirect ==> Spliced(Record(list, i, Success), r.list, i)
  {
    var p := Response.ParseHttpResp(text);
    if p.ReadsPastEnd? {
      return DataUndefined;
    } else if p.code != Success {
      return Data(p.code, list, Rss, []);
    }
    Http.CheckHttpRespOutcome(text, p.resp, list, i);
    var (code, list1) := Http.CheckHttpResp(text, p.resp, list, i);
    r := Data(code, list1, Rss, text[p.resp.body.value..]);
  }

  /** What a round of `do_feedread` records for an HTTP or HTTPS entry
      whose response text is `text`: an HTTP error when the head does not
      parse; otherwise, by the status class, the feed parser's result on
      the document after the header block, or SUCCESS with the location
      spliced in after the entry, or INTERNAL_ERROR when the location's
      copy cannot be allocated, or an HTTP error. `None` is the undefined
      behaviour of a head whose lines run past its end. */
  predicate HttpRound(text: seq<char>, list: seq<Queue.Entry>, i: nat, feed: FeedParser, out: Option<seq<Queue.Entry>>)
    requires NoNul(text) && i < |list|
  {
    var p := Response.ParseHttpResp(text);
    (out.None? <==> p.ReadsPastEnd?)
    && (out.Some? && p.Done? && p.code != Success ==> out.value == Record(list, i, HttpError))
    && (out.Some? && p.Done? && p.code == Success ==>
          var status := Http.StatusOf(text, p.resp);
          var follow := 300 <= status < 400 && list[i].level < Http.MAX_REDIR_NUM && p.resp.location.Some?;
          var redirect := follow && Buffers.CanAllocate(p.resp.location.value.len);
          (200 <= status < 300 ==> out.value == Record(list, i, feed(Rss, text[p.resp.body.value..], list[i].url)))
          && (redirect ==> Spliced(list, out.value, i) && out.value[i].result == Success
                           && out.value[i + 1].url == LocationText(text, p.resp))
          && (follow && !redirect ==> out.value == Record(list, i, InternalError))
          && (!(200 <= status < 300) && !follow ==> out.value == Record(list, i, HttpError)))
  }

  /** The entry that redirected is recorded as SUCCESS and the target
      spliced in after it stays. */
  lemma RedirectRecorded(list: seq<Queue.Entry>, d: seq<Queue.Entry>, i: nat)
    requires i < |list|
    requires Spliced(Record(list, i, Success), d, i)
    ensures Spliced(list, Record(d, i, Success), i)
    ensures Record(d, i, Success)[i].result == Success && Record(d, i, Success)[i + 1] == d[i + 1]
  {
    var l1, d1 := Record(list, i, Success), Record(d, i, Success);
    assert l1[..i] == list[..i] && l1[i + 1..] == list[i + 1..];
    assert d1[..i] == d[..i] && d1[i + 2..] == d[i + 2..];
  }

  /** The rest of a round of `do_feedread` once the data is loaded: a
      redirection counts as SUCCESS, an error is recorded, and a document
      goes to the feed parser, whose result is recorded. */
  function Conclude(list: seq<Queue.Entry>, i: nat, d: DataResult, feed: FeedParser): Option<seq<Queue.Entry>>
    requires i < |list|
    requires d.Data? && d.code == HttpRedirect ==> i < |d.list|
  {
    if d.DataUndefined? then None
    else if d.code == HttpRedirect then Some(Record(d.list, i, Success))
    else if d.code != Success then Some(Record(list, i, d.code))
    else Some(Record(list, i, feed(d.exp, d.doc, list[i].url)))
  }

  /** What `parse_data` guarantees about the list, whatever the source. */
  predicate ListShape(list: seq<Queue.Entry>, i: nat, d: DataResult)
    requires i < |list|
  {
    d.Data? ==>
      (d.code != HttpRedirect ==> d.list == list)
      && (d.code == HttpRedirect ==> Spliced(Record(list, i, Success), d.list, i))
  }

  /** A concluded round records a result at `i`, or records SUCCESS there
      and keeps the spliced target; it never leaves a redirection code. */
  lemma ConcludeShape(list: seq<Queue.Entry>, i: nat, d: DataResult, feed: FeedParser)
    requires i < |list| && ListShape(list, i, d)
    ensures var r := Conclude(list, i, d, feed);
      r.Some? ==> (Recorded(list, r.value, i) || (Spliced(list, r.value, i) && r.value[i].result == Success))
                  && r.value[i].result != HttpRedirect
  {
    if d.Data? && d.code == HttpRedirect {
      RedirectRecorded(list, d.list, i);
    }
  }

  /** For an HTTP or HTTPS source the concluded round is the one the
      status class of the response calls for. */
  lemma ConcludeHttp(text: seq<char>, list: seq<Queue.Entry>, i: nat, d: DataResult, feed: FeedParser)
    requires NoNul(text) && i < |list| && ListShape(list, i, d)
    requires d.DataUndefined? <==> Response.ParseHttpResp(text).ReadsPastEnd?
    requires d.Data? ==> HttpVerdict(text, list, i, d)
    ensures HttpRound(text, list, i, feed, Conclude(list, i, d, feed))
  {
    if d.Data? && d.code == HttpRedirect {
      RedirectRecorded(list, d.list, i);
    }
  }

  /** A round of `do_feedread` once the data is loaded, for any source type. */
  method AfterLoad(kind: SrcType, text: seq<char>, list: seq<Queue.Entry>, i: nat, feed: FeedParser)
    returns (r: Option<seq<Queue.Entry>>)
    requires NoNul(text) && i < |list|
    ensures r.Some? ==> Recorded(list, r.value, i) || (Spliced(list, r.value, i) && r.value[i].result == Success)
    ensures r.Some? ==> r.value[i].result != HttpRedirect
    ensures kind == Unknown ==> r == Some(Record(list, i, UrlError))
    ensures kind == FileSrc ==> r == Some(Record(list, i, feed(Xml, text, list[i].url)))
    ensures IsHttp(kind) ==> HttpRound(text, list, i, feed, r)
  {
    var d := ParseData(kind, text, list, i);
    assert ListShape(list, i, d);
    r := Conclude(list, i, d, feed);
    ConcludeShape(list, i, d, feed);
    if IsHttp(kind) {
      ConcludeHttp(text, list, i, d, feed);
    }
  }

  /** `load_data`: the loader for a file, HTTP or HTTPS source; any other
      type is a URL error. */
  function LoadData(u: Url.UrlT, url: seq<char>, buf: Buffers.Buffer, load: Loader): (r: (Code, Buffers.Buffer))
    ensures u.kind == Unknown ==> r == (UrlError, buf)
    ensures u.kind != Unknown ==> r == load(u, url, buf)
    ensures r.0 != HttpRedirect
  {
    if u.kind == Unknown then (UrlError, buf) else load(u, url, buf)
  }

  /** `erase_url` and `parse_url` on the `url_t` the loop reuses. */
  method ReparseUrl(u: Url.UrlT, url: seq<char>) returns (code: Code, u1: Url.UrlT)
    requires NoNul(url) && Url.Reusable(u)
    ensures Url.Reusable(u1)
    ensures code == Success <==> Url.Accepted(url)
    ensures code != Success ==> code == UrlError
    ensures code == Success ==> u1.kind != Unknown
  {
    var steps;
    code, u1, steps := Url.ParseUrl(Url.EraseUrl(u), url);
  }

  /** The outcome of a round whose URL parsed to `u1`: the loader's result
      is recorded when it fails; otherwise a file is parsed as XML and an
      HTTP or HTTPS response goes through `HttpRound`. */
  predicate Loaded(list: seq<Queue.Entry>, i: nat, u1: Url.UrlT, buf: Buffers.Buffer, load: Loader, feed: FeedParser,
                   out: Option<seq<Queue.Entry>>, buf1: Buffers.Buffer)
    requires i < |list|
  {
    var (lc, b) := LoadData(u1, list[i].url, buf, load);
    buf1 == b
    && (lc != Success ==> out == Some(Record(list, i, lc)))
    && (lc == Success && u1.kind == FileSrc ==> out == Some(Record(list, i, feed(Xml, Buffers.Content(b), list[i].url))))
    && (lc == Success && IsHttp(u1.kind) ==> HttpRound(Buffers.Content(b), list, i, feed, out))
  }

  /** One round of the loop of `do_feedread` on the entry at `i`, once
      `parse_url` has given `parsed` and `u1` for its URL: a URL error is
      recorded as it is; otherwise the data is loaded, parsed and the
      result recorded in the entry. */
  method Round(list: seq<Queue.Entry>, i: nat, u1: Url.UrlT, parsed: Code, buf: Buffers.Buffer, load: Loader, feed: FeedParser)
    returns (out: Option<seq<Queue.Entry>>, buf1: Buffers.Buffer)
    requires i < |list| && (parsed == Success || parsed == UrlError)
    requires parsed == Success ==> u1.kind != Unknown
    ensures out.Some? ==> Recorded(list, out.value, i) || (Spliced(list, out.value, i) && out.value[i].result == Success)
    ensures out.Some? ==> out.value[i].result != HttpRedirect
    ensures parsed != Success ==> out == Some(Record(list, i, UrlError)) && buf1 == buf
    ensures parsed == Success ==> Loaded(list, i, u1, buf, load, feed, out, buf1)
  {
    if parsed != Success {
      return Some(Record(list, i, parsed)), buf;
    }
    var loaded := LoadData(u1, list[i].url, buf, load);
    var lc := loaded.0;
    buf1 := loaded.1;
    if lc != Success {
      return Some(Record(list, i, lc)), buf1;
    }
    out := AfterLoad(u1.kind, Buffers.Content(buf1), list, i, feed);
  }

  /** An entry without its result: what `do_feedread` never changes. */
  datatype Origin = Origin(url: seq<char>, level: int)

  function OriginOf(e: Queue.Entry): Origin {
    Origin(e.url, e.level)
  }

  /** The origins of the entries of `list`, in list order. */
  function Origins(list: seq<Queue.Entry>): (r: seq<Origin>)
    ensures |r| == |list|
    ensures forall k :: 0 <= k < |list| ==> r[k] == OriginOf(list[k])
  {
    if list == [] then [] else [OriginOf(list[0])] + Origins(list[1..])
  }

  /** The origins of the entries of `list` that `spliced` does not mark as
      inserted by a redirection, in list order. */
  function Originals(list: seq<Queue.Entry>, spliced: seq<bool>): seq<Origin>
    requires |spliced| == |list|
  {
    if list == [] then []
    else (if spliced[0] then [] else [OriginOf(list[0])]) + Originals(list[1..], spliced[1..])
  }

  lemma {:induction false} OriginalsConcat(a: seq<Queue.Entry>, sa: seq<bool>, b: seq<Queue.Entry>, sb: seq<bool>)
    requires |sa| == |a| && |sb| == |b|
    ensures Originals(a + b, sa + sb) == Originals(a, sa) + Originals(b, sb)
    decreases |a|
  {
    var ab, s := a + b, sa + sb;
    if a == [] {
      assert ab == b && s == sb;
    } else {
      var head := if sa[0] then [] else [OriginOf(a[0])];
      assert ab[0] == a[0] && s[0] == sa[0];
      assert ab[1..] == a[1..] + b && s[1..] == sa[1..] + sb;
      assert Originals(ab, s) == head + Originals(ab[1..], s[1..]);
      OriginalsConcat(a[1..], sa[1..], b, sb);
      assert Originals(a, sa) == head + Originals(a[1..], sa[1..]);
    }
  }


  /** Entries that agree on their origins have the same originals. */
  lemma {:induction false} OriginalsSame(a: seq<Queue.Entry>, b: seq<Queue.Entry>, sp: seq<bool>)
    requires |a| == |b| == |sp|
    requires forall k :: 0 <= k < |a| ==> OriginOf(a[k]) == OriginOf(b[k])
    ensures Originals(a, sp) == Originals(b, sp)
    decreases |a|
  {
    if a != [] {
      OriginalsSame(a[1..], b[1..], sp[1..]);
    }
  }

  /** With nothing spliced in, the originals are all the origins. */
  lemma {:induction false} OriginalsUnspliced(list: seq<Queue.Entry>, sp: seq<bool>)
    requires |sp| == |list| && forall k :: 0 <= k < |sp| ==> !sp[k]
    ensures Originals(list, sp) == Origins(list)
    decreases |list|
  {
    if list != [] {
      OriginalsUnspliced(list[1..], sp[1..]);
    }
  }

  /** How many more entries an entry at redirection depth `level` can lead
      `do_feedread` to visit, itself included: a redirection replaces it by
      an entry one level deeper, and `http_redirect` splices nothing in at
      the limit. */
  function Budget(level: int): (r: nat)
    ensures r >= 1
  {
    if level >= Http.MAX_REDIR_NUM then 1 else Http.MAX_REDIR_NUM + 1 - level
  }

  /** The budgets of all entries of a list together. */
  function Weight(list: seq<Queue.Entry>): nat {
    if list == [] then 0 else Budget(list[0].level) + Weight(list[1..])
  }

  lemma {:induction false} WeightConcat(a: seq<Queue.Entry>, b: seq<Queue.Entry>)
    ensures Weight(a + b) == Weight(a) + Weight(b)
    decreases |a|
  {
    if a == [] {
      assert a + b == b;
    } else {
      WeightConcat(a[1..], b);
      assert (a + b)[1..] == a[1..] + b;
    }
  }

  /** A list of original entries weighs at most MAX_REDIR_NUM + 1 per entry,
      and exactly that when every entry is at depth 0. */
  lemma {:induction false} WeightBound(list: seq<Queue.Entry>)
    requires forall k :: 0 <= k < |list| ==> list[k].level >= 0
    ensures Weight(list) <= (Http.MAX_REDIR_NUM + 1) * |list|
    ensures (forall k :: 0 <= k < |list| ==> list[k].level == 0) ==> Weight(list) == (Http.MAX_REDIR_NUM + 1) * |list|
    decreases |list|
  {
    if list != [] {
      WeightBound(list[1..]);
      assert forall k :: 0 <= k < |list| - 1 ==> list[1..][k] == list[k + 1];
    }
  }

  /** The originals of a list are those of its first `n` entries followed
      by those of the rest. */
  lemma OriginalsSplit(list: seq<Queue.Entry>, sp: seq<bool>, n: nat)
    requires |sp| == |list| && n <= |list|
    ensures Originals(list, sp) == Originals(list[..n], sp[..n]) + Originals(list[n..], sp[n..])
  {
    var x, y, sx, sy := list[..n], list[n..], sp[..n], sp[n..];
    assert x + y == list;
    assert sx + sy == sp;
    OriginalsConcat(x, sx, y, sy);
  }


  /** The weight of a non-empty list: the budget of its first entry and
      the weight of the rest. */
  lemma WeightFirst(list: seq<Queue.Entry>, n: nat)
    requires n < |list|
    ensures Weight(list[n..]) == Budget(list[n].level) + Weight(list[n + 1..])
  {
    assert list[n..][1..] == list[n + 1..];
  }

  /** After a round that only records a result, every other entry is as
      it was. */
  lemma RecordedPointwise(cur: seq<Queue.Entry>, next: seq<Queue.Entry>, i: nat)
    requires Recorded(cur, next, i)
    ensures forall k :: 0 <= k < |cur| && k != i ==> next[k] == cur[k]
  {
    forall k | 0 <= k < |cur| && k != i
      ensures next[k] == cur[k]
    {
      if k < i {
        assert cur[..i][k] == next[..i][k];
      } else {
        assert cur[i + 1..][k - i - 1] == next[i + 1..][k - i - 1];
      }
    }
  }

  /** After a round that splices in a redirection target, the entries
      before the visited one are as they were and those after it have moved
      one place on. */
  lemma SplicedPointwise(cur: seq<Queue.Entry>, next: seq<Queue.Entry>, i: nat)
    requires Spliced(cur, next, i)
    ensures forall k :: 0 <= k < i ==> next[k] == cur[k]
    ensures forall k :: i < k < |cur| ==> next[k + 1] == cur[k]
  {
    forall k | 0 <= k < i
      ensures next[k] == cur[k]
    {
      assert cur[..i][k] == next[..i][k];
    }
    forall k | i < k < |cur|
      ensures next[k + 1] == cur[k]
    {
      assert cur[i + 1..][k - i - 1] == next[i + 2..][k - i - 1];
    }
  }

  /** A round that only records a result keeps the originals and uses up
      the budget of the visited entry. */
  lemma RecordedStep(cur: seq<Queue.Entry>, next: seq<Queue.Entry>, sp: seq<bool>, i: nat)
    requires Recorded(cur, next, i) && |sp| == |cur|
    ensures Originals(next, sp) == Originals(cur, sp)
    ensures Weight(next[i + 1..]) + Budget(cur[i].level) == Weight(cur[i..])
  {
    forall k | 0 <= k < |cur|
      ensures OriginOf(cur[k]) == OriginOf(next[k])
    {
      if k < i {
        assert cur[..i][k] == next[..i][k];
      } else if k > i {
        assert cur[i + 1..][k - i - 1] == next[i + 1..][k - i - 1];
      }
    }
    OriginalsSame(cur, next, sp);
    WeightFirst(cur, i);
  }

  /** A round that splices in a redirection target keeps the originals once
      the target is marked. */
  lemma SplicedOriginals(cur: seq<Queue.Entry>, next: seq<Queue.Entry>, sp: seq<bool>, i: nat)
    requires Spliced(cur, next, i) && |sp| == |cur|
    ensures Originals(next, sp[..i + 1] + [true] + sp[i + 1..]) == Originals(cur, sp)
  {
    var sp1 := sp[..i + 1] + [true] + sp[i + 1..];
    SplicedHead(cur, next, sp, i);
    OriginalsSplit(next, sp1, i + 1);
    assert sp1[..i + 1] == sp[..i + 1];
    OriginalsSkipMarked(next, sp1, i + 1);
    assert sp1[i + 2..] == sp[i + 1..];
    OriginalsSplit(cur, sp, i + 1);
  }

  /** The entries up to the visited one keep their originals. */
  lemma SplicedHead(cur: seq<Queue.Entry>, next: seq<Queue.Entry>, sp: seq<bool>, i: nat)
    requires Spliced(cur, next, i) && |sp| == |cur|
    ensures Originals(next[..i + 1], sp[..i + 1]) == Originals(cur[..i + 1], sp[..i + 1])
  {
    var a, c := next[..i + 1], cur[..i + 1];
    forall k | 0 <= k < |a|
      ensures OriginOf(a[k]) == OriginOf(c[k])
    {
      if k < i {
        assert cur[..i][k] == next[..i][k];
      }
    }
    OriginalsSame(a, c, sp[..i + 1]);
  }

  /** An entry marked as spliced in adds nothing to the originals. */
  lemma OriginalsSkipMarked(list: seq<Queue.Entry>, sp: seq<bool>, n: nat)
    requires |sp| == |list| && n < |list| && sp[n]
    ensures Originals(list[n..], sp[n..]) == Originals(list[n + 1..], sp[n + 1..])
  {
    assert list[n..][1..] == list[n + 1..] && sp[n..][1..] == sp[n + 1..];
  }


  /** A round that splices in a redirection target uses up one unit of the
      visited entry's budget. */
  lemma SplicedWeight(cur: seq<Queue.Entry>, next: seq<Queue.Entry>, i: nat)
    requires Spliced(cur, next, i)
    ensures Weight(next[i + 1..]) + 1 == Weight(cur[i..])
  {
    WeightFirst(next, i + 1);
    WeightFirst(cur, i);
  }

  /** Every URL among the first `n` entries that `parse_url` refuses is
      recorded as a URL error. */
  predicate RefusalsRecorded(list: seq<Queue.Entry>, n: nat)
    requires n <= |list|
  {
    forall k {:trigger Url.Accepted(list[k].url)} :: 0 <= k < n && !Url.Accepted(list[k].url) ==> list[k].result == UrlError
  }

  /** A round as the loop of `do_feedread` needs to know it: the entry is
      recorded, or recorded as SUCCESS with a redirection target spliced in
      after it, and a URL error from `parse_url` is kept. */
  method Advance(list: seq<Queue.Entry>, i: nat, u1: Url.UrlT, parsed: Code, buf: Buffers.Buffer, load: Loader, feed: FeedParser)
    returns (out: Option<seq<Queue.Entry>>, buf1: Buffers.Buffer)
    requires i < |list| && (parsed == Success || parsed == UrlError)
    requires parsed == Success ==> u1.kind != Unknown
    ensures out.Some? ==> Recorded(list, out.value, i) || (Spliced(list, out.value, i) && out.value[i].result == Success)
    ensures out.Some? ==> out.value[i].result != HttpRedirect
    ensures parsed != Success ==> out == Some(Record(list, i, UrlError))
  {
    out, buf1 := Round(list, i, u1, parsed, buf, load, feed);
  }

  /** One round of the loop of `do_feedread` on the entry at `i`, with the
      `url_t` the loop reuses: the URL is parsed, and the entry recorded,
      or recorded as SUCCESS with a redirection target spliced in after
      it. A URL that `parse_url` refuses is recorded as a URL error. */
  method Visit(list: seq<Queue.Entry>, i: nat, u: Url.UrlT, buf: Buffers.Buffer, load: Loader, feed: FeedParser)
    returns (out: Option<seq<Queue.Entry>>, u1: Url.UrlT, buf1: Buffers.Buffer)
    requires i < |list| && NoNul(list[i].url) && Url.Reusable(u)
    ensures Url.Reusable(u1)
    ensures out.Some? ==> Recorded(list, out.value, i) || (Spliced(list, out.value, i) && out.value[i].result == Success)
    ensures out.Some? ==> out.value[i].result != HttpRedirect
    ensures out.Some? && RefusalsRecorded(list, i) ==> RefusalsRecorded(out.value, i + 1)
  {
    var parsed;
    parsed, u1 := ReparseUrl(u, list[i].url);
    out, buf1 := Advance(list, i, u1, parsed, buf, load, feed);
    if out.Some? && RefusalsRecorded(list, i) {
      RefusalsKept(list, out.value, i);
    }
  }

  /** A round that records a refused URL as a URL error keeps every
      refusal before it recorded. */
  lemma RefusalsKept(list: seq<Queue.Entry>, out: seq<Queue.Entry>, i: nat)
    requires Recorded(list, out, i) || Spliced(list, out, i)
    requires RefusalsRecorded(list, i)
    requires !Url.Accepted(list[i].url) ==> out[i].result == UrlError
    ensures RefusalsRecorded(out, i + 1)
  {
    if |out| == |list| {
      RecordedPointwise(list, out, i);
    } else {
      SplicedPointwise(list, out, i);
    }
  }

  /** Every entry marked as spliced in follows, one level deeper and not
      past MAX_REDIR_NUM, an entry recorded as SUCCESS; and none is past
      the entry at `i`. */
  predicate FollowParents(list: seq<Queue.Entry>, spliced: seq<bool>, i: nat)
    requires |spliced| == |list|
  {
    forall k :: 0 <= k < |list| && spliced[k] ==>
      0 < k <= i && list[k - 1].result == Success
      && list[k].level == list[k - 1].level + 1 <= Http.MAX_REDIR_NUM
  }

  /** What holds of the list `cur` that the loop of `do_feedread` has made
      of `list` when it reaches the entry at `i`. */
  predicate Walk(list: seq<Queue.Entry>, cur: seq<Queue.Entry>, spliced: seq<bool>, i: nat) {
    i <= |cur| == |spliced|
    && (forall k :: 0 <= k < |cur| ==> NoNul(cur[k].url))
    && (forall k :: 0 <= k < i ==> cur[k].result != HttpRedirect)
    && RefusalsRecorded(cur, i)
    && FollowParents(cur, spliced, i)
    && Originals(cur, spliced) == Origins(list)
    && i + Weight(cur[i..]) <= Weight(list)
  }

  /** A round that records a result moves the walk on by one entry and
      lowers the weight still ahead. */
  lemma RecordedWalk(list: seq<Queue.Entry>, cur: seq<Queue.Entry>, next: seq<Queue.Entry>, sp: seq<bool>, i: nat)
    requires Walk(list, cur, sp, i) && Recorded(cur, next, i)
    requires next[i].result != HttpRedirect && RefusalsRecorded(next, i + 1)
    ensures Walk(list, next, sp, i + 1)
    ensures Weight(next[i + 1..]) < Weight(cur[i..])
  {
    RecordedStep(cur, next, sp, i);
    RecordedPointwise(cur, next, i);
  }

  /** A round that splices in a redirection target moves the walk on by
      one entry, with the target marked, and lowers the weight still
      ahead. */
  lemma SplicedWalk(list: seq<Queue.Entry>, cur: seq<Queue.Entry>, next: seq<Queue.Entry>, sp: seq<bool>, i: nat)
    requires Walk(list, cur, sp, i) && Spliced(cur, next, i) && next[i].result == Success
    requires RefusalsRecorded(next, i + 1)
    ensures Walk(list, next, sp[..i + 1] + [true] + sp[i + 1..], i + 1)
    ensures Weight(next[i + 1..]) < Weight(cur[i..])
  {
    var sp1 := sp[..i + 1] + [true] + sp[i + 1..];
    SplicedOriginals(cur, next, sp, i);
    SplicedWeight(cur, next, i);
    SplicedPointwise(cur, next, i);
    SplicedParents(cur, next, sp, i);
  }

  lemma SplicedParents(cur: seq<Queue.Entry>, next: seq<Queue.Entry>, sp: seq<bool>, i: nat)
    requires Spliced(cur, next, i) && next[i].result == Success
    requires |sp| == |cur| && i < |cur| && FollowParents(cur, sp, i)
    requires forall k :: 0 <= k < i ==> next[k] == cur[k]
    requires forall k :: i < k < |cur| ==> next[k + 1] == cur[k]
    ensures FollowParents(next, sp[..i + 1] + [true] + sp[i + 1..], i + 1)
  {
    var sp1 := sp[..i + 1] + [true] + sp[i + 1..];
    forall k | 0 <= k < |next| && sp1[k]
      ensures 0 < k <= i + 1 && next[k - 1].result == Success
              && next[k].level == next[k - 1].level + 1 <= Http.MAX_REDIR_NUM
    {
      if k <= i {
        assert sp1[k] == sp[k];
      }
    }
  }

  /** Before the first round: the list as built, nothing spliced in. */
  lemma WalkStart(list: seq<Queue.Entry>)
    requires forall k :: 0 <= k < |list| ==> NoNul(list[k].url)
    ensures Walk(list, list, seq(|list|, k => false), 0)
  {
    var sp := seq(|list|, k => false);
    OriginalsUnspliced(list, sp);
    assert list[0..] == list;
  }

  /** One pass of the loop of `do_feedread`: a round on the entry at `i`,
      after which the walk is one entry further and the weight ahead is
      lower. */
  method WalkStep(list: seq<Queue.Entry>, cur: seq<Queue.Entry>, ghost sp: seq<bool>, i: nat,
                  u: Url.UrlT, buf: Buffers.Buffer, load: Loader, feed: FeedParser)
    returns (next: Option<seq<Queue.Entry>>, ghost sp1: seq<bool>, u1: Url.UrlT, buf1: Buffers.Buffer)
    requires Walk(list, cur, sp, i) && i < |cur| && Url.Reusable(u)
    ensures Url.Reusable(u1)
    ensures next.Some? ==> Walk(list, next.value, sp1, i + 1) && Weight(next.value[i + 1..]) < Weight(cur[i..])
  {
    next, u1, buf1 := Visit(cur, i, u, buf, load, feed);
    sp1 := sp;
    if next.Some? {
      var nx := next.value;
      if |nx| == |cur| {
        RecordedWalk(list, cur, nx, sp, i);
      } else {
        SplicedWalk(list, cur, nx, sp, i);
        sp1 := sp[..i + 1] + [true] + sp[i + 1..];
      }
    }
  }

  /** `do_feedread`: every entry of the list, those spliced in by
      redirections included, is visited once in list order. `spliced`
      marks the entries a redirection inserted. In the result no entry is
      left at HTTP_REDIRECT, every URL `parse_url` refuses is a URL error,
      the original entries keep their URLs, depths and order, every
      inserted entry follows the entry that redirected to it, one level
      deeper and not past MAX_REDIR_NUM, and the list has grown by at most
      MAX_REDIR_NUM entries per original one. `None` is the undefined
      behaviour of a response head whose lines run past its end. */
  method DoFeedread(list: seq<Queue.Entry>, load: Loader, feed: FeedParser)
    returns (out: Option<seq<Queue.Entry>>, ghost spliced: seq<bool>)
    requires forall k :: 0 <= k < |list| ==> NoNul(list[k].url)
    ensures out.Some? ==> |spliced| == |out.value| <= Weight(list)
    ensures out.Some? && (forall k :: 0 <= k < |list| ==> list[k].level >= 0) ==>
              |out.value| <= (Http.MAX_REDIR_NUM + 1) * |list|
    ensures out.Some? ==> Originals(out.value, spliced) == Origins(list)
    ensures out.Some? ==> forall k :: 0 <= k < |out.value| ==> out.value[k].result != HttpRedirect
    ensures out.Some? ==> RefusalsRecorded(out.value, |out.value|)
    ensures out.Some? ==> FollowParents(out.value, spliced, |out.value|)
  {
    var u := Url.InitUrl();
    var buf := Buffers.NewString(Buffers.INIT_NET_BUFF_SIZE);
    var cur := list;
    spliced := seq(|list|, k => false);
    WalkStart(list);
    var i := 0;
    while i < |cur|
      invariant Walk(list, cur, spliced, i) && Url.Reusable(u)
      decreases Weight(cur[i..])
    {
      var next;
      next, spliced, u, buf := WalkStep(list, cur, spliced, i, u, buf, load, feed);
      if next.None? {
        return None, spliced;
      }
      cur := next.value;
      i := i + 1;
    }
    out := Some(cur);
    if forall k :: 0 <= k < |list| ==> list[k].level >= 0 {
      WeightBound(list);
    }
  }
}

=== FILE: grammar.dfy ===
/**
  The URL grammar of url.h: the RFC 3986 character classes, the component
  languages of the seven URL patterns and the three path patterns, and the
  POSIX leftmost-longest rule that `regexec` applies to a `^`-anchored
  pattern (the match is the longest prefix of the text that is in the
  pattern's language).

  The patterns are compiled with REG_EXTENDED | REG_ICASE, so letters and
  hexadecimal digits match in either case. Inside a POSIX bracket
  expression a backslash is an ordinary character, so the macros'
  `\\.` and `\\-` put a backslash into UNRESERVED and SUBDELIMS, and the
  scheme class `[a-z0-9+\-\.]` is letters, digits, '+', '\' and '.'
  (`\-\` is the one-character range from '\' to '\'; '-' is not in it).
 */
module Grammar {
  import opened Common

  predicate IsAlpha(c: char) { 'a' <= c <= 'z' || 'A' <= c <= 'Z' }

  predicate IsDigit(c: char) { '0' <= c <= '9' }

  /** HEXDIG `[0-9a-f]` under REG_ICASE. */
  predicate IsHexDig(c: char) { IsDigit(c) || 'a' <= c <= 'f' || 'A' <= c <= 'F' }

  /** UNRESERVED `[a-z0-9\._~\-]`: letters, digits, '\', '.', '_', '~', '-'. */
  predicate IsUnreserved(c: char) {
    IsAlpha(c) || IsDigit(c) || c == '\\' || c == '.' || c == '_' || c == '~' || c == '-'
  }

  /** SUBDELIMS `[@!\$&'()*+,;=]`: the sub-delims of section 2.2 of RFC 3986
      plus '@' and '\'. */
  predicate IsSubDelim(c: char) {
    c == '@' || c == '!' || c == '\\' || c == '$' || c == '&' || c == '\'' || c == '('
    || c == ')' || c == '*' || c == '+' || c == ',' || c == ';' || c == '='
  }

  /** The scheme class `[a-z0-9+\-\.]` under REG_ICASE. */
  predicate IsSchemeChar(c: char) {
    IsAlpha(c) || IsDigit(c) || c == '+' || c == '\\' || c == '.'
  }

  /** The single-character alternatives of the repeated groups:
      userinfo `U|S|:`, reg-name `U|S`, P_CHAR `U|S|[:@]`, the absolute
      path `P_CHAR|/`, query and fragment `U|S|[:@/?]`, and the first
      segment of PATH_NO_SCH `U|S|[@]`. */
  datatype CharClass = UserInfoChars | RegNameChars | PChars | PathChars | QueryChars | NoSchemeChars

  predicate InClass(k: CharClass, c: char) {
    IsUnreserved(c) || IsSubDelim(c) ||
    match k
    case UserInfoChars => c == ':'
    case RegNameChars => false
    case PChars => c == ':' || c == '@'
    case PathChars => c == ':' || c == '@' || c == '/'
    case QueryChars => c == ':' || c == '@' || c == '/' || c == '?'
    case NoSchemeChars => c == '@'
  }

  /** PCTENCODED: '%' and exactly two hexadecimal digits, either case. */
  predicate IsPct(w: seq<char>) {
    |w| == 3 && w[0] == '%' && IsHexDig(w[1]) && IsHexDig(w[2])
  }

  /** `w` is a sequence of units, each one character of class `k` or one
      percent-encoded triple: the language of `(class|PCTENCODED)*`. */
  predicate Tokens(k: CharClass, w: seq<char>)
    decreases |w|
  {
    |w| == 0
    || (InClass(k, w[0]) && Tokens(k, w[1..]))
    || (|w| >= 3 && IsPct(w[..3]) && Tokens(k, w[3..]))
  }

  /** Length of the greedy scan of units of class `k` at the start of `s`. */
  function Run(k: CharClass, s: seq<char>): (r: nat)
    ensures r <= |s|
    decreases |s|
  {
    if |s| > 0 && InClass(k, s[0]) then 1 + Run(k, s[1..])
    else if |s| >= 3 && IsPct(s[..3]) then 3 + Run(k, s[3..])
    else 0
  }

  /** '%' belongs to no class, and '@' (a sub-delim here) to every one. */
  lemma ClassFacts(k: CharClass)
    ensures !InClass(k, '%')
    ensures InClass(k, '@')
    ensures k != RegNameChars ==> InClass(k, ':') == (k != NoSchemeChars)
  {
  }

  /** The greedy scan is the longest prefix in the unit language: no unit
      sequence can end inside a later position, because the two kinds of
      unit cannot start with the same character. */
  lemma {:induction false} RunLongest(k: CharClass, s: seq<char>)
    ensures Tokens(k, s[..Run(k, s)])
    ensures forall n :: Run(k, s) < n <= |s| ==> !Tokens(k, s[..n])
    decreases |s|
  {
    ClassFacts(k);
    if |s| > 0 && InClass(k, s[0]) {
      var r := Run(k, s[1..]);
      RunLongest(k, s[1..]);
      assert s[..1 + r][1..] == s[1..][..r];
      forall n | 1 + r < n <= |s| ensures !Tokens(k, s[..n]) {
        assert s[..n][1..] == s[1..][..n - 1];
        assert s[..n][0] == s[0];
      }
    } else if |s| >= 3 && IsPct(s[..3]) {
      var r := Run(k, s[3..]);
      RunLongest(k, s[3..]);
      assert s[..3 + r][3..] == s[3..][..r];
      assert s[..3 + r][..3] == s[..3];
      forall n | 3 + r < n <= |s| ensures !Tokens(k, s[..n]) {
        assert s[..n][3..] == s[3..][..n - 3];
        assert s[..n][..3] == s[..3];
        assert s[..n][0] == s[0];
      }
    } else {
      assert s[..0] == [];
      forall n | 0 < n <= |s| ensures !Tokens(k, s[..n]) {
        assert s[..n][0] == s[0];
        assert n >= 3 ==> s[..n][..3] == s[..3];
      }
    }
  }

  /** Every '%' inside a unit sequence begins a percent-encoded triple, and
      every character is a class character, a '%' or a hexadecimal digit. */
  lemma {:induction false} TokensChars(k: CharClass, w: seq<char>)
    requires Tokens(k, w)
    ensures forall i :: 0 <= i < |w| ==> InClass(k, w[i]) || w[i] == '%' || IsHexDig(w[i])
    ensures forall i :: 0 <= i < |w| && w[i] == '%' ==>
              i + 2 < |w| && IsHexDig(w[i + 1]) && IsHexDig(w[i + 2])
    decreases |w|
  {
    ClassFacts(k);
    if |w| == 0 {
    } else if InClass(k, w[0]) && Tokens(k, w[1..]) {
      TokensChars(k, w[1..]);
      forall i | 1 <= i < |w| ensures w[i] == w[1..][i - 1] { }
    } else {
      TokensChars(k, w[3..]);
      forall i | 3 <= i < |w| ensures w[i] == w[3..][i - 3] { }
    }
  }

  lemma {:induction false} TokensAppend(k: CharClass, w: seq<char>, c: char)
    requires Tokens(k, w) && InClass(k, c)
    ensures Tokens(k, w + [c])
    decreases |w|
  {
    if |w| == 0 {
      assert ([] + [c])[1..] == [];
    } else if InClass(k, w[0]) && Tokens(k, w[1..]) {
      TokensAppend(k, w[1..], c);
      assert (w + [c])[1..] == w[1..] + [c];
    } else {
      TokensAppend(k, w[3..], c);
      assert (w + [c])[3..] == w[3..] + [c];
      assert (w + [c])[..3] == w[..3];
    }
  }

  /** A character that is neither '%' nor a hexadecimal digit cannot lie
      inside a percent-encoded triple, so a unit sequence splits before it. */
  lemma {:induction false} TokensSplit(k: CharClass, w: seq<char>, p: nat)
    requires Tokens(k, w) && p < |w| && w[p] != '%' && !IsHexDig(w[p])
    ensures Tokens(k, w[..p])
    decreases |w|
  {
    if p == 0 {
      assert w[..0] == [];
    } else if InClass(k, w[0]) && Tokens(k, w[1..]) {
      TokensSplit(k, w[1..], p - 1);
      assert w[..p][1..] == w[1..][..p - 1];
      assert w[..p][0] == w[0];
    } else {
      assert p >= 3;
      TokensSplit(k, w[3..], p - 3);
      assert w[..p][3..] == w[3..][..p - 3];
      assert w[..p][..3] == w[..3];
    }
  }

  /** IPV4ADDRESS as written in url.h: DECOCTED is an unparenthesised
      alternation, so the macro's language is the alternatives `[0-9]`,
      `[1-9][0-9]`, `1[0-9]{2}`, `2[0-5]{2}` and `2[0-5]{2}\.[0-9]`. */
  predicate Ipv4AsWritten(w: seq<char>) {
    (|w| == 1 && IsDigit(w[0]))
    || (|w| == 2 && '1' <= w[0] <= '9' && IsDigit(w[1]))
    || (|w| == 3 && w[0] == '1' && IsDigit(w[1]) && IsDigit(w[2]))
    || (|w| == 3 && w[0] == '2' && '0' <= w[1] <= '5' && '0' <= w[2] <= '5')
    || (|w| == 5 && w[0] == '2' && '0' <= w[1] <= '5' && '0' <= w[2] <= '5' && w[3] == '.' && IsDigit(w[4]))
  }

  /** A bracketed IPv6 literal, approximated by its alphabet: '[' then
      hexadecimal digits, ':' and '.' with at least one ':', then ']'. */
  predicate Ipv6Literal(w: seq<char>) {
    |w| >= 3 && w[0] == '[' && w[|w| - 1] == ']'
    && (forall i :: 1 <= i < |w| - 1 ==> IsHexDig(w[i]) || w[i] == ':' || w[i] == '.')
    && (exists i :: 1 <= i < |w| - 1 && w[i] == ':')
  }

  /** The `^`-anchored patterns of `prepare_url_patterns` and `is_path`. */
  datatype Pattern =
    | SchemePat | UserInfoPat | HostPat | PortPat | PathAbsPat | QueryPat | FragPat
    | NoSchemePat | RootlessPat

  /** The language of each pattern. PATH_ABS `(/(P_CHAR)*)+` is the same
      language as '/' followed by units of P_CHAR or '/'. */
  predicate InLang(p: Pattern, w: seq<char>) {
    match p
    case SchemePat =>
      |w| >= 4 && IsAlpha(w[0]) && (forall i :: 1 <= i < |w| - 3 ==> IsSchemeChar(w[i]))
      && w[|w| - 3..] == "://"
    case UserInfoPat => |w| >= 2 && w[|w| - 1] == '@' && Tokens(UserInfoChars, w[..|w| - 1])
    case HostPat => Ipv4AsWritten(w) || Ipv6Literal(w) || (|w| > 0 && Tokens(RegNameChars, w))
    case PortPat => |w| >= 1 && w[0] == ':' && forall i :: 1 <= i < |w| ==> IsDigit(w[i])
    case PathAbsPat => LeadUnits('/', PathChars, w)
    case QueryPat => LeadUnits('?', QueryChars, w)
    case FragPat => LeadUnits('#', QueryChars, w)
    case NoSchemePat =>
      exists i | 1 <= i <= |w| :: Tokens(NoSchemeChars, w[..i])
        && (i == |w| || (w[i] == '/' && Tokens(PathChars, w[i + 1..])))
    case RootlessPat =>
      exists i | 1 <= i <= |w| :: Tokens(PChars, w[..i])
        && (i == |w| || (w[i] == '/' && Tokens(PathChars, w[i + 1..])))
  }

  /** The prefix of length `m` of `s` is in the language of `p`. Stating
      the longest-match facts through this predicate keeps their
      quantifiers from firing on every prefix of `s`. */
  predicate MatchesAt(p: Pattern, s: seq<char>, m: nat)
    requires m <= |s|
  {
    InLang(p, s[..m])
  }

  /** The longest prefix of `s[..n]` in the language of `p`, searching down
      from `n`: the match `regexec` reports for a `^`-anchored pattern. */
  function LongestUpTo(p: Pattern, s: seq<char>, n: nat): (r: Option<nat>)
    requires n <= |s|
    ensures r.Some? ==> r.value <= n && MatchesAt(p, s, r.value)
    ensures r.Some? ==> forall m :: r.value < m <= n ==> !MatchesAt(p, s, m)
    ensures r.None? ==> forall m :: 0 <= m <= n ==> !MatchesAt(p, s, m)
    decreases n
  {
    if MatchesAt(p, s, n) then Some(n)
    else if n == 0 then None
    else LongestUpTo(p, s, n - 1)
  }

  function Longest(p: Pattern, s: seq<char>): (r: Option<nat>)
    ensures r.Some? ==> r.value <= |s| && MatchesAt(p, s, r.value)
    ensures r.Some? ==> forall m :: r.value < m <= |s| ==> !MatchesAt(p, s, m)
    ensures r.None? ==> forall m :: 0 <= m <= |s| ==> !MatchesAt(p, s, m)
  {
    LongestUpTo(p, s, |s|)
  }

  /** The longest match is determined by the two facts `Longest` promises. */
  lemma LongestIs(p: Pattern, s: seq<char>, n: nat)
    requires n <= |s| && MatchesAt(p, s, n)
    requires forall m :: n < m <= |s| ==> !MatchesAt(p, s, m)
    ensures Longest(p, s) == Some(n)
  {
  }

  /** Every URL pattern needs at least one character. */
  lemma {:induction false} MatchNonEmpty(p: Pattern, w: seq<char>)
    requires InLang(p, w)
    ensures |w| > 0
  {
    if p == NoSchemePat || p == RootlessPat {
      var i :| 1 <= i <= |w| && (p == NoSchemePat ==> Tokens(NoSchemeChars, w[..i]))
        && (p == RootlessPat ==> Tokens(PChars, w[..i]));
    }
  }

  /** The scheme pattern `^[a-z][a-z0-9+\-\.]*://` matches a letter, the
      maximal run of scheme characters and "://" right after it, or nothing. */
  function SchemeRun(s: seq<char>): (r: nat)
    ensures r <= |s| && forall i :: 0 <= i < r ==> IsSchemeChar(s[i])
    ensures r < |s| ==> !IsSchemeChar(s[r])
  {
    if |s| > 0 && IsSchemeChar(s[0]) then 1 + SchemeRun(s[1..]) else 0
  }

  lemma SchemeClosedForm(s: seq<char>)
    ensures |s| == 0 ==> Longest(SchemePat, s) == None
    ensures |s| > 0 ==>
              var e := 1 + SchemeRun(s[1..]);
              Longest(SchemePat, s) ==
                if IsAlpha(s[0]) && e + 3 <= |s| && s[e..e + 3] == "://" then Some(e + 3) else None
  {
    if |s| > 0 {
      var e := 1 + SchemeRun(s[1..]);
      assert forall i :: 1 <= i < |s| ==> s[1..][i - 1] == s[i];
      assert forall i :: 1 <= i < e ==> IsSchemeChar(s[i]);
      assert e < |s| ==> !IsSchemeChar(s[e]);
      forall m | 0 <= m <= |s| && InLang(SchemePat, s[..m])
        ensures m == e + 3 && s[e..e + 3] == "://"
      {
        var w := s[..m];
        assert forall i :: 1 <= i < m - 3 ==> IsSchemeChar(s[i]) by {
          forall i | 1 <= i < m - 3 ensures IsSchemeChar(s[i]) { assert w[i] == s[i]; }
        }
        assert !IsSchemeChar(s[m - 3]) by { assert w[m - 3] == s[m - 3]; }
        assert w[m - 3..] == s[m - 3..m];
      }
      if IsAlpha(s[0]) && e + 3 <= |s| && s[e..e + 3] == "://" {
        var w := s[..e + 3];
        forall i | 1 <= i < |w| - 3 ensures IsSchemeChar(w[i]) {
          assert w[i] == s[i];
        }
        assert w[|w| - 3..] == s[e..e + 3];
        LongestIs(SchemePat, s, e + 3);
      }
    }
  }

  /** Position of the last '@' in s[1..hi], if any. */
  function LastAt(s: seq<char>, hi: nat): (r: Option<nat>)
    requires hi <= |s|
    ensures r.Some? ==> 1 <= r.value < hi && s[r.value] == '@'
    ensures r.Some? ==> forall j :: r.value < j < hi ==> s[j] != '@'
    ensures r.None? ==> forall j :: 1 <= j < hi ==> s[j] != '@'
  {
    if hi <= 1 then None
    else if s[hi - 1] == '@' then Some(hi - 1)
    else LastAt(s, hi - 1)
  }

  /** Because '@' is itself a userinfo character, the userinfo match ends
      at the last '@' (after the first character) of the maximal userinfo
      run, and there is no match when that run holds no such '@'. */
  lemma UserInfoClosedForm(s: seq<char>)
    ensures var R := Run(UserInfoChars, s);
            Longest(UserInfoPat, s) ==
              match LastAt(s, R) { case None => None case Some(p) => Some(p + 1) }
  {
    var R := Run(UserInfoChars, s);
    forall m | 0 <= m <= |s| && MatchesAt(UserInfoPat, s, m)
      ensures LastAt(s, R).Some? && m - 1 <= LastAt(s, R).value
    {
      UserInfoMatchInRun(s, m);
    }
    match LastAt(s, R) {
      case None =>
      case Some(p) =>
        UserInfoAtLastAt(s, p);
        LongestIs(UserInfoPat, s, p + 1);
    }
  }

  /** A userinfo match ends at an '@' inside the maximal userinfo run. */
  lemma UserInfoMatchInRun(s: seq<char>, m: nat)
    requires m <= |s| && InLang(UserInfoPat, s[..m])
    ensures 1 <= m - 1 < Run(UserInfoChars, s) && s[m - 1] == '@'
  {
    var w := s[..m];
    assert |w| >= 2 && w[m - 1] == '@' && Tokens(UserInfoChars, w[..m - 1]);
    assert w[..m - 1] == s[..m - 1] && s[m - 1] == '@';
    ClassFacts(UserInfoChars);
    TokensAppend(UserInfoChars, s[..m - 1], '@');
    assert s[..m - 1] + ['@'] == w;
    RunLongest(UserInfoChars, s);
  }

  /** Every '@' after the first character of the maximal run ends a match. */
  lemma UserInfoAtLastAt(s: seq<char>, p: nat)
    requires 1 <= p < Run(UserInfoChars, s) && s[p] == '@'
    ensures InLang(UserInfoPat, s[..p + 1])
  {
    var R := Run(UserInfoChars, s);
    RunLongest(UserInfoChars, s);
    assert s[..R][p] == '@';
    TokensSplit(UserInfoChars, s[..R], p);
    assert s[..R][..p] == s[..p + 1][..p];
  }

  /** Every IPv4 literal the macro accepts (and every dotted-decimal string)
      is a run of digits and dots, hence also a reg-name. */
  lemma {:induction false} DigitsDotsAreRegName(w: seq<char>)
    requires forall i :: 0 <= i < |w| ==> IsDigit(w[i]) || w[i] == '.'
    ensures Tokens(RegNameChars, w)
    decreases |w|
  {
    if |w| > 0 {
      DigitsDotsAreRegName(w[1..]);
    }
  }

  lemma Ipv4Subsumed(w: seq<char>)
    requires Ipv4AsWritten(w)
    ensures |w| > 0 && Tokens(RegNameChars, w)
  {
    DigitsDotsAreRegName(w);
  }

  /** The first unit of a non-empty unit sequence starts with a class
      character or a '%'. */
  lemma TokensFirst(k: CharClass, w: seq<char>)
    requires Tokens(k, w) && |w| > 0
    ensures InClass(k, w[0]) || w[0] == '%'
  {
  }

  /** For an unbracketed host the longest host match is the longest
      reg-name run. */
  lemma HostClosedForm(s: seq<char>)
    requires |s| > 0 && s[0] != '['
    ensures Longest(HostPat, s) == (if Run(RegNameChars, s) > 0 then Some(Run(RegNameChars, s)) else None)
  {
    var R := Run(RegNameChars, s);
    RunLongest(RegNameChars, s);
    forall m | 0 <= m <= |s| && InLang(HostPat, s[..m]) ensures 0 < m <= R {
      var w := s[..m];
      if Ipv4AsWritten(w) {
        Ipv4Subsumed(w);
      } else {
        assert !Ipv6Literal(w) by { assert m > 0 ==> w[0] == s[0]; }
      }
    }
    if R > 0 {
      LongestIs(HostPat, s, R);
    }
  }

  /** A host starting with '[' can only be an IPv6 literal. */
  lemma HostBracketed(s: seq<char>)
    requires |s| > 0 && s[0] == '[' && Longest(HostPat, s).Some?
    ensures Ipv6Literal(s[..Longest(HostPat, s).value])
  {
    var w := s[..Longest(HostPat, s).value];
    ClassFacts(RegNameChars);
    assert w[0] == '[';
    if |w| > 0 && Tokens(RegNameChars, w) {
      TokensFirst(RegNameChars, w);
    }
  }

  /** A reg-name host is non-empty and contains none of '/', '?', '#', ':', '['. */
  lemma RegNameExcludes(w: seq<char>)
    requires |w| > 0 && Tokens(RegNameChars, w)
    ensures forall i :: 0 <= i < |w| ==> w[i] !in {'/', '?', '#', ':', '['}
  {
    TokensChars(RegNameChars, w);
  }

  /** An unbracketed host match is a reg-name. */
  lemma HostMatchIsRegName(s: seq<char>)
    requires |s| > 0 && s[0] != '[' && Longest(HostPat, s).Some?
    ensures var n := Longest(HostPat, s).value;
            n > 0 && Tokens(RegNameChars, s[..n])
            && forall i :: 0 <= i < n ==> s[i] !in {'/', '?', '#', ':', '['}
  {
    HostClosedForm(s);
    RunLongest(RegNameChars, s);
    var n := Longest(HostPat, s).value;
    RegNameExcludes(s[..n]);
    forall i | 0 <= i < n ensures s[i] == s[..n][i] { }
  }

  /** `^(:[0-9]*)`: ':' and the maximal digit run after it. */
  function DigitRun(s: seq<char>): (r: nat)
    ensures r <= |s| && forall i :: 0 <= i < r ==> IsDigit(s[i])
    ensures r < |s| ==> !IsDigit(s[r])
  {
    if |s| > 0 && IsDigit(s[0]) then 1 + DigitRun(s[1..]) else 0
  }

  lemma PortClosedForm(s: seq<char>)
    ensures Longest(PortPat, s) ==
              if |s| > 0 && s[0] == ':' then Some(1 + DigitRun(s[1..])) else None
  {
    if |s| > 0 && s[0] == ':' {
      var d := DigitRun(s[1..]);
      var w := s[..1 + d];
      forall m | 1 + d < m <= |s| ensures !InLang(PortPat, s[..m]) {
        assert s[..m][1 + d] == s[1..][d];
      }
      forall i | 1 <= i < 1 + d ensures IsDigit(w[i]) {
        assert w[i] == s[1..][i - 1];
      }
      LongestIs(PortPat, s, 1 + d);
    } else {
      forall m | 0 <= m <= |s| ensures !InLang(PortPat, s[..m]) {
        assert m > 0 ==> s[..m][0] == s[0];
      }
    }
  }

  /** A lead character followed by units of class `k`: the shape of
      PATH_ABS, QUERY and FRAG_PART. */
  predicate LeadUnits(lead: char, k: CharClass, w: seq<char>) {
    |w| >= 1 && w[0] == lead && Tokens(k, w[1..])
  }

  /** Such a language's longest prefix of `s` is the lead character and the
      maximal run of units after it. */
  lemma {:induction false} LeadUnitsLongest(lead: char, k: CharClass, s: seq<char>)
    ensures |s| > 0 && s[0] == lead ==>
              LeadUnits(lead, k, s[..1 + Run(k, s[1..])])
              && forall m :: 1 + Run(k, s[1..]) < m <= |s| ==> !LeadUnits(lead, k, s[..m])
    ensures !(|s| > 0 && s[0] == lead) ==> forall m :: 0 <= m <= |s| ==> !LeadUnits(lead, k, s[..m])
  {
    if |s| > 0 && s[0] == lead {
      var r := Run(k, s[1..]);
      RunLongest(k, s[1..]);
      assert s[..1 + r][1..] == s[1..][..r];
      forall m | 1 + r < m <= |s| ensures !LeadUnits(lead, k, s[..m]) {
        assert s[..m][1..] == s[1..][..m - 1];
      }
    } else {
      forall m | 0 <= m <= |s| ensures !LeadUnits(lead, k, s[..m]) {
        assert m > 0 ==> s[..m][0] == s[0];
      }
    }
  }

  /** PATH_ABS: '/' and the maximal run of path units; QUERY and FRAG_PART:
      '?' or '#' and the maximal run of query units. */
  lemma PathQueryFragClosedForm(s: seq<char>)
    ensures Longest(PathAbsPat, s) == if |s| > 0 && s[0] == '/' then Some(1 + Run(PathChars, s[1..])) else None
    ensures Longest(QueryPat, s) == if |s| > 0 && s[0] == '?' then Some(1 + Run(QueryChars, s[1..])) else None
    ensures Longest(FragPat, s) == if |s| > 0 && s[0] == '#' then Some(1 + Run(QueryChars, s[1..])) else None
  {
    LeadUnitsLongest('/', PathChars, s);
    LeadUnitsLongest('?', QueryChars, s);
    LeadUnitsLongest('#', QueryChars, s);
    if |s| > 0 && s[0] == '/' { LongestIs(PathAbsPat, s, 1 + Run(PathChars, s[1..])); }
    if |s| > 0 && s[0] == '?' { LongestIs(QueryPat, s, 1 + Run(QueryChars, s[1..])); }
    if |s| > 0 && s[0] == '#' { LongestIs(FragPat, s, 1 + Run(QueryChars, s[1..])); }
  }

  /** A path-absolute match starts with '/' and contains no '?' or '#'. */
  lemma PathAbsShape(w: seq<char>)
    requires InLang(PathAbsPat, w)
    ensures |w| > 0 && w[0] == '/'
    ensures forall i :: 0 <= i < |w| ==> w[i] != '?' && w[i] != '#'
  {
    TokensChars(PathChars, w[1..]);
    forall i | 1 <= i < |w| ensures w[i] == w[1..][i - 1] { }
  }

  /** path-rootless starts with a pchar or a percent-encoded unit. */
  lemma RootlessStart(w: seq<char>)
    requires InLang(RootlessPat, w)
    ensures |w| > 0 && (InClass(PChars, w[0]) || (|w| >= 3 && IsPct(w[..3])))
  {
    var i :| 1 <= i <= |w| && Tokens(PChars, w[..i])
      && (i == |w| || (w[i] == '/' && Tokens(PathChars, w[i + 1..])));
    assert w[..i][0] == w[0];
    assert i >= 3 ==> w[..i][..3] == w[..3];
  }

  /** The first segment of path-noscheme holds no ':': every ':' in a match
      comes after a '/'. */
  lemma NoSchemeColon(w: seq<char>, p: nat)
    requires InLang(NoSchemePat, w) && p < |w| && w[p] == ':'
    ensures exists j :: 0 < j < p && w[j] == '/'
  {
    var i :| 1 <= i <= |w| && Tokens(NoSchemeChars, w[..i])
      && (i == |w| || (w[i] == '/' && Tokens(PathChars, w[i + 1..])));
    TokensChars(NoSchemeChars, w[..i]);
    forall j | 0 <= j < i ensures w[j] != ':' {
      assert w[..i][j] == w[j];
    }
    assert i < p && w[i] == '/';
  }
}

=== FILE: http.dfy ===
/**
  The response checks of http.c (`check_http_status`, `http_redirect`,
  `check_http_resp`) and the request text `send_request` writes.

  The status code is read from the status slice with `strtoul` and stored
  in an `int`; its class is `status / 100` with C's division, which
  truncates toward zero.
 */
module Http {
  import opened Common
  import Buffers
  import Queue
  import Response

  /** Redirections followed from one URL of the list. The macro is not
      defined in the files modelled here; its value is taken as five. */
  const MAX_REDIR_NUM: int := 5

  const ULONG_MAX: int := 0xFFFF_FFFF_FFFF_FFFF
  const INT_MOD: int := 0x1_0000_0000

  predicate IsDigit(c: char) { '0' <= c <= '9' }

  /** The end of the run of decimal digits starting at `i`. */
  function DigitRun(s: seq<char>, i: nat): (r: nat)
    requires i <= |s|
    ensures i <= r <= |s|
    decreases |s| - i
  {
    if i < |s| && IsDigit(s[i]) then DigitRun(s, i + 1) else i
  }

  lemma {:induction false} DigitRunFacts(s: seq<char>, i: nat)
    requires i <= |s|
    ensures forall j :: i <= j < DigitRun(s, i) ==> IsDigit(s[j])
    ensures DigitRun(s, i) < |s| ==> !IsDigit(s[DigitRun(s, i)])
    decreases |s| - i
  {
    if i < |s| && IsDigit(s[i]) {
      DigitRunFacts(s, i + 1);
    }
  }

  /** The decimal value of the digits `s[i..j]`. */
  function DecValue(s: seq<char>, i: nat, j: nat): (r: nat)
    requires i <= j <= |s|
    decreases j
  {
    if j == i then 0 else 10 * DecValue(s, i, j - 1) + (if IsDigit(s[j - 1]) then s[j - 1] as int - '0' as int else 0)
  }

  /** `strtoul(text, &rest, 10)`: white space, an optional sign and the
      longest run of digits; no digits give 0, a magnitude above ULONG_MAX
      gives ULONG_MAX, and a minus sign negates modulo 2^64. */
  function StrToul(text: seq<char>): (r: nat)
    ensures r <= ULONG_MAX
  {
    var i := Response.Skip(text, 0);
    var signed := i < |text| && (text[i] == '+' || text[i] == '-');
    var j := if signed then i + 1 else i;
    var v := DecValue(text, j, DigitRun(text, j));
    if v > ULONG_MAX then ULONG_MAX
    else if signed && text[i] == '-' then (SIZE_MOD - v) % SIZE_MOD
    else v
  }

  /** The conversion of an `unsigned long` to `int`: reduction modulo 2^32
      into the two's complement range. */
  function ToInt(u: nat): (r: int)
    ensures -INT_MOD / 2 <= r < INT_MOD / 2
    ensures (r - u) % INT_MOD == 0
  {
    var m := u % INT_MOD;
    if m >= INT_MOD / 2 then m - INT_MOD else m
  }

  /** C's `a / b` for a positive divisor: the quotient truncated toward zero. */
  function CDiv(a: int, b: int): (r: int)
    requires b > 0
    ensures a >= 0 ==> r * b <= a < (r + 1) * b
    ensures a < 0 ==> (r - 1) * b < a <= r * b
  {
    if a >= 0 then a / b else -((-a) / b)
  }

  /** `check_http_status`: 2xx is success, 3xx asks for a redirection and
      every other code, negative ones included, is an HTTP error. */
  function CheckHttpStatus(status: int): (r: Code)
    ensures r == Success <==> 200 <= status < 300
    ensures r == HttpRedirect <==> 300 <= status < 400
    ensures r == HttpError <==> !(200 <= status < 400)
  {
    var cls := CDiv(status, 100);
    if cls == 2 then Success else if cls == 3 then HttpRedirect else HttpError
  }

  /** The status code `check_http_resp` reads from the slice text. */
  function StatusCode(text: seq<char>): int {
    ToInt(StrToul(text))
  }

  /** A three-digit status text is read as its decimal value, so its class
      is its first digit. */
  lemma ThreeDigitStatus(text: seq<char>)
    requires |text| == 3 && IsDigit(text[0]) && IsDigit(text[1]) && IsDigit(text[2])
    ensures var v := 100 * (text[0] as int - '0' as int) + 10 * (text[1] as int - '0' as int) + (text[2] as int - '0' as int);
            StatusCode(text) == v
            && (CheckHttpStatus(StatusCode(text)) == Success <==> text[0] == '2')
            && (CheckHttpStatus(StatusCode(text)) == HttpRedirect <==> text[0] == '3')
  {
    assert DigitRun(text, 2) == 3;
    assert DigitRun(text, 1) == 3;
    assert Response.Skip(text, 0) == 0;
    assert DecValue(text, 0, 2) == 10 * (text[0] as int - '0' as int) + (text[1] as int - '0' as int);
  }

  /** A status text that starts with neither white space, a sign nor a
      digit is read as 0, which is an HTTP error. */
  lemma NonNumericStatus(text: seq<char>)
    requires |text| > 0 && !IsSpace(text[0]) && !IsDigit(text[0]) && text[0] != '+' && text[0] != '-'
    ensures StatusCode(text) == 0 && CheckHttpStatus(StatusCode(text)) == HttpError
  {
  }

  /** `http_redirect` on the entry at `i`: below the redirection limit and
      with a `Location` header, the location becomes a new entry one level
      deeper, spliced in right after the current one, unless its copy
      cannot be allocated (a `Location` length that wrapped around in
      `size_t`), which is an internal error; otherwise an HTTP error. Only
      a redirection changes the list. */
  function Redirect(text: seq<char>, resp: Response.HResp, list: seq<Queue.Entry>, i: nat): (r: (Code, seq<Queue.Entry>))
    requires NoNul(text) && Response.InText(text, resp) && i < |list|
    ensures r.0 == Success || r.0 == HttpError || r.0 == InternalError
    ensures r.0 == Success <==>
              list[i].level < MAX_REDIR_NUM && resp.location.Some? && Buffers.CanAllocate(resp.location.value.len)
    ensures r.0 == InternalError <==>
              list[i].level < MAX_REDIR_NUM && resp.location.Some? && !Buffers.CanAllocate(resp.location.value.len)
    ensures r.0 != Success ==> r.1 == list
    ensures r.0 == Success ==>
              var loc := resp.location.value;
              |r.1| == |list| + 1 && r.1[..i + 1] == list[..i + 1] && r.1[i + 2..] == list[i + 1..]
              && r.1[i + 1].url == text[loc.st..loc.st + Min(loc.len, |text| - loc.st)]
              && r.1[i + 1].level == list[i].level + 1 <= MAX_REDIR_NUM
              && r.1[i + 1].result == Success && NoNul(r.1[i + 1].url)
  {
    if list[i].level >= MAX_REDIR_NUM then (HttpError, list)
    else if resp.location.Some? then
      var loc := resp.location.value;
      var e := Queue.Slice2Element(text, loc.st, loc.len, list[i].level + 1);
      if e.None? then (InternalError, list)
      else (Success, Queue.InsertAfter(list, i, e.value))
    else (HttpError, list)
  }

  /** A `Location` tag found on a later line than a header line that the
      line search found at the cursor (so the line end the step is given is
      that line's own CR LF end) gets a length that wrapped around in
      `size_t`, so its copy cannot be allocated: `http_redirect` then
      reports an internal error instead of following it. */
  lemma LaterLocationRefused(s: seq<char>, lineSt: nat, resp: Response.HResp)
    requires |s| < Buffers.PTRDIFF_MAX && lineSt <= |s|
    requires Response.NextLf(s, lineSt) < |s|
    requires Response.MatchEnd(Response.LocationTag, s, lineSt).None?
    requires Response.Search(Response.LocationTag, s, lineSt).Some?
    ensures var r := Response.LocationUpdate(s, lineSt, Response.NextLf(s, lineSt) + 1, resp);
            r.location.Some? && r.location.value.st <= |s| && !Buffers.CanAllocate(r.location.value.len)
  {
    Response.LocationFromLaterLine(s, lineSt, resp);
  }

  /** A `Location` line that the line search reached by passing over
      lines not ending in CR LF gets a length that runs past its value, and
      the copy can be allocated: the redirect is followed to a URL that
      holds the CR of the header line. */
  lemma OvershotLocationFollowed(s: seq<char>, cur: nat, m: Response.RegMatch, resp: Response.HResp, list: seq<Queue.Entry>, i: nat)
    requires NoNul(s) && |s| < Buffers.PTRDIFF_MAX && cur <= |s| && Response.Search(Response.Line, s, cur) == Some(m) && m.so > 0
    requires cur + m.so + 9 <= |s| && s[cur + m.so..cur + m.so + 9] == Response.LOCATION_TAG
    requires Response.Skip(s, cur + m.so + 9) < Response.NextLf(s, cur + m.so)
    requires Response.InText(s, resp) && i < |list| && list[i].level < MAX_REDIR_NUM
    ensures var c := Response.Skip(s, cur + m.so + 9);
            var crAt := Response.NextLf(s, cur + m.so) - 1;
            var r := Redirect(s, Response.LocationUpdate(s, cur + m.so, cur + m.so + m.eo, resp), list, i);
            r.0 == Success && |r.1[i + 1].url| > crAt - c && r.1[i + 1].url[crAt - c] == Response.CR
  {
    Response.OvershotLocation(s, cur, m, resp);
    var c := Response.Skip(s, cur + m.so + 9);
    var e := Response.NextLf(s, cur + m.so) + 1;
    FollowedHolds(s, Response.LocationUpdate(s, cur + m.so, cur + m.so + m.eo, resp), list, i, e - 2);
  }

  /** A followed redirect's URL holds every character of the slice that
      lies inside the text. */
  lemma FollowedHolds(text: seq<char>, resp: Response.HResp, list: seq<Queue.Entry>, i: nat, k: nat)
    requires NoNul(text) && Response.InText(text, resp) && i < |list| && list[i].level < MAX_REDIR_NUM
    requires resp.location.Some? && Buffers.CanAllocate(resp.location.value.len)
    requires resp.location.value.st <= k < resp.location.value.st + resp.location.value.len && k < |text|
    ensures var r := Redirect(text, resp, list, i);
            r.0 == Success && |r.1[i + 1].url| > k - resp.location.value.st
            && r.1[i + 1].url[k - resp.location.value.st] == text[k]
  {
  }

  /** The status code `check_http_resp` reads for a record: the status
      slice is copied into a new string and converted. */
  function StatusOf(text: seq<char>, resp: Response.HResp): int
    requires NoNul(text) && Response.InText(text, resp) && resp.status.Some?
  {
    var st := resp.status.value;
    StatusCode(Buffers.Content(Buffers.SliceToString(text, st.st, st.len)))
  }

  /** The status code read is that of the text of the status slice. */
  lemma StatusOfSlice(text: seq<char>, resp: Response.HResp)
    requires NoNul(text) && Response.InText(text, resp) && resp.status.Some?
    ensures var st := resp.status.value;
            StatusOf(text, resp) == StatusCode(text[st.st..st.st + Min(st.len, |text| - st.st)])
  {
  }

  /** `check_http_resp`: the status slice is copied out and converted; a
      redirection status returns HTTP_REDIRECT only when the new entry was
      spliced in, and the error of `http_redirect` otherwise. The copies of
      the status and phrase slices lie inside the text, so they are
      allocated. */
  function CheckHttpResp(text: seq<char>, resp: Response.HResp, list: seq<Queue.Entry>, i: nat): (r: (Code, seq<Queue.Entry>))
    requires NoNul(text) && Response.InText(text, resp) && resp.status.Some? && i < |list|
    ensures r.0 == Success || r.0 == HttpRedirect || r.0 == HttpError || r.0 == InternalError
    ensures r.0 != HttpRedirect ==> r.1 == list
  {
    var ret := CheckHttpStatus(StatusOf(text, resp));
    if ret == HttpRedirect then
      var (code, list1) := Redirect(text, resp, list, i);
      if code == Success then (HttpRedirect, list1) else (code, list1)
    else (ret, list)
  }


  /** The outcome of `check_http_resp` by status class: success exactly on
      2xx, a redirection exactly on 3xx below the limit with a location
      whose copy can be allocated, an internal error exactly when that copy
      cannot be, and the new entry is the only change to the list. */
  lemma CheckHttpRespOutcome(text: seq<char>, resp: Response.HResp, list: seq<Queue.Entry>, i: nat)
    requires NoNul(text) && Response.InText(text, resp) && resp.status.Some? && i < |list|
    ensures var r := CheckHttpResp(text, resp, list, i);
            var status := StatusOf(text, resp);
            (r.0 == Success <==> 200 <= status < 300)
            && (r.0 == HttpRedirect <==>
                  300 <= status < 400 && list[i].level < MAX_REDIR_NUM && resp.location.Some?
                  && Buffers.CanAllocate(resp.location.value.len))
            && (r.0 == InternalError <==>
                  300 <= status < 400 && list[i].level < MAX_REDIR_NUM && resp.location.Some?
                  && !Buffers.CanAllocate(resp.location.value.len))
            && (r.0 == HttpRedirect ==> r.1 == Redirect(text, resp, list, i).1)
  {
  }

  const HTTP_VERSION: seq<char> := "HTTP/1.1"

  /** A header line: the text and its CR LF. */
  function CrLfLine(text: seq<char>): seq<char> {
    text + "\r\n"
  }

  /** The request `send_request` formats before truncation: the request
      line, `Host`, `Connection`, `User-Agent` and the empty line. */
  function RequestText(path: seq<char>, host: seq<char>): seq<char> {
    CrLfLine("GET " + path + " " + HTTP_VERSION)
    + CrLfLine("Host: " + host)
    + CrLfLine("Connection: close")
    + CrLfLine("User-Agent: ISAFeedReader/1.0")
    + CrLfLine("")
  }

  /** The text `snprintf` leaves in the request buffer of
      INIT_NET_BUFF_SIZE bytes: the formatted request, cut so that the
      terminator fits. */
  function Request(path: seq<char>, host: seq<char>): (r: seq<char>)
    ensures |r| < Buffers.INIT_NET_BUFF_SIZE && |r| <= |RequestText(path, host)|
    ensures r == RequestText(path, host)[..|r|]
    ensures |RequestText(path, host)| < Buffers.INIT_NET_BUFF_SIZE ==> r == RequestText(path, host)
    ensures |RequestText(path, host)| >= Buffers.INIT_NET_BUFF_SIZE ==> |r| == Buffers.INIT_NET_BUFF_SIZE - 1
  {
    var full := RequestText(path, host);
    if |full| < Buffers.INIT_NET_BUFF_SIZE then full else full[..Buffers.INIT_NET_BUFF_SIZE - 1]
  }

  predicate NoLf(t: seq<char>) {
    forall k :: 0 <= k < |t| ==> t[k] != Response.LF
  }

  lemma PairedConcat(x: seq<char>, y: seq<char>)
    requires Response.Paired(x) && Response.Paired(y)
    ensures Response.Paired(x + y)
  {
    forall j | 0 <= j < |x + y| && (x + y)[j] == Response.LF ensures j > 0 && (x + y)[j - 1] == Response.CR {
      if j >= |x| {
        assert y[j - |x|] == Response.LF;
      }
    }
  }

  lemma PairedLine(text: seq<char>)
    requires NoLf(text)
    ensures Response.Paired(CrLfLine(text))
  {
    var w := CrLfLine(text);
    assert w[|text|] == Response.CR && w[|text| + 1] == Response.LF;
    assert forall k :: 0 <= k < |text| ==> w[k] == text[k];
  }

  lemma NoLfConcat(x: seq<char>, y: seq<char>)
    requires NoLf(x) && NoLf(y)
    ensures NoLf(x + y)
  {
    assert forall k :: |x| <= k < |x + y| ==> (x + y)[k] == y[k - |x|];
  }

  /** Every line feed of the full request ends a CR LF pair. */
  lemma RequestPaired(path: seq<char>, host: seq<char>)
    requires NoLf(path) && NoLf(host)
    ensures Response.Paired(RequestText(path, host))
  {
    var l1 := "GET " + path + " " + HTTP_VERSION;
    NoLfConcat("GET ", path);
    NoLfConcat("GET " + path, " ");
    NoLfConcat("GET " + path + " ", HTTP_VERSION);
    NoLfConcat("Host: ", host);
    PairedLine(l1);
    PairedLine("Host: " + host);
    PairedLine("Connection: close");
    PairedLine("User-Agent: ISAFeedReader/1.0");
    PairedLine("");
    PairedConcat(CrLfLine(l1), CrLfLine("Host: " + host));
    PairedConcat(CrLfLine(l1) + CrLfLine("Host: " + host), CrLfLine("Connection: close"));
    PairedConcat(CrLfLine(l1) + CrLfLine("Host: " + host) + CrLfLine("Connection: close"), CrLfLine("User-Agent: ISAFeedReader/1.0"));
    PairedConcat(CrLfLine(l1) + CrLfLine("Host: " + host) + CrLfLine("Connection: close") + CrLfLine("User-Agent: ISAFeedReader/1.0"), CrLfLine(""));
  }

  /** A request that fits, for a path and host without line feeds, is one
      complete header block as the response parser reads one: the header
      block pattern matches all of it, so it ends with an empty line and
      every line feed ends a CR LF. */
  lemma RequestIsHeaderBlock(path: seq<char>, host: seq<char>)
    requires NoLf(path) && NoLf(host)
    requires |RequestText(path, host)| < Buffers.INIT_NET_BUFF_SIZE
    ensures Response.MatchEnd(Response.HeaderBlock, Request(path, host), 0) == Some(|Request(path, host)|)
  {
    var r := Request(path, host);
    RequestPaired(path, host);
    assert r[0..|r|] == r;
    Response.PairedUpTo(r, 0, |r|);
    assert r[|r| - 4..] == "\r\n\r\n";
    assert Response.EndsQuad(r, |r|);
  }

  /** A prefix of `x` is a prefix of `x + y`. */
  lemma PrefixConcat(x: seq<char>, y: seq<char>, n: nat)
    requires n <= |x|
    ensures (x + y)[..n] == x[..n]
  {
  }

  /** A text that starts with a line free of line feeds and its CR LF has
      that line as its first line. */
  lemma FirstLine(l: seq<char>, r: seq<char>)
    requires NoLf(l) && |l| + 2 <= |r| && r[..|l| + 2] == CrLfLine(l)
    ensures Response.NextLf(r, 0) == |l| + 1 && r[..|l|] == l
  {
    var w := CrLfLine(l);
    assert forall j :: 0 <= j < |l| + 2 ==> r[j] == w[j];
    assert forall j :: 0 <= j < |l| ==> w[j] == l[j];
    assert w[|l|] == Response.CR && w[|l| + 1] == Response.LF;
    Response.NextLfFacts(r, 0);
  }

  /** The request line is the first line of the request. */
  lemma RequestLine(path: seq<char>, host: seq<char>)
    requires NoLf(path)
    requires |RequestText(path, host)| < Buffers.INIT_NET_BUFF_SIZE
    ensures var r := Request(path, host);
            Response.NextLf(r, 0) == |path| + 14 && r[..|path| + 13] == "GET " + path + " HTTP/1.1"
  {
    var r := Request(path, host);
    var l1 := "GET " + path + " " + HTTP_VERSION;
    NoLfConcat("GET ", path);
    NoLfConcat("GET " + path, " ");
    NoLfConcat("GET " + path + " ", HTTP_VERSION);
    var a := CrLfLine(l1);
    var b := CrLfLine("Host: " + host);
    var c := CrLfLine("Connection: close");
    var d := CrLfLine("User-Agent: ISAFeedReader/1.0");
    var e := CrLfLine("");
    var n := |l1| + 2;
    PrefixConcat(a, b, n);
    PrefixConcat(a + b, c, n);
    PrefixConcat(a + b + c, d, n);
    PrefixConcat(a + b + c + d, e, n);
    assert r == a + b + c + d + e;
    assert r[..n] == a;
    FirstLine(l1, r);
  }
}

=== FILE: queue.dfy ===
/**
  The URL list of common.c (`list_t` of `list_el_t`), as a sequence of
  entries in list order. An entry holds the URL text (the content of its
  `string_t`), its redirection depth `indirect_lvl`, and the result code the
  program records for it.
 */
module Queue {
  import opened Common
  import Buffers

  datatype Entry = Entry(url: seq<char>, level: int, result: Code)

  /** An entry as the list is first built: a URL without NUL, at depth 0,
      with result SUCCESS. */
  predicate Original(e: Entry) {
    NoNul(e.url) && e.level == 0 && e.result == Success
  }

  predicate AllOriginal(list: seq<Entry>) {
    forall k :: 0 <= k < |list| ==> Original(list[k])
  }

  lemma AllOriginalConcat(x: seq<Entry>, y: seq<Entry>)
    requires AllOriginal(x) && AllOriginal(y)
    ensures AllOriginal(x + y)
  {
    forall k | 0 <= k < |x + y|
      ensures Original((x + y)[k])
    {
      if k >= |x| {
        assert (x + y)[k] == y[k - |x|];
      }
    }
  }

  /** `new_element`: the string copied with `set_string` into a buffer of
      its length plus one, at depth 0 with result SUCCESS. */
  function NewElement(s: seq<char>): (r: Entry)
    requires NoNul(s)
    ensures r.url == s && r.level == 0 && r.result == Success
  {
    Entry(Buffers.Content(Buffers.SetString(Some(Buffers.NewString(|s| + 1)), s)), 0, Success)
  }

  /** `slice2element`: a new element whose string is the slice copied with
      `set_stringn` (at most `len` characters, none past the terminator of
      `text`) at the given depth, or NULL (`None`) when the string of
      `len + 1` bytes cannot be allocated. The C code leaves `result`
      unset; every element is given a result by `do_feedread` before it is
      read, so it is SUCCESS here. */
  function Slice2Element(text: seq<char>, st: nat, len: nat, level: int): (r: Option<Entry>)
    requires NoNul(text) && st <= |text|
    ensures r.None? <==> !Buffers.CanAllocate(len)
    ensures r.Some? ==> r.value.url == text[st..st + Min(len, |text| - st)] && r.value.level == level && r.value.result == Success
    ensures r.Some? ==> |r.value.url| <= len && NoNul(r.value.url)
  {
    if !Buffers.CanAllocate(len) then None
    else Some(Entry(Buffers.Content(Buffers.SliceToString(text, st, len)), level, Success))
  }

  /** `list_append`: the element goes last and the list before it is left
      as it was. */
  function ListAppend(list: seq<Entry>, e: Entry): (r: seq<Entry>)
    ensures |r| == |list| + 1
    ensures r[..|list|] == list && r[|list|] == e
  {
    list + [e]
  }

  /** The splice of `http_redirect`: `e` becomes the successor of the
      element at `i`, and every other element keeps its place in order. */
  function InsertAfter(list: seq<Entry>, i: nat, e: Entry): (r: seq<Entry>)
    requires i < |list|
    ensures |r| == |list| + 1
    ensures r[..i + 1] == list[..i + 1] && r[i + 1] == e && r[i + 2..] == list[i + 1..]
  {
    list[..i + 1] + [e] + list[i + 1..]
  }

  /** Taking the inserted element out again gives back the original list. */
  lemma InsertAfterRemove(list: seq<Entry>, i: nat, e: Entry)
    requires i < |list|
    ensures InsertAfter(list, i, e)[..i + 1] + InsertAfter(list, i, e)[i + 2..] == list
  {
    var r := InsertAfter(list, i, e);
    assert r[..i + 1] + r[i + 2..] == list[..i + 1] + list[i + 1..];
    assert list[..i + 1] + list[i + 1..] == list;
  }

  /** Appending one element after another builds the list in call order. */
  lemma {:induction false} AppendOrder(es: seq<Entry>)
    ensures Build([], es) == es
  {
    BuildFrom([], es);
  }

  /** The list obtained by appending the elements of `es`, one by one, to `list`. */
  function Build(list: seq<Entry>, es: seq<Entry>): seq<Entry>
    decreases |es|
  {
    if es == [] then list else Build(ListAppend(list, es[0]), es[1..])
  }

  lemma {:induction false} BuildFrom(list: seq<Entry>, es: seq<Entry>)
    ensures Build(list, es) == list + es
    decreases |es|
  {
    if es != [] {
      BuildFrom(list + [es[0]], es[1..]);
      assert list + [es[0]] + es[1..] == list + es;
    }
  }
}

=== FILE: response.dfy ===
/**
  The HTTP/1.1 response head parser of utils.c (`parse_http_resp`,
  `parse_resp_headers`, `parse_first_line`, `skip_w_spaces`,
  `is_line_empty` and the patterns of `prepare_resp_patterns`).

  The six patterns are compiled with REG_EXTENDED | REG_NEWLINE and without
  REG_ICASE. Under REG_NEWLINE `.` and a non-matching bracket list never
  match a line feed, and `^` matches where the searched string starts and
  right after every line feed in it. `regexec` therefore finds the leftmost
  line start, at or after the cursor, where the pattern matches, and takes
  the longest match there; `Search` models that. Positions are offsets into
  the response text `s`, the content of the response buffer, whose
  terminator is at `|s|`.
 */
module Response {
  import opened Common
  import Grammar

  const CR: char := '\r'
  const LF: char := '\n'

  /** A conversion to `size_t` (two's complement wrap-around). */
  function Wrap(x: int): (r: nat)
    ensures r < SIZE_MOD && (r - x) % SIZE_MOD == 0
    ensures 0 <= x < SIZE_MOD ==> r == x
    ensures -SIZE_MOD <= x < 0 ==> r == x + SIZE_MOD
  {
    x % SIZE_MOD
  }

  /** The six response patterns, in the order of `prepare_resp_patterns`:
      `^(.|\r\n)*\r\n\r\n`, `^.*\r\n`, `^[^ \t]*`, `^[0-9]{3}`,
      `^[^\r\n]*` and `^Location:`. */
  datatype RespPattern = HeaderBlock | Line | Version | Status | Phrase | LocationTag

  /** Every line feed of `w` is the second half of a CR LF pair. */
  predicate Paired(w: seq<char>) {
    forall i :: 0 <= i < |w| && w[i] == LF ==> i > 0 && w[i - 1] == CR
  }

  /** `s[..m]` ends with CR LF CR LF. */
  predicate EndsQuad(s: seq<char>, m: nat) {
    4 <= m <= |s| && s[m - 4] == CR && s[m - 3] == LF && s[m - 2] == CR && s[m - 1] == LF
  }

  /** The class `[^ \t]` under REG_NEWLINE. */
  predicate NotBlank(c: char) { c != ' ' && c != '\t' && c != LF }

  /** The class `[^\r\n]`. */
  predicate NotEol(c: char) { c != CR && c != LF }

  const LOCATION_TAG: seq<char> := "Location:"

  /** The language of each pattern: the strings a whole match can be. */
  predicate InResp(p: RespPattern, w: seq<char>) {
    match p
    case HeaderBlock => EndsQuad(w, |w|) && Paired(w)
    case Line => |w| >= 2 && w[|w| - 2] == CR && w[|w| - 1] == LF && forall i :: 0 <= i < |w| - 1 ==> w[i] != LF
    case Version => forall i :: 0 <= i < |w| ==> NotBlank(w[i])
    case Status => |w| == 3 && Grammar.IsDigit(w[0]) && Grammar.IsDigit(w[1]) && Grammar.IsDigit(w[2])
    case Phrase => forall i :: 0 <= i < |w| ==> NotEol(w[i])
    case LocationTag => w == LOCATION_TAG
  }

  /** The first position at or after `i` whose character the class rejects
      (`NotBlank` when `blank` holds, `NotEol` otherwise), or `|s|`. */
  function SpanEnd(blank: bool, s: seq<char>, i: nat): (r: nat)
    requires i <= |s|
    ensures i <= r <= |s|
    decreases |s| - i
  {
    if i < |s| && (if blank then NotBlank(s[i]) else NotEol(s[i])) then SpanEnd(blank, s, i + 1) else i
  }

  lemma {:induction false} SpanEndFacts(blank: bool, s: seq<char>, i: nat)
    requires i <= |s|
    ensures var r := SpanEnd(blank, s, i);
            (forall j :: i <= j < r ==> (if blank then NotBlank(s[j]) else NotEol(s[j])))
            && (r < |s| ==> !(if blank then NotBlank(s[r]) else NotEol(s[r])))
    decreases |s| - i
  {
    if i < |s| && (if blank then NotBlank(s[i]) else NotEol(s[i])) {
      SpanEndFacts(blank, s, i + 1);
    }
  }

  /** The first line feed at or after `i`, or `|s|`. */
  function NextLf(s: seq<char>, i: nat): (r: nat)
    requires i <= |s|
    ensures i <= r <= |s|
    decreases |s| - i
  {
    if i < |s| && s[i] != LF then NextLf(s, i + 1) else i
  }

  lemma {:induction false} NextLfFacts(s: seq<char>, i: nat)
    requires i <= |s|
    ensures NextLf(s, i) < |s| ==> s[NextLf(s, i)] == LF
    ensures forall j :: i <= j < NextLf(s, i) ==> s[j] != LF
    decreases |s| - i
  {
    if i < |s| && s[i] != LF {
      NextLfFacts(s, i + 1);
    }
  }

  /** A line feed at `j` that does not end a CR LF pair of the text
      starting at `q`. */
  predicate Bare(s: seq<char>, q: nat, j: nat)
    requires q <= j < |s|
  {
    s[j] == LF && (j == q || s[j - 1] != CR)
  }

  /** The first bare line feed at or after `i` of the text starting at
      `q`, or `|s|`. */
  function FirstBare(s: seq<char>, q: nat, i: nat): (r: nat)
    requires q <= i <= |s|
    ensures i <= r <= |s|
    decreases |s| - i
  {
    if i == |s| || Bare(s, q, i) then i else FirstBare(s, q, i + 1)
  }

  lemma {:induction false} FirstBareFacts(s: seq<char>, q: nat, i: nat)
    requires q <= i <= |s|
    ensures var r := FirstBare(s, q, i);
            (r < |s| ==> Bare(s, q, r)) && forall j :: i <= j < r ==> !Bare(s, q, j)
    decreases |s| - i
  {
    if i < |s| && !Bare(s, q, i) {
      FirstBareFacts(s, q, i + 1);
    }
  }

  /** The largest `m` in `lo + 4 .. hi` at which `s[..m]` ends with
      CR LF CR LF. */
  function LastQuad(s: seq<char>, lo: nat, hi: nat): (r: Option<nat>)
    requires hi <= |s|
    ensures r.Some? ==> lo + 4 <= r.value <= hi
    decreases hi
  {
    if hi < lo + 4 then None
    else if EndsQuad(s, hi) then Some(hi)
    else LastQuad(s, lo, hi - 1)
  }

  lemma {:induction false} LastQuadFacts(s: seq<char>, lo: nat, hi: nat)
    requires hi <= |s|
    ensures var r := LastQuad(s, lo, hi);
            (r.Some? ==> EndsQuad(s, r.value) && forall m :: r.value < m <= hi ==> !EndsQuad(s, m))
            && (r.None? ==> forall m :: lo + 4 <= m <= hi ==> !EndsQuad(s, m))
    decreases hi
  {
    if hi >= lo + 4 && !EndsQuad(s, hi) {
      LastQuadFacts(s, lo, hi - 1);
    }
  }

  /** The closed form of each pattern's longest match at `q`: the end
      position of the match. */
  function MatchEnd(p: RespPattern, s: seq<char>, q: nat): (r: Option<nat>)
    requires q <= |s|
    ensures r.Some? ==> q <= r.value <= |s|
  {
    match p
    case HeaderBlock => LastQuad(s, q, FirstBare(s, q, q))
    case Line =>
      var k := NextLf(s, q);
      if k < |s| && k > q && s[k - 1] == CR then Some(k + 1) else None
    case Version => Some(SpanEnd(true, s, q))
    case Status =>
      if q + 3 <= |s| && Grammar.IsDigit(s[q]) && Grammar.IsDigit(s[q + 1]) && Grammar.IsDigit(s[q + 2]) then Some(q + 3) else None
    case Phrase => Some(SpanEnd(false, s, q))
    case LocationTag => if q + 9 <= |s| && s[q..q + 9] == LOCATION_TAG then Some(q + 9) else None
  }

  /** The text from `q` is CR LF paired up to `m` exactly when `m` does not
      pass the first bare line feed. */
  lemma PairedUpTo(s: seq<char>, q: nat, m: nat)
    requires q <= m <= |s|
    ensures Paired(s[q..m]) <==> m <= FirstBare(s, q, q)
  {
    var b := FirstBare(s, q, q);
    FirstBareFacts(s, q, q);
    if m > b {
      assert s[q..m][b - q] == LF;
      assert b > q ==> s[q..m][b - q - 1] == s[b - 1];
    } else {
      forall i | 0 <= i < m - q && s[q..m][i] == LF ensures i > 0 && s[q..m][i - 1] == CR {
        assert s[q + i] == LF && !Bare(s, q, q + i);
      }
    }
  }

  /** What `MatchEndIsLongest` states for one pattern. */
  predicate LongestAt(p: RespPattern, s: seq<char>, q: nat)
    requires q <= |s|
  {
    var r := MatchEnd(p, s, q);
    (r.Some? ==> InResp(p, s[q..r.value]) && forall m :: r.value < m <= |s| ==> !InResp(p, s[q..m]))
    && (r.None? ==> forall m :: q <= m <= |s| ==> !InResp(p, s[q..m]))
  }

  lemma HeaderBlockLongest(s: seq<char>, q: nat)
    requires q <= |s|
    ensures LongestAt(HeaderBlock, s, q)
  {
    var b := FirstBare(s, q, q);
    LastQuadFacts(s, q, b);
    forall m | q <= m <= |s| ensures InResp(HeaderBlock, s[q..m]) <==> m <= b && m >= q + 4 && EndsQuad(s, m) {
      PairedUpTo(s, q, m);
      var w := s[q..m];
      if m >= q + 4 {
        assert w[|w| - 4] == s[m - 4] && w[|w| - 3] == s[m - 3] && w[|w| - 2] == s[m - 2] && w[|w| - 1] == s[m - 1];
      }
    }
  }

  lemma LineLongest(s: seq<char>, q: nat)
    requires q <= |s|
    ensures LongestAt(Line, s, q)
  {
    var k := NextLf(s, q);
    NextLfFacts(s, q);
    forall m | q <= m <= |s| && InResp(Line, s[q..m]) ensures k < |s| && m == k + 1 && k > q && s[k - 1] == CR {
      var w := s[q..m];
      assert w[|w| - 1] == s[m - 1];
      assert w[|w| - 2] == s[m - 2];
      assert forall j :: q <= j < m - 1 ==> s[j] == w[j - q];
    }
    if k < |s| && k > q && s[k - 1] == CR {
      var w := s[q..k + 1];
      assert w[|w| - 2] == s[k - 1] && w[|w| - 1] == s[k];
      assert forall i :: 0 <= i < |w| - 1 ==> w[i] == s[q + i];
    }
  }

  lemma SpanLongest(p: RespPattern, s: seq<char>, q: nat)
    requires q <= |s| && (p == Version || p == Phrase)
    ensures LongestAt(p, s, q)
  {
    var blank := p == Version;
    var n := SpanEnd(blank, s, q);
    SpanEndFacts(blank, s, q);
    assert forall i :: 0 <= i < n - q ==> s[q..n][i] == s[q + i];
    forall m | n < m <= |s| ensures !InResp(p, s[q..m]) {
      assert s[q..m][n - q] == s[n];
    }
  }

  lemma StatusLongest(s: seq<char>, q: nat)
    requires q <= |s|
    ensures LongestAt(Status, s, q)
  {
    forall m | q <= m <= |s| && InResp(Status, s[q..m])
      ensures m == q + 3 && Grammar.IsDigit(s[q]) && Grammar.IsDigit(s[q + 1]) && Grammar.IsDigit(s[q + 2])
    {
      assert s[q..m][0] == s[q] && s[q..m][1] == s[q + 1] && s[q..m][2] == s[q + 2];
    }
    if q + 3 <= |s| {
      assert s[q..q + 3][0] == s[q] && s[q..q + 3][1] == s[q + 1] && s[q..q + 3][2] == s[q + 2];
    }
  }

  /** Each closed form is the POSIX longest match of its pattern's language
      at `q`, and finds nothing exactly when no prefix from `q` is in the
      language. */
  lemma MatchEndIsLongest(p: RespPattern, s: seq<char>, q: nat)
    requires q <= |s|
    ensures var r := MatchEnd(p, s, q);
            (r.Some? ==> InResp(p, s[q..r.value]) && forall m :: r.value < m <= |s| ==> !InResp(p, s[q..m]))
            && (r.None? ==> forall m :: q <= m <= |s| ==> !InResp(p, s[q..m]))
  {
    match p
    case HeaderBlock => HeaderBlockLongest(s, q);
    case Line => LineLongest(s, q);
    case Version => SpanLongest(p, s, q);
    case Status => StatusLongest(s, q);
    case Phrase => SpanLongest(p, s, q);
    case LocationTag =>
  }

  /** A `regexec` match: offsets from the searched position, as in
      `regmatch_t`. */
  datatype RegMatch = RegMatch(so: nat, eo: nat)

  /** `q` is where `^` can match when the search starts at `from`. */
  predicate LineStart(s: seq<char>, from: nat, q: nat)
    requires q <= |s|
  {
    q == from || (from < q && s[q - 1] == LF)
  }

  /** `regexec(p, s + from)` under REG_NEWLINE (`SearchLeftmost` says what
      it finds). */
  function Search(p: RespPattern, s: seq<char>, from: nat): (r: Option<RegMatch>)
    requires from <= |s|
    ensures r.Some? ==> r.value.so <= r.value.eo && from + r.value.eo <= |s|
  {
    SearchFrom(p, s, from, from)
  }

  function SearchFrom(p: RespPattern, s: seq<char>, from: nat, q: nat): (r: Option<RegMatch>)
    requires from <= q <= |s|
    ensures r.Some? ==> q - from <= r.value.so <= r.value.eo && from + r.value.eo <= |s|
    decreases |s| - q
  {
    var here := if LineStart(s, from, q) then MatchEnd(p, s, q) else None;
    if here.Some? then Some(RegMatch(q - from, here.value - from))
    else if q == |s| then None
    else SearchFrom(p, s, from, q + 1)
  }

  /** No line start from `a` up to `b` (exclusive) has a match. */
  predicate NoneBetween(p: RespPattern, s: seq<char>, from: nat, a: nat, b: nat)
    requires b <= |s| + 1
  {
    forall k :: a <= k < b && LineStart(s, from, k) ==> MatchEnd(p, s, k).None?
  }

  /** The search from `q` stops at a line start where the pattern matches,
      after passing over line starts without one. */
  lemma {:induction false} SearchFromFound(p: RespPattern, s: seq<char>, from: nat, q: nat)
    requires from <= q <= |s| && SearchFrom(p, s, from, q).Some?
    ensures var r := SearchFrom(p, s, from, q).value;
            LineStart(s, from, from + r.so) && MatchEnd(p, s, from + r.so) == Some(from + r.eo)
            && NoneBetween(p, s, from, q, from + r.so)
    decreases |s| - q
  {
    if !(LineStart(s, from, q) && MatchEnd(p, s, q).Some?) {
      assert q < |s| && SearchFrom(p, s, from, q) == SearchFrom(p, s, from, q + 1);
      SearchFromFound(p, s, from, q + 1);
      NoneBetweenStep(p, s, from, q, from + SearchFrom(p, s, from, q).value.so);
    }
  }

  lemma NoneBetweenStep(p: RespPattern, s: seq<char>, from: nat, q: nat, b: nat)
    requires q < b <= |s| + 1 && NoneBetween(p, s, from, q + 1, b)
    requires !(LineStart(s, from, q) && MatchEnd(p, s, q).Some?)
    ensures NoneBetween(p, s, from, q, b)
  {
  }

  /** A search from `q` that finds nothing passed only line starts without
      a match. */
  lemma {:induction false} SearchFromNone(p: RespPattern, s: seq<char>, from: nat, q: nat)
    requires from <= q <= |s| && SearchFrom(p, s, from, q).None?
    ensures NoneBetween(p, s, from, q, |s| + 1)
    decreases |s| - q
  {
    if q < |s| {
      SearchFromNone(p, s, from, q + 1);
    }
  }

  lemma SearchFromLeftmost(p: RespPattern, s: seq<char>, from: nat, q: nat)
    requires from <= q <= |s|
    ensures var r := SearchFrom(p, s, from, q);
            (r.Some? ==> LineStart(s, from, from + r.value.so)
                         && MatchEnd(p, s, from + r.value.so) == Some(from + r.value.eo)
                         && forall k :: q <= k < from + r.value.so && LineStart(s, from, k) ==> MatchEnd(p, s, k).None?)
            && (r.None? ==> forall k :: q <= k <= |s| && LineStart(s, from, k) ==> MatchEnd(p, s, k).None?)
  {
    if SearchFrom(p, s, from, q).Some? {
      SearchFromFound(p, s, from, q);
    } else {
      SearchFromNone(p, s, from, q);
    }
  }

  /** The search finds the leftmost line start where the pattern matches,
      with the longest match there, and finds nothing only when the pattern
      matches at no line start from the cursor on. */
  lemma SearchLeftmost(p: RespPattern, s: seq<char>, from: nat)
    requires from <= |s|
    ensures var r := Search(p, s, from);
            (r.Some? ==> LineStart(s, from, from + r.value.so)
                         && MatchEnd(p, s, from + r.value.so) == Some(from + r.value.eo)
                         && forall k :: from <= k < from + r.value.so && LineStart(s, from, k) ==> MatchEnd(p, s, k).None?)
            && (r.None? ==> forall k :: from <= k <= |s| && LineStart(s, from, k) ==> MatchEnd(p, s, k).None?)
  {
    SearchFromLeftmost(p, s, from, from);
  }

  /** A pattern that matches at the cursor is found there. */
  lemma SearchAtCursor(p: RespPattern, s: seq<char>, from: nat)
    requires from <= |s| && MatchEnd(p, s, from).Some?
    ensures Search(p, s, from) == Some(RegMatch(0, MatchEnd(p, s, from).value - from))
  {
  }

  /** `skip_w_spaces`: the first position at or after `i` that is not
      white space (the terminator stops it). */
  function Skip(s: seq<char>, i: nat): (r: nat)
    requires i <= |s|
    ensures i <= r <= |s|
    decreases |s| - i
  {
    if i < |s| && IsSpace(s[i]) then Skip(s, i + 1) else i
  }

  lemma {:induction false} SkipFacts(s: seq<char>, i: nat)
    requires i <= |s|
    ensures forall j :: i <= j < Skip(s, i) ==> IsSpace(s[j])
    ensures Skip(s, i) < |s| ==> !IsSpace(s[Skip(s, i)])
    decreases |s| - i
  {
    if i < |s| && IsSpace(s[i]) {
      SkipFacts(s, i + 1);
    }
  }

  /** `is_line_empty`: the text at `i` begins with CR LF (`strncmp` stops
      at the terminator, which matches neither). That is a line of its
      own with nothing before its CR LF. */
  function IsLineEmpty(s: seq<char>, i: nat): (r: bool)
    ensures i <= |s| ==> (r <==> MatchEnd(Line, s, i) == Some(i + 2))
  {
    if i + 2 <= |s| && s[i] == CR then
      assert NextLf(s, i) == NextLf(s, i + 1);
      s[i + 1] == LF
    else false
  }

  /** A `string_slice_t`: start offset and length (a `size_t`). */
  datatype Slice = Slice(st: nat, len: nat)

  /** `h_resp_t` as far as the parser fills it; `None` is a NULL pointer
      and `body` is the `msg` pointer. */
  datatype HResp = HResp(version: Option<Slice>, status: Option<Slice>, phrase: Option<Slice>,
                         location: Option<Slice>, body: Option<nat>)

  /** An absent slice, or one that lies inside the text. */
  predicate Within(s: seq<char>, o: Option<Slice>) {
    o.Some? ==> o.value.st + o.value.len <= |s|
  }

  /** The version, status and phrase slices of a parsed record lie inside
      the text; the `Location` slice starts inside it, but its `size_t`
      length may run past the end (see `LocationFromLaterLine`); the body
      starts at most at the end. */
  predicate InText(s: seq<char>, resp: HResp) {
    Within(s, resp.version) && Within(s, resp.status) && Within(s, resp.phrase)
    && (resp.location.Some? ==> resp.location.value.st <= |s|)
    && (resp.body.Some? ==> resp.body.value <= |s|)
  }

  /** The zero-filled record of `init_h_resp`. */
  const EMPTY_RESP: HResp := HResp(None, None, None, None, None)

  /** What parsing a response comes to: a result code with the filled
      record, or a `regexec` on a cursor that has been moved past the
      terminator (undefined behaviour in the C code). */
  datatype Outcome = Done(code: Code, resp: HResp) | ReadsPastEnd

  /** `parse_first_line` on the line starting at `cur`: the version, white
      space, the status code, white space and the phrase. Only a missing
      status code fails; the lemmas below describe the three slices. */
  function ParseFirstLine(s: seq<char>, cur: nat, resp: HResp): (r: (Code, HResp))
    requires cur <= |s|
    ensures r.0 == Success || r.0 == HttpError
    ensures r.1.location == resp.location && r.1.body == resp.body
    ensures r.0 == Success ==> r.1.version.Some? && r.1.status.Some? && r.1.phrase.Some?
    ensures InText(s, resp) ==> InText(s, r.1)
  {
    var v := Search(Version, s, cur);
    var resp1 := if v.Some? then resp.(version := Some(Slice(cur, v.value.eo - v.value.so))) else resp;
    var c1 := if v.Some? then cur + v.value.eo else cur;
    var c2 := Skip(s, c1);
    var st := Search(Status, s, c2);
    if st.None? then (HttpError, resp1)
    else
      var resp2 := resp1.(status := Some(Slice(c2, st.value.eo - st.value.so)));
      var c3 := Skip(s, c2 + st.value.eo);
      var ph := Search(Phrase, s, c3);
      if ph.None? then (HttpError, resp2)
      else (Success, resp2.(phrase := Some(Slice(c3, ph.value.eo - ph.value.so))))
  }

  /** Where the status code is looked for: after the version and the white
      space that follows it. */
  function StatusCursor(s: seq<char>, cur: nat): (r: nat)
    requires cur <= |s|
    ensures cur <= r <= |s|
  {
    Skip(s, SpanEnd(true, s, cur))
  }

  /** The version slice is the longest run at the cursor without space,
      tab or line feed. */
  lemma FirstLineVersion(s: seq<char>, cur: nat, resp: HResp)
    requires cur <= |s|
    ensures var e := SpanEnd(true, s, cur);
            ParseFirstLine(s, cur, resp).1.version == Some(Slice(cur, e - cur))
            && (forall i :: cur <= i < e ==> NotBlank(s[i]))
            && (e < |s| ==> !NotBlank(s[e]))
  {
    SpanEndFacts(true, s, cur);
    SearchAtCursor(Version, s, cur);
  }

  /** After the version and white space the status code is searched for:
      the line fails exactly when no line start from there on begins with
      three digits. The slice is the three characters at the cursor, which
      are those digits only when they stand at the cursor. */
  lemma FirstLineStatus(s: seq<char>, cur: nat, resp: HResp)
    requires cur <= |s|
    ensures var r := ParseFirstLine(s, cur, resp);
            var c := StatusCursor(s, cur);
            (r.0 == HttpError <==> forall q :: c <= q <= |s| && LineStart(s, c, q) ==> MatchEnd(Status, s, q).None?)
            && (r.0 == Success ==> r.1.status == Some(Slice(c, 3)))
            && (r.0 == Success && MatchEnd(Status, s, c).Some? ==>
                  Grammar.IsDigit(s[c]) && Grammar.IsDigit(s[c + 1]) && Grammar.IsDigit(s[c + 2]))
  {
    SearchAtCursor(Version, s, cur);
    var c := StatusCursor(s, cur);
    SearchLeftmost(Status, s, c);
    var st := Search(Status, s, c);
    if st.Some? {
      SearchAtCursor(Phrase, s, Skip(s, c + st.value.eo));
    }
  }

  /** The phrase slice runs from the cursor after the status code and white
      space to the end of its line, CR and LF excluded. */
  lemma FirstLinePhrase(s: seq<char>, cur: nat, resp: HResp)
    requires cur <= |s|
    ensures var r := ParseFirstLine(s, cur, resp);
            r.0 == Success ==>
              var d := r.1.phrase.value.st;
              var e := d + r.1.phrase.value.len;
              e <= |s| && (forall i :: d <= i < e ==> NotEol(s[i])) && (e < |s| ==> !NotEol(s[e]))
  {
    SearchAtCursor(Version, s, cur);
    var v := Search(Version, s, cur);
    assert v.Some? && cur + v.value.eo == SpanEnd(true, s, cur);
    var c := StatusCursor(s, cur);
    var st := Search(Status, s, c);
    if st.Some? {
      var c3 := Skip(s, c + st.value.eo);
      var e := SpanEnd(false, s, c3);
      SearchAtCursor(Phrase, s, c3);
      SpanEndFacts(false, s, c3);
      assert ParseFirstLine(s, cur, resp).1.phrase == Some(Slice(c3, e - c3));
    }
  }

  /** A line match is at least the CR LF that ends it, so the cursor
      always moves forward. */
  lemma LineMatchLength(s: seq<char>, from: nat)
    requires from <= |s|
    ensures var m := Search(Line, s, from);
            m.Some? ==> m.value.eo >= m.value.so + 2
  {
    SearchLeftmost(Line, s, from);
  }

  /** The end of the header loop: no line at all means the status line is
      missing. */
  function Finish(lineNo: nat, resp: HResp): (r: Outcome)
    ensures r.Done? && r.resp == resp
    ensures r.code == HttpError <==> lineNo == 0
    ensures r.code == Success || r.code == HttpError
  {
    if lineNo == 0 then Done(HttpError, resp) else Done(Success, resp)
  }

  /** The `Location` step of `parse_resp_headers` for the line found at
      `lineSt` whose line match ends at `lineEnd`. The tag is searched for
      from the line start, so it may be found on a later line; the value
      starts after the tag and white space, and its length is computed in
      `size_t` as the distance to `lineEnd` less two. */
  function LocationUpdate(s: seq<char>, lineSt: nat, lineEnd: nat, resp: HResp): (r: HResp)
    requires lineSt <= |s|
    ensures r.version == resp.version && r.status == resp.status && r.phrase == resp.phrase && r.body == resp.body
    ensures Search(LocationTag, s, lineSt).None? ==> r == resp
    ensures Search(LocationTag, s, lineSt).Some? ==> r.location.Some? && r.location.value.len < SIZE_MOD
    ensures InText(s, resp) ==> InText(s, r)
  {
    var l := Search(LocationTag, s, lineSt);
    if l.None? then resp
    else
      var c := Skip(s, lineSt + l.value.eo);
      resp.(location := Some(Slice(c, Wrap(Wrap(lineEnd - c) - 2))))
  }

  /** `parse_resp_headers` from the cursor `cur`, with `lineNo` lines read
      so far. Each round searches for the next CR LF terminated line; the
      line found starts `so` characters after the cursor, but the next
      cursor is that line start plus `eo`, the match end counted from the
      old cursor, so it runs `so` characters past the line when lines were
      skipped. An empty line or no line ends the loop. */
  function Headers(s: seq<char>, cur: nat, lineNo: nat, resp: HResp): (r: Outcome)
    ensures r.Done? ==> r.code == Success || r.code == HttpError
    ensures r.Done? ==> r.resp.body == resp.body
    ensures r.Done? && lineNo > 0 ==>
              r.code == Success && r.resp.version == resp.version && r.resp.status == resp.status && r.resp.phrase == resp.phrase
    ensures r.Done? && r.code == Success && lineNo == 0 ==>
              r.resp.version.Some? && r.resp.status.Some? && r.resp.phrase.Some?
    ensures r.Done? && InText(s, resp) ==> InText(s, r.resp)
    decreases if cur <= |s| then |s| + 1 - cur else 0
  {
    if cur > |s| then ReadsPastEnd
    else
      var m := Search(Line, s, cur);
      if m.None? then Finish(lineNo, resp)
      else
        var lineSt := cur + m.value.so;
        var next := lineSt + m.value.eo;
        LineMatchLength(s, cur);
        if IsLineEmpty(s, lineSt) then Finish(lineNo, resp)
        else if lineNo == 0 then
          var (code, first) := ParseFirstLine(s, lineSt, resp);
          if code != Success then Done(code, first)
          else Headers(s, next, 1, first)
        else
          Headers(s, next, lineNo + 1, LocationUpdate(s, lineSt, next, resp))
  }

  /** `parse_http_resp`: the header block is searched for from the start of
      the response; the body starts where its match ends, and the header
      lines are parsed from the start of the response. */
  function ParseHttpResp(s: seq<char>): (r: Outcome)
    ensures r.Done? ==> r.code == Success || r.code == HttpError
    ensures r.Done? && r.code == Success ==>
              r.resp.version.Some? && r.resp.status.Some? && r.resp.phrase.Some? && r.resp.body.Some?
    ensures r.Done? ==> InText(s, r.resp)
  {
    var h := Search(HeaderBlock, s, 0);
    if h.None? then Done(HttpError, EMPTY_RESP)
    else Headers(s, 0, 0, EMPTY_RESP.(body := Some(h.value.eo)))
  }

  /** A response is rejected with nothing filled in exactly when the
      header block matches at no line start. */
  lemma NoHeaderBlockRejected(s: seq<char>)
    ensures ParseHttpResp(s) == Done(HttpError, EMPTY_RESP) <==>
              forall k :: 0 <= k <= |s| && LineStart(s, 0, k) ==> MatchEnd(HeaderBlock, s, k).None?
  {
    SearchLeftmost(HeaderBlock, s, 0);
  }

  /** The body starts right after a CR LF CR LF, at the end of the longest
      header block match at the first line start where one matches. */
  lemma HeaderBlockBody(s: seq<char>)
    requires ParseHttpResp(s).Done? && ParseHttpResp(s).resp.body.Some?
    ensures var b := ParseHttpResp(s).resp.body.value;
            EndsQuad(s, b)
            && exists k :: 0 <= k <= b && LineStart(s, 0, k) && InResp(HeaderBlock, s[k..b])
                           && forall m :: b < m <= |s| ==> !InResp(HeaderBlock, s[k..m])
  {
    SearchLeftmost(HeaderBlock, s, 0);
    var h := Search(HeaderBlock, s, 0).value;
    MatchEndIsLongest(HeaderBlock, s, h.so);
    LastQuadFacts(s, h.so, FirstBare(s, h.so, h.so));
  }

  /** The header block pattern is greedy: when it matches at the start,
      the body begins after the last CR LF CR LF that is not preceded by a
      bare line feed, not after the first one, so blank lines of a CR LF
      body move the body start past them. */
  lemma HeaderBlockGreedy(s: seq<char>, m: nat)
    requires EndsQuad(s, m) && m <= FirstBare(s, 0, 0)
    ensures var r := ParseHttpResp(s);
            r.Done? ==> r.resp.body.Some? && r.resp.body.value >= m
  {
    LastQuadFacts(s, 0, FirstBare(s, 0, 0));
    SearchAtCursor(HeaderBlock, s, 0);
  }

  /** A response whose first line is empty has no status line and is
      rejected. */
  lemma EmptyFirstLineRejected(s: seq<char>)
    requires IsLineEmpty(s, 0)
    ensures ParseHttpResp(s).Done? && ParseHttpResp(s).code == HttpError
  {
    assert NextLf(s, 0) == 1 by {
      assert NextLf(s, 1) == 1;
    }
    SearchAtCursor(Line, s, 0);
  }

  /** A status line at the very start of the response is the one parsed:
      the result fails exactly when that line fails, and a success carries
      its version, status and phrase. */
  lemma StatusLineAtStart(s: seq<char>)
    requires Search(HeaderBlock, s, 0).Some? && MatchEnd(Line, s, 0).Some? && !IsLineEmpty(s, 0)
    ensures var r := ParseHttpResp(s);
            var first := ParseFirstLine(s, 0, EMPTY_RESP);
            r.Done? ==>
              (r.code == Success <==> first.0 == Success)
              && (r.code == Success ==>
                    r.resp.version == first.1.version && r.resp.status == first.1.status && r.resp.phrase == first.1.phrase)
  {
    SearchAtCursor(Line, s, 0);
  }

  /** A `Location` header on its own CR LF terminated line gives the value
      between the white space after the tag and the CR. */
  lemma LocationOnOwnLine(s: seq<char>, lineSt: nat, resp: HResp)
    requires |s| < SIZE_MOD
    requires lineSt + 9 <= |s| && s[lineSt..lineSt + 9] == LOCATION_TAG
    requires NextLf(s, lineSt) < |s| && s[NextLf(s, lineSt) - 1] == CR
    requires Skip(s, lineSt + 9) <= NextLf(s, lineSt) - 1
    ensures var lineEnd := NextLf(s, lineSt) + 1;
            var c := Skip(s, lineSt + 9);
            LocationUpdate(s, lineSt, lineEnd, resp).location == Some(Slice(c, lineEnd - 2 - c))
            && (forall i :: lineSt + 9 <= i < c ==> IsSpace(s[i]))
            && (forall i :: c <= i < lineEnd - 2 ==> s[i] != LF)
  {
    SearchAtCursor(LocationTag, s, lineSt);
    SkipFacts(s, lineSt + 9);
    NextLfFacts(s, lineSt);
  }

  /** The tag is searched for from the line start without anchoring it to
      that line: a header line that is not a `Location` line, followed
      later by one, gets a slice that starts past its own line. When the
      line end the step is given is that line's own CR LF end (the line
      search found the line at the cursor, as it always does in
      `HeadersIntended`), the slice's `size_t` length wraps around to
      nearly 2^64. */
  lemma LocationFromLaterLine(s: seq<char>, lineSt: nat, resp: HResp)
    requires |s| < SIZE_MOD && lineSt <= |s|
    requires NextLf(s, lineSt) < |s|
    requires MatchEnd(LocationTag, s, lineSt).None? && Search(LocationTag, s, lineSt).Some?
    ensures var lineEnd := NextLf(s, lineSt) + 1;
            var r := LocationUpdate(s, lineSt, lineEnd, resp);
            r.location.Some? && r.location.value.st > lineEnd
            && r.location.value.len == SIZE_MOD - (r.location.value.st - lineEnd) - 2
  {
    SearchLeftmost(LocationTag, s, lineSt);
    NextLfFacts(s, lineSt);
    var l := Search(LocationTag, s, lineSt).value;
    var k := lineSt + l.so;
    assert k > NextLf(s, lineSt) by {
      assert k != lineSt && s[k - 1] == LF;
    }
    var c := Skip(s, lineSt + l.eo);
    var lineEnd := NextLf(s, lineSt) + 1;
    assert -SIZE_MOD <= lineEnd - c < 0;
    assert Wrap(lineEnd - c) == lineEnd - c + SIZE_MOD;
  }

  /** The tag pattern is compiled without REG_ICASE: a header written
      `location:` is not recognised, although header names are
      case-insensitive in HTTP. */
  lemma LocationTagCaseSensitive(s: seq<char>, q: nat)
    requires q + 9 <= |s| && s[q..q + 9] == "location:"
    ensures MatchEnd(LocationTag, s, q).None?
  {
    assert s[q..q + 9][0] == 'l';
  }

  /** One round of the as-written header loop after the status line: when
      the line search passed over `so` characters of lines not ending in
      CR LF, both the next cursor and the line end given to the `Location`
      step lie `so` characters past the end of the line found. */
  lemma HeaderStepOvershoots(s: seq<char>, cur: nat, lineNo: nat, resp: HResp)
    requires cur <= |s| && lineNo > 0 && Search(Line, s, cur).Some?
    requires !IsLineEmpty(s, cur + Search(Line, s, cur).value.so)
    ensures var m := Search(Line, s, cur).value;
            var lineSt := cur + m.so;
            var e := NextLf(s, lineSt) + 1;
            e + m.so == lineSt + m.eo
            && Headers(s, cur, lineNo, resp) == Headers(s, e + m.so, lineNo + 1, LocationUpdate(s, lineSt, e + m.so, resp))
  {
    LineFound(s, cur);
  }

  /** A `Location` line found after skipped lines gets a value that runs
      over its own CR into the text after it: the length is that of the
      value plus the `so` characters skipped. */
  lemma OvershotLocation(s: seq<char>, cur: nat, m: RegMatch, resp: HResp)
    requires |s| < SIZE_MOD && cur <= |s| && Search(Line, s, cur) == Some(m)
    requires cur + m.so + 9 <= |s| && s[cur + m.so..cur + m.so + 9] == LOCATION_TAG
    requires Skip(s, cur + m.so + 9) < NextLf(s, cur + m.so)
    ensures var e := NextLf(s, cur + m.so) + 1;
            var c := Skip(s, cur + m.so + 9);
            LocationUpdate(s, cur + m.so, cur + m.so + m.eo, resp).location == Some(Slice(c, e - 2 - c + m.so))
            && e <= |s| && s[e - 2] == CR
  {
    LineFound(s, cur);
    TagAtLine(s, cur + m.so, cur + m.so + m.eo, resp);
  }

  /** The line search from `cur` finds a line whose match ends at its own
      line feed. */
  lemma LineFound(s: seq<char>, cur: nat)
    requires cur <= |s| && Search(Line, s, cur).Some?
    ensures var m := Search(Line, s, cur).value;
            var lineSt := cur + m.so;
            lineSt < NextLf(s, lineSt) < |s| && cur + m.eo == NextLf(s, lineSt) + 1 && s[NextLf(s, lineSt) - 1] == CR
  {
    SearchLeftmost(Line, s, cur);
  }

  /** The `Location` step for a line that starts with the tag: the value
      runs from the white space after the tag to two before the line end
      it is given. */
  lemma TagAtLine(s: seq<char>, lineSt: nat, lineEnd: nat, resp: HResp)
    requires lineSt + 9 <= |s| && s[lineSt..lineSt + 9] == LOCATION_TAG
    requires 0 <= lineEnd - 2 - Skip(s, lineSt + 9) < SIZE_MOD
    ensures var c := Skip(s, lineSt + 9);
            LocationUpdate(s, lineSt, lineEnd, resp).location == Some(Slice(c, lineEnd - 2 - c))
  {
    SearchAtCursor(LocationTag, s, lineSt);
  }

  /** `parse_resp_headers` as evidently intended: the next cursor is the
      end of the line found (`cursor + rm_eo`), so every round starts right
      after the CR LF of the line it parsed and the loop never reads past
      the terminator. */
  function HeadersIntended(s: seq<char>, cur: nat, lineNo: nat, resp: HResp): (r: Outcome)
    requires cur <= |s|
    ensures r.Done? && (r.code == Success || r.code == HttpError)
    ensures r.resp.body == resp.body
    ensures lineNo > 0 ==>
              r.code == Success && r.resp.version == resp.version && r.resp.status == resp.status && r.resp.phrase == resp.phrase
    ensures r.code == Success && lineNo == 0 ==>
              r.resp.version.Some? && r.resp.status.Some? && r.resp.phrase.Some?
    ensures InText(s, resp) ==> InText(s, r.resp)
    decreases |s| - cur
  {
    var m := Search(Line, s, cur);
    if m.None? then Finish(lineNo, resp)
    else
      var lineSt := cur + m.value.so;
      var next := cur + m.value.eo;
      LineMatchLength(s, cur);
      if IsLineEmpty(s, lineSt) then Finish(lineNo, resp)
      else if lineNo == 0 then
        var (code, first) := ParseFirstLine(s, lineSt, resp);
        if code != Success then Done(code, first)
        else HeadersIntended(s, next, 1, first)
      else
        HeadersIntended(s, next, lineNo + 1, LocationUpdate(s, lineSt, next, resp))
  }

  /** `parse_http_resp` over the corrected header loop: it always reaches
      a verdict. */
  function ParseHttpRespIntended(s: seq<char>): (r: Outcome)
    ensures r.Done? && (r.code == Success || r.code == HttpError)
    ensures r.code == Success ==>
              r.resp.version.Some? && r.resp.status.Some? && r.resp.phrase.Some? && r.resp.body.Some?
    ensures InText(s, r.resp)
  {
    var h := Search(HeaderBlock, s, 0);
    if h.None? then Done(HttpError, EMPTY_RESP)
    else HeadersIntended(s, 0, 0, EMPTY_RESP.(body := Some(h.value.eo)))
  }

  /** In the corrected loop a round after the status line hands the
      `Location` step the end of the line found, and the next round starts
      there, whatever lines the search passed over. */
  lemma HeaderStepIntended(s: seq<char>, cur: nat, lineNo: nat, resp: HResp)
    requires cur <= |s| && lineNo > 0 && Search(Line, s, cur).Some?
    requires !IsLineEmpty(s, cur + Search(Line, s, cur).value.so)
    ensures var m := Search(Line, s, cur).value;
            var lineSt := cur + m.so;
            var e := cur + m.eo;
            e == NextLf(s, lineSt) + 1
            && HeadersIntended(s, cur, lineNo, resp) == HeadersIntended(s, e, lineNo + 1, LocationUpdate(s, lineSt, e, resp))
  {
    LineFound(s, cur);
  }

  /** In the corrected loop a `Location` line found after skipped lines
      gets exactly its value, without the CR LF. */
  lemma IntendedLocation(s: seq<char>, cur: nat, m: RegMatch, resp: HResp)
    requires |s| < SIZE_MOD && cur <= |s| && Search(Line, s, cur) == Some(m)
    requires cur + m.so + 9 <= |s| && s[cur + m.so..cur + m.so + 9] == LOCATION_TAG
    requires Skip(s, cur + m.so + 9) < NextLf(s, cur + m.so)
    ensures var e := NextLf(s, cur + m.so) + 1;
            var c := Skip(s, cur + m.so + 9);
            LocationUpdate(s, cur + m.so, cur + m.eo, resp).location == Some(Slice(c, e - 2 - c))
            && forall i :: c <= i < e - 2 ==> s[i] != LF
  {
    LineFound(s, cur);
    TagAtLine(s, cur + m.so, cur + m.eo, resp);
    NoLfBefore(s, cur + m.so, Skip(s, cur + m.so + 9));
  }

  lemma NoLfBefore(s: seq<char>, lineSt: nat, c: nat)
    requires lineSt <= |s| && lineSt <= c <= NextLf(s, lineSt)
    ensures forall i :: c <= i < NextLf(s, lineSt) ==> s[i] != LF
  {
    NextLfFacts(s, lineSt);
  }
}

=== FILE: url.dfy ===
/**
  The URL tokenizer, classifier and normalizer of url.c.

  `parse_url` tries the seven component patterns once each, in the order of
  `re_url_indexes`, each anchored at a cursor: a hit stores the matched text
  in the component's part and moves the cursor past it, a miss leaves both
  alone. `res_url` then decides the source type and rejects bad input, and
  `normalize_url` fills in the scheme, port and path defaults.

  A `url_t` is kept as its seven parts (a missing part is `None`, the C
  NULL pointer) and its source type. The feed reader reuses one `url_t` for
  the whole URL list and erases it before each parse, so a part may be an
  erased buffer left from an earlier URL.
 */
module Url {
  import opened Common
  import opened Buffers
  import opened Grammar

  const DEFAULT_URL_SCHEME: seq<char> := "https://"
  const RE_URL_NUM: nat := 7

  /** The default scheme is a C string the port step can cut "://" from. */
  lemma DefaultSchemeOk()
    ensures NoNul(DEFAULT_URL_SCHEME) && |DEFAULT_URL_SCHEME| == 8
  {
  }

  /** The components of `re_url_indexes`. */
  datatype Component = Scheme | UserInfo | Host | Port | Path | Query | Fragment

  /** The components in index order, which is the order `parse_url` tries them. */
  const Components: seq<Component> := [Scheme, UserInfo, Host, Port, Path, Query, Fragment]

  /** The index of a component; `Components` is its inverse. */
  function Index(c: Component): (r: nat)
    ensures r < RE_URL_NUM && |Components| == RE_URL_NUM && Components[r] == c
  {
    match c
    case Scheme => 0
    case UserInfo => 1
    case Host => 2
    case Port => 3
    case Path => 4
    case Query => 5
    case Fragment => 6
  }

  /** The pattern `prepare_url_patterns` compiles for each component. */
  function PatternOf(c: Component): Pattern {
    match c
    case Scheme => SchemePat
    case UserInfo => UserInfoPat
    case Host => HostPat
    case Port => PortPat
    case Path => PathAbsPat
    case Query => QueryPat
    case Fragment => FragPat
  }

  /** One round of the loop: the cursor the pattern was tried at and the
      length of its match, if any. */
  datatype Step = Step(at: nat, hit: Option<nat>)

  /** The cursor after a step. */
  function Next(st: Step): nat {
    st.at + (if st.hit.Some? then st.hit.value else 0)
  }

  /** Steps that each start where the previous one left the cursor. */
  predicate Chained(steps: seq<Step>) {
    forall k :: 0 <= k < |steps| - 1 ==> steps[k + 1].at == Next(steps[k])
  }

  /** Steps that are each the longest match of their component's pattern
      at their cursor, the first being component `i`. */
  predicate Matched(s: seq<char>, i: nat, steps: seq<Step>) {
    i + |steps| <= RE_URL_NUM
    && forall k :: 0 <= k < |steps| ==> LongestStep(s, Components[i + k], steps[k])
  }

  /** A step whose hit is the longest match of component `c` at its cursor. */
  predicate LongestStep(s: seq<char>, c: Component, st: Step) {
    st.at <= |s| && st.hit == Longest(PatternOf(c), s[st.at..])
  }

  /** The loop of `parse_url` from component `i` on, with the cursor at `cur`. */
  function ScanFrom(s: seq<char>, i: nat, cur: nat): (r: seq<Step>)
    requires i <= RE_URL_NUM && cur <= |s|
    ensures |r| == RE_URL_NUM - i && Chained(r)
    ensures |r| > 0 ==> r[0].at == cur
    ensures forall k :: 0 <= k < |r| ==> cur <= r[k].at <= Next(r[k]) <= |s|
    decreases RE_URL_NUM - i
  {
    if i == RE_URL_NUM then []
    else
      var st := Step(cur, Longest(PatternOf(Components[i]), s[cur..]));
      var rest := ScanFrom(s, i + 1, Next(st));
      assert forall k :: 1 <= k < 1 + |rest| ==> ([st] + rest)[k] == rest[k - 1];
      [st] + rest
  }

  function Scan(s: seq<char>): (r: seq<Step>)
    ensures |r| == RE_URL_NUM && Chained(r) && r[0].at == 0
    ensures forall k :: 0 <= k < |r| ==> r[k].at <= Next(r[k]) <= |s|
  {
    ScanFrom(s, 0, 0)
  }

  /** Each component is tried once, in index order, anchored at the cursor
      the previous components left, and a hit is its longest match there. */
  lemma {:induction false} ScanFromMatched(s: seq<char>, i: nat, cur: nat)
    requires i <= RE_URL_NUM && cur <= |s|
    ensures Matched(s, i, ScanFrom(s, i, cur))
    decreases RE_URL_NUM - i
  {
    if i < RE_URL_NUM {
      var st := Step(cur, Longest(PatternOf(Components[i]), s[cur..]));
      assert ScanFrom(s, i, cur) == [st] + ScanFrom(s, i + 1, Next(st));
      ScanFromMatched(s, i + 1, Next(st));
      MatchedCons(s, i, st, ScanFrom(s, i + 1, Next(st)));
    }
  }

  /** A longest-match step for component `i` in front of matched steps
      for the components after it. */
  lemma MatchedCons(s: seq<char>, i: nat, st: Step, rest: seq<Step>)
    requires Matched(s, i + 1, rest)
    requires LongestStep(s, Components[i], st)
    ensures Matched(s, i, [st] + rest)
  {
    var r := [st] + rest;
    forall k | 0 <= k < |r|
      ensures LongestStep(s, Components[i + k], r[k])
    {
      if k > 0 {
        assert r[k] == rest[k - 1];
      }
    }
  }

  lemma ScanMatched(s: seq<char>)
    ensures Matched(s, 0, Scan(s))
  {
    ScanFromMatched(s, 0, 0);
  }

  /** Where the cursor stops (`glob_st` after the loop). */
  function End(steps: seq<Step>): nat
    requires |steps| == RE_URL_NUM
  {
    Next(steps[RE_URL_NUM - 1])
  }

  /** The text a step matched. */
  function Text(s: seq<char>, st: Step): seq<char>
    requires st.at <= Next(st) <= |s|
  {
    s[st.at..Next(st)]
  }

  /** The matched texts, concatenated in component order. */
  function Joined(s: seq<char>, steps: seq<Step>): seq<char>
    requires forall k :: 0 <= k < |steps| ==> steps[k].at <= Next(steps[k]) <= |s|
  {
    if steps == [] then [] else Text(s, steps[0]) + Joined(s, steps[1..])
  }

  /** Chained steps cover the text from the first cursor to the last one
      without gap or overlap. */
  lemma {:induction false} JoinedCovers(s: seq<char>, steps: seq<Step>)
    requires |steps| > 0 && Chained(steps)
    requires forall k :: 0 <= k < |steps| ==> steps[k].at <= Next(steps[k]) <= |s|
    ensures steps[0].at <= Next(steps[|steps| - 1])
    ensures Joined(s, steps) == s[steps[0].at..Next(steps[|steps| - 1])]
    decreases |steps|
  {
    if |steps| > 1 {
      var rest := steps[1..];
      assert Chained(rest) by {
        forall k | 0 <= k < |rest| - 1 ensures rest[k + 1].at == Next(rest[k]) {
          assert rest[k + 1] == steps[k + 2] && rest[k] == steps[k + 1];
        }
      }
      JoinedCovers(s, rest);
      assert rest[0] == steps[1] && rest[|rest| - 1] == steps[|steps| - 1];
      var a, b, c := steps[0].at, steps[1].at, Next(steps[|steps| - 1]);
      assert a <= b <= c;
      assert s[a..b] + s[b..c] == s[a..c];
    } else {
      assert steps[1..] == [];
    }
  }

  /** Seven chained steps starting at 0 spell the text up to where the
      last one leaves the cursor. */
  lemma SpelledPrefix(s: seq<char>, steps: seq<Step>)
    requires |steps| == RE_URL_NUM && Chained(steps) && steps[0].at == 0
    requires forall k :: 0 <= k < |steps| ==> steps[k].at <= Next(steps[k]) <= |s|
    ensures End(steps) <= |s| && Joined(s, steps) == s[..End(steps)]
  {
    JoinedCovers(s, steps);
  }

  /** When the cursor stops at the end of the text, the matched components
      spell all of it. */
  lemma SpelledWhole(s: seq<char>, steps: seq<Step>)
    requires |steps| == RE_URL_NUM && Chained(steps) && steps[0].at == 0
    requires forall k :: 0 <= k < |steps| ==> steps[k].at <= Next(steps[k]) <= |s|
    requires End(steps) == |s|
    ensures Joined(s, steps) == s
  {
    SpelledPrefix(s, steps);
    assert s[..|s|] == s;
  }

  /** A part that is absent or a well-formed buffer. */
  predicate PartOk(o: Option<Buffer>) { o.None? || Wf(o.value) }

  /** A `url_t` whose parts are all absent or well formed. */
  predicate Reusable(u: UrlT) {
    |u.parts| == RE_URL_NUM && forall i :: 0 <= i < RE_URL_NUM ==> PartOk(u.parts[i])
  }

  /** A `url_t` as `init_url` or `erase_url` leaves it: every part absent or empty. */
  predicate Erased(u: UrlT) {
    Reusable(u) && forall i :: 0 <= i < RE_URL_NUM ==> IsEmpty(u.parts[i])
  }

  datatype UrlT = UrlT(parts: seq<Option<Buffer>>, kind: SrcType)

  function Part(u: UrlT, c: Component): Option<Buffer>
    requires |u.parts| == RE_URL_NUM
  {
    u.parts[Index(c)]
  }

  /** The text of a part; an absent part reads as the empty string here. */
  function PartText(o: Option<Buffer>): seq<char> {
    if o.None? then [] else Content(o.value)
  }

  /** `init_url`: no parts, type UNKNOWN. */
  function InitUrl(): (r: UrlT)
    ensures Erased(r) && r.kind == Unknown
    ensures forall i :: 0 <= i < RE_URL_NUM ==> r.parts[i].None?
  {
    UrlT(seq(RE_URL_NUM, i => None), Unknown)
  }

  /** `erase_url`: every present part is cleared in place. */
  function EraseUrl(u: UrlT): (r: UrlT)
    requires Reusable(u)
    ensures Erased(r) && r.kind == u.kind
    ensures forall i :: 0 <= i < RE_URL_NUM ==>
              r.parts[i].Some? == u.parts[i].Some?
              && (r.parts[i].Some? ==> |r.parts[i].value.data| == |u.parts[i].value.data|)
  {
    UrlT(seq(RE_URL_NUM, i requires 0 <= i < RE_URL_NUM =>
                           if u.parts[i].None? then None else Some(EraseString(u.parts[i].value))),
         u.kind)
  }

  /** The capacity of a part after its round of the loop: `set_stringn`
      allocates one byte more than the match, or grows a reused buffer. */
  function StoredCap(part: Option<Buffer>, st: Step): nat {
    if st.hit.None? then Cap(part)
    else if part.None? then st.hit.value + 1
    else if |part.value.data| == 0 then 0
    else Grow(|part.value.data|, st.hit.value)
  }

  /** One `set_stringn` call of the loop: the part holds the text a hit matched. */
  function StorePart(part: Option<Buffer>, s: seq<char>, st: Step): (r: Option<Buffer>)
    requires PartOk(part) && NoNul(s) && st.at <= Next(st) <= |s|
    ensures PartOk(r)
    ensures st.hit.Some? ==> r.Some? && Content(r.value) == Text(s, st)
    ensures st.hit.None? ==> r == part
    ensures Cap(r) == StoredCap(part, st)
  {
    if st.hit.None? then part
    else
      NoNulSlices(s);
      var b := SetStringN(part, s[st.at..], st.hit.value);
      assert s[st.at..][..Min(st.hit.value, |s| - st.at)] == Text(s, st);
      Some(b)
  }

  /** The `set_stringn` calls of the loop: every hit stores its text in its
      part (reusing the buffer), every miss leaves its part alone. */
  function StoreMatches(parts: seq<Option<Buffer>>, s: seq<char>, steps: seq<Step>): (r: seq<Option<Buffer>>)
    requires |parts| == RE_URL_NUM && |steps| == RE_URL_NUM && NoNul(s)
    requires forall i :: 0 <= i < RE_URL_NUM ==> PartOk(parts[i])
    requires forall k :: 0 <= k < RE_URL_NUM ==> steps[k].at <= Next(steps[k]) <= |s|
    ensures |r| == RE_URL_NUM
    ensures forall i :: 0 <= i < RE_URL_NUM ==> r[i] == StorePart(parts[i], s, steps[i])
  {
    seq(RE_URL_NUM, i requires 0 <= i < RE_URL_NUM => StorePart(parts[i], s, steps[i]))
  }

  /** The three supported schemes are pairwise different, whatever the case. */
  lemma SchemesDistinct(t: seq<char>)
    ensures !(EqualsIgnoreCase(t, "file://") && EqualsIgnoreCase(t, "https://"))
    ensures !(EqualsIgnoreCase(t, "file://") && EqualsIgnoreCase(t, "http://"))
    ensures !(EqualsIgnoreCase(t, "https://") && EqualsIgnoreCase(t, "http://"))
  {
    if |t| == 7 && EqualsIgnoreCase(t, "file://") {
      assert ToLower(t[0]) == 'f';
    }
  }

  /** `get_src_type`: case-insensitive comparison against the three
      supported schemes; a missing scheme counts as "https://". */
  function GetSrcType(scheme: Option<seq<char>>): (r: SrcType)
    ensures var t := if scheme.None? then DEFAULT_URL_SCHEME else scheme.value;
            (r == FileSrc <==> EqualsIgnoreCase(t, "file://"))
            && (r == HttpsSrc <==> EqualsIgnoreCase(t, "https://"))
            && (r == HttpSrc <==> EqualsIgnoreCase(t, "http://"))
  {
    var t := if scheme.None? then DEFAULT_URL_SCHEME else scheme.value;
    SchemesDistinct(t);
    if EqualsIgnoreCase(t, "file://") then FileSrc
    else if EqualsIgnoreCase(t, "https://") then HttpsSrc
    else if EqualsIgnoreCase(t, "http://") then HttpSrc
    else Unknown
  }

  lemma LowerIdempotent(c: char)
    ensures ToLower(ToLower(c)) == ToLower(c)
  {
  }

  /** The classification does not depend on the letter case of the scheme. */
  lemma GetSrcTypeIgnoresCase(t: seq<char>)
    ensures GetSrcType(Some(LowerAll(t))) == GetSrcType(Some(t))
    ensures GetSrcType(None) == HttpsSrc
  {
    var l := LowerAll(t);
    forall i | 0 <= i < |t| ensures ToLower(l[i]) == ToLower(t[i]) {
      LowerIdempotent(t[i]);
    }
    assert forall lit: seq<char> :: EqualsIgnoreCase(l, lit) <==> EqualsIgnoreCase(t, lit);
    assert EqualsIgnoreCase(DEFAULT_URL_SCHEME, "https://");
    assert !EqualsIgnoreCase(DEFAULT_URL_SCHEME, "file://") by {
      assert ToLower(DEFAULT_URL_SCHEME[0]) != ToLower("file://"[0]);
    }
  }

  /** `res_url` (with no internal error): the source type and the verdict.
      `matched[i]` says whether component i matched; `prev` is the type the
      `url_t` had before. */
  method ResUrl(inv: bool, matched: seq<bool>, scheme: Option<Buffer>, prev: SrcType) returns (code: Code, kind: SrcType)
    requires |matched| == RE_URL_NUM
    ensures code == Success || code == UrlError
    ensures !matched[Index(Scheme)] ==> kind == HttpsSrc
    ensures matched[Index(Scheme)] && !IsEmpty(scheme) ==> kind == GetSrcType(Some(Content(scheme.value)))
    ensures matched[Index(Scheme)] && IsEmpty(scheme) ==> kind == prev
    ensures code == UrlError <==>
              (matched[Index(Scheme)] && !IsEmpty(scheme) && kind == Unknown)
              || (kind == FileSrc && (!matched[Index(Path)] || inv))
              || (kind != FileSrc && (!matched[Index(Host)] || inv))
  {
    kind :=
      if !matched[Index(Scheme)] then GetSrcType(None)
      else if !IsEmpty(scheme) then GetSrcType(Some(Content(scheme.value)))
      else prev;
    if matched[Index(Scheme)] && !IsEmpty(scheme) && kind == Unknown {
      code := UrlError;
    } else if kind == FileSrc {
      code := if !matched[Index(Path)] || inv then UrlError else Success;
    } else {
      code := if !matched[Index(Host)] || inv then UrlError else Success;
    }
  }

  /** The scheme and path steps of `normalize_url`: an empty part is set
      to `text`, a non-empty one is kept. */
  method DefaultPart(part: Option<Buffer>, text: seq<char>) returns (r: Buffer)
    requires PartOk(part) && NoNul(text)
    ensures Defaulted(part, Some(r), text)
  {
    r := if IsEmpty(part) then SetString(part, text) else part.value;
  }

  predicate Defaulted(before: Option<Buffer>, after: Option<Buffer>, text: seq<char>) {
    after.Some? && Wf(after.value)
    && Content(after.value) == (if IsEmpty(before) then text else Content(before.value))
  }

  /** The capacity of a part's buffer, 0 when the part is absent. */
  function Cap(o: Option<Buffer>): nat {
    if o.None? then 0 else |o.value.data|
  }

  /** What the port step promises, for a port part that held `text` in a
      buffer of capacity `cap` (0: no buffer): a port longer than its ':'
      loses the ':'; otherwise the scheme is copied into the buffer (grown
      as `set_string` grows it) and cut four bytes before the buffer's
      end, which for a freshly allocated buffer removes exactly "://";
      either way the port is lower-cased. */
  predicate PortNormalized(text: seq<char>, cap: nat, after: Option<Buffer>, scheme: seq<char>) {
    after.Some? && Wf(after.value)
    && (|text| > 1 ==> Content(after.value) == LowerAll(text[1..]))
    && (|text| <= 1 ==>
          |after.value.data| == (if cap == 0 then |scheme| + 1 else Grow(cap, |scheme|))
          && |after.value.data| >= 4
          && Content(after.value) == LowerAll(scheme[..Min(|scheme|, |after.value.data| - 4)]))
  }

  /** The port step of `normalize_url`: a present port loses its first
      character (the ':'); a port that is then empty is replaced by the
      scheme with its last three bytes cleared by `trunc_string(-3)`, which
      counts from the end of the buffer, not of the text; the result is
      lower-cased. */
  method NormalizePort(port: Option<Buffer>, scheme: seq<char>) returns (r: Buffer)
    requires PartOk(port) && NoNul(scheme) && |scheme| >= 3
    ensures PortNormalized(PartText(port), Cap(port), Some(r), scheme)
  {
    var p1 := if !IsEmpty(port) then Some(TruncString(port.value, 1)) else port;
    assert PartOk(p1);
    var p2 := if IsEmpty(p1) then TruncString(SetString(p1, scheme), -3) else p1.value;
    r := StringToLower(p2);
  }

  lemma RootPathOk()
    ensures NoNul("/")
  {
  }

  /** The components `normalize_url` may change. */
  predicate Normalized(c: Component) { c == Scheme || c == Port || c == Path }

  /** `normalize_url`: a file URL is left as it is; otherwise the scheme
      and path get their defaults and the port is normalized. */
  method Normalize(u: UrlT, def: seq<char>) returns (r: UrlT)
    requires Reusable(u) && NoNul(def) && |def| >= 3 && SchemeOk(u)
    ensures u.kind == FileSrc ==> r == u
    ensures Reusable(r) && r.kind == u.kind
    ensures forall c :: !Normalized(c) ==> Part(r, c) == Part(u, c)
    ensures u.kind != FileSrc ==>
              Defaulted(Part(u, Scheme), Part(r, Scheme), def)
              && Defaulted(Part(u, Path), Part(r, Path), "/")
              && PortNormalized(PartText(Part(u, Port)), Cap(Part(u, Port)), Part(r, Port), Content(Part(r, Scheme).value))
  {
    if u.kind == FileSrc {
      return u;
    }
    var sch := DefaultPart(Part(u, Scheme), def);
    var port := NormalizePort(Part(u, Port), Content(sch));
    RootPathOk();
    var path := DefaultPart(Part(u, Path), "/");
    r := WithNormalized(u, sch, port, path);
  }

  /** `u` with its scheme, port and path parts replaced. */
  function WithNormalized(u: UrlT, sch: Buffer, port: Buffer, path: Buffer): (r: UrlT)
    requires Reusable(u) && Wf(sch) && Wf(port) && Wf(path)
    ensures Reusable(r) && r.kind == u.kind
    ensures Part(r, Scheme) == Some(sch) && Part(r, Port) == Some(port) && Part(r, Path) == Some(path)
    ensures forall c :: !Normalized(c) ==> Part(r, c) == Part(u, c)
  {
    var iS, iP, iPa := Index(Scheme), Index(Port), Index(Path);
    var r := UrlT(u.parts[iS := Some(sch)][iP := Some(port)][iPa := Some(path)], u.kind);
    assert forall i :: 0 <= i < RE_URL_NUM && i != iS && i != iP && i != iPa ==> r.parts[i] == u.parts[i];
    r
  }

  /** What the loop leaves in a part: a hit's text, or the old part on a miss. */
  predicate StoredAs(before: Option<Buffer>, after: Option<Buffer>, s: seq<char>, st: Step)
    requires st.at <= Next(st) <= |s|
  {
    (st.hit.Some? ==> after.Some? && Content(after.value) == Text(s, st))
    && (st.hit.None? ==> after == before)
  }

  /** On a part that started out empty, the text the loop leaves is the
      hit's text, or nothing on a miss. */
  lemma StoredText(u: UrlT, after: Option<Buffer>, s: seq<char>, st: Step, c: Component)
    requires Erased(u) && st.at <= Next(st) <= |s|
    requires StoredAs(Part(u, c), after, s, st)
    ensures PartText(after) == if st.hit.Some? then Text(s, st) else []
  {
    assert IsEmpty(u.parts[Index(c)]);
  }

  /** The match flags `res_url` inspects. */
  function Hits(steps: seq<Step>): (r: seq<bool>)
    ensures |r| == |steps| && forall i :: 0 <= i < |steps| ==> r[i] == steps[i].hit.Some?
  {
    seq(|steps|, i requires 0 <= i < |steps| => steps[i].hit.Some?)
  }

  /** The loop of `parse_url`: the parts after storing every hit. */
  method Tokenize(u: UrlT, s: seq<char>) returns (r: UrlT)
    requires Reusable(u) && NoNul(s)
    ensures Reusable(r) && r.kind == u.kind
    ensures forall c :: StoredAs(Part(u, c), Part(r, c), s, Scan(s)[Index(c)])
    ensures forall c :: Cap(Part(r, c)) == StoredCap(Part(u, c), Scan(s)[Index(c)])
    ensures Erased(u) ==> SchemeOk(r)
  {
    var steps := Scan(s);
    r := UrlT(StoreMatches(u.parts, s, steps), u.kind);
    assert forall c :: Part(r, c) == StorePart(Part(u, c), s, steps[Index(c)]);
    SchemeHitLength(s);
    assert StoredAs(Part(u, Scheme), Part(r, Scheme), s, steps[0]);
  }

  /** The scheme part is empty or long enough for the port step to cut
      "://" from a copy of it. */
  predicate SchemeOk(u: UrlT)
    requires |u.parts| == RE_URL_NUM
  {
    IsEmpty(Part(u, Scheme)) || |Content(Part(u, Scheme).value)| >= 3
  }

  /** A scheme hit is at least a letter and "://". */
  lemma SchemeHitLength(s: seq<char>)
    ensures Scan(s)[0].hit.Some? ==> |Text(s, Scan(s)[0])| >= 4
  {
    ScanMatched(s);
    assert Index(Scheme) == 0;
  }

  /** A path hit is never empty: no path pattern matches the empty string. */
  lemma PathHitNonEmpty(s: seq<char>)
    ensures var st := Scan(s)[Index(Path)];
            st.hit.Some? ==> |Text(s, st)| > 0
  {
    ScanMatched(s);
    StepHitNonEmpty(s, Scan(s), Index(Path));
  }

  /** A hit among matched steps is never empty. */
  lemma StepHitNonEmpty(s: seq<char>, steps: seq<Step>, k: nat)
    requires Matched(s, 0, steps) && k < |steps|
    ensures steps[k].hit.Some? ==> steps[k].at + steps[k].hit.value <= |s| && steps[k].hit.value > 0
  {
    if steps[k].hit.Some? {
      assert LongestStep(s, Components[0 + k], steps[k]);
      HitNonEmpty(s, Components[k], steps[k]);
    }
  }

  /** A hit of a component pattern is never empty. */
  lemma HitNonEmpty(s: seq<char>, c: Component, st: Step)
    requires LongestStep(s, c, st) && st.hit.Some?
    ensures st.at + st.hit.value <= |s| && st.hit.value > 0
  {
    var x, n := s[st.at..], st.hit.value;
    assert MatchesAt(PatternOf(c), x, n);
    MatchNonEmpty(PatternOf(c), x[..n]);
  }

  /** When `res_url` rejects a URL whose source type came out as `kind`:
      input is left over after the seven components, or a matched scheme is
      none of the three supported ones, or a file URL has no path, or a
      network URL has no host. */
  predicate Rejects(n: nat, steps: seq<Step>, kind: SrcType)
    requires |steps| == RE_URL_NUM
  {
    End(steps) != n
    || (steps[Index(Scheme)].hit.Some? && kind == Unknown)
    || (kind == FileSrc && steps[Index(Path)].hit.None?)
    || (kind != FileSrc && steps[Index(Host)].hit.None?)
  }

  /** The source type `res_url` gives `s`: that of its scheme, or HTTPS
      when no scheme matched. */
  function SourceType(s: seq<char>): SrcType {
    KindOf(s, Scan(s))
  }

  /** The source type given by the scheme step of a scan. */
  function KindOf(s: seq<char>, steps: seq<Step>): SrcType
    requires |steps| == RE_URL_NUM && steps[Index(Scheme)].at <= Next(steps[Index(Scheme)]) <= |s|
  {
    var sch := steps[Index(Scheme)];
    if sch.hit.Some? then GetSrcType(Some(Text(s, sch))) else HttpsSrc
  }

  /** The URLs `parse_url` accepts. */
  predicate Accepted(s: seq<char>) {
    !Rejects(|s|, Scan(s), SourceType(s))
  }

  /** The first two stages of `parse_url`: the matching loop and
      `res_url`, before `normalize_url`. */
  method MatchUrl(u: UrlT, s: seq<char>) returns (code: Code, t: UrlT, steps: seq<Step>)
    requires Erased(u) && NoNul(s)
    ensures steps == Scan(s)
    ensures code == Success || code == UrlError
    ensures Reusable(t) && SchemeOk(t)
    ensures t.kind == KindOf(s, steps)
    ensures code == UrlError <==> Rejects(|s|, steps, t.kind)
    ensures steps[Index(Scheme)].hit.None? ==> t.kind == HttpsSrc && IsEmpty(Part(t, Scheme))
    ensures steps[Index(Path)].hit.Some? ==> |Text(s, steps[Index(Path)])| > 0
    ensures code == Success ==> t.kind != Unknown
    ensures Cap(Part(t, Port)) == StoredCap(Part(u, Port), steps[Index(Port)])
    ensures forall c :: StoredAs(Part(u, c), Part(t, c), s, steps[Index(c)])
  {
    steps := Scan(s);
    var u1 := Tokenize(u, s);
    var matched := Hits(steps);
    assert matched[Index(Scheme)] == steps[Index(Scheme)].hit.Some?;
    assert matched[Index(Path)] == steps[Index(Path)].hit.Some?;
    assert matched[Index(Host)] == steps[Index(Host)].hit.Some?;
    SchemeHitLength(s);
    PathHitNonEmpty(s);
    assert StoredAs(Part(u, Scheme), Part(u1, Scheme), s, steps[Index(Scheme)]);
    assert IsEmpty(Part(u1, Scheme)) <==> steps[Index(Scheme)].hit.None?;
    var kind;
    code, kind := ResUrl(End(steps) != |s|, matched, Part(u1, Scheme), u.kind);
    t := UrlT(u1.parts, kind);
    assert forall c :: Part(t, c) == Part(u1, c);
  }

  /** `parse_url` on a `url_t` that was just initialised or erased: the
      loop, then `res_url`, then `normalize_url` with "https://" as the
      default scheme. The URL is rejected exactly when input is left over
      after the components, when a matched scheme is none of the three
      known ones, or when a file URL has no path or a network URL has no
      host; an accepted URL is exactly the concatenation of its matched
      components. */
  method ParseUrl(u: UrlT, s: seq<char>) returns (code: Code, r: UrlT, steps: seq<Step>)
    requires Erased(u) && NoNul(s)
    ensures steps == Scan(s)
    ensures code == Success || code == UrlError
    ensures Reusable(r)
    ensures r.kind == KindOf(s, steps)
    ensures code == UrlError <==> Rejects(|s|, steps, r.kind)
    ensures steps[Index(Scheme)].hit.None? ==> r.kind == HttpsSrc
    ensures code == Success ==> Joined(s, steps) == s
    ensures code == Success && r.kind != FileSrc ==> r.kind == HttpSrc || r.kind == HttpsSrc
    ensures ParsedParts(u, s, code, r, steps)
  {
    var t;
    code, t, steps := MatchUrl(u, s);
    r := NormalizeMatched(u, s, code, t, steps);
  }

  /** The parts `parse_url` leaves: a part `normalize_url` does not touch
      holds what the loop stored; on an accepted network URL the scheme is
      the matched one or the default, the path is the matched one or "/",
      and the port is the normalized matched port; an accepted file URL
      keeps every part the loop stored. */
  predicate ParsedParts(u: UrlT, s: seq<char>, code: Code, r: UrlT, steps: seq<Step>)
    requires |u.parts| == RE_URL_NUM && |r.parts| == RE_URL_NUM && |steps| == RE_URL_NUM
    requires forall k :: 0 <= k < |steps| ==> steps[k].at <= Next(steps[k]) <= |s|
  {
    (forall c :: !Normalized(c) ==> StoredAs(Part(u, c), Part(r, c), s, steps[Index(c)]))
    && (code == Success && r.kind != FileSrc ==>
          Part(r, Scheme).Some? && Part(r, Path).Some? && Part(r, Port).Some?
          && Content(Part(r, Scheme).value)
             == (if steps[Index(Scheme)].hit.Some? then Text(s, steps[Index(Scheme)]) else DEFAULT_URL_SCHEME)
          && Content(Part(r, Path).value)
             == (if steps[Index(Path)].hit.Some? then Text(s, steps[Index(Path)]) else "/")
          && var port := steps[Index(Port)];
             PortNormalized(if port.hit.Some? then Text(s, port) else [], StoredCap(Part(u, Port), port),
                            Part(r, Port), Content(Part(r, Scheme).value)))
    && (code == Success && r.kind == FileSrc ==>
          forall c :: StoredAs(Part(u, c), Part(r, c), s, steps[Index(c)]))
  }

  /** The last stage of `parse_url`: `normalize_url` on an accepted URL,
      stated in terms of the steps of the loop. */
  method NormalizeMatched(u: UrlT, s: seq<char>, code: Code, t: UrlT, steps: seq<Step>) returns (r: UrlT)
    requires Erased(u) && |steps| == RE_URL_NUM && Chained(steps) && steps[0].at == 0
    requires forall k :: 0 <= k < |steps| ==> steps[k].at <= Next(steps[k]) <= |s|
    requires Reusable(t) && SchemeOk(t)
    requires code == Success ==> !Rejects(|s|, steps, t.kind) && t.kind != Unknown
    requires steps[Index(Scheme)].hit.Some? ==> |Text(s, steps[Index(Scheme)])| >= 4
    requires steps[Index(Scheme)].hit.None? ==> IsEmpty(Part(t, Scheme))
    requires steps[Index(Path)].hit.Some? ==> |Text(s, steps[Index(Path)])| > 0
    requires Cap(Part(t, Port)) == StoredCap(Part(u, Port), steps[Index(Port)])
    requires forall c :: StoredAs(Part(u, c), Part(t, c), s, steps[Index(c)])
    ensures code != Success ==> r == t
    ensures Reusable(r) && r.kind == t.kind
    ensures code == Success ==> Joined(s, steps) == s
    ensures ParsedParts(u, s, code, r, steps)
  {
    r := t;
    if code == Success {
      SpelledWhole(s, steps);
      DefaultSchemeOk();
      r := Normalize(t, DEFAULT_URL_SCHEME);
      StoredText(u, Part(t, Scheme), s, steps[Index(Scheme)], Scheme);
      StoredText(u, Part(t, Port), s, steps[Index(Port)], Port);
      StoredText(u, Part(t, Path), s, steps[Index(Path)], Path);
    }
  }

  /** A port of ':' alone, stored in a fresh two-byte buffer, comes out as
      "https://" for an https URL and as "http" for an http URL: the
      three bytes `trunc_string(-3)` clears are counted from the end of the
      grown buffer, not from the end of the scheme. */
  lemma BareColonPort(after: Option<Buffer>, scheme: seq<char>)
    requires PortNormalized(":", 2, after, scheme)
    ensures scheme == "https://" ==> Content(after.value) == "https://"
    ensures scheme == "http://" ==> Content(after.value) == "http"
  {
    if scheme == "https://" {
      assert Grow(2, 8) == 16 by {
        assert Grow(2, 8) == Grow(4, 8) == Grow(8, 8) == Grow(16, 8);
      }
      assert scheme[..Min(8, 12)] == scheme;
    } else if scheme == "http://" {
      assert Grow(2, 7) == 8 by {
        assert Grow(2, 7) == Grow(4, 7) == Grow(8, 7);
      }
      assert scheme[..Min(7, 4)] == "http";
    }
  }

  /** Whether one of the `^`-anchored patterns of `is_path` (absolute,
      no-scheme and rootless path) matches at the start of `s`. */
  predicate PathMatches(s: seq<char>) {
    Longest(PathAbsPat, s).Some? || Longest(NoSchemePat, s).Some? || Longest(RootlessPat, s).Some?
  }

  /** `is_path` as written: the loop sets the result to true on a hit, but
      the assignment after the loop sets it to false again, so every input
      reads as "not a path". */
  function IsPath(s: seq<char>): (r: (Code, bool))
    ensures r.0 == Success
    ensures !r.1
  {
    var found := PathMatches(s);
    (Success, found && false)
  }

  /** The discrepancy: "/" is an absolute path, yet `is_path` says no. */
  lemma IsPathIgnoresMatch()
    ensures PathMatches("/") && !IsPath("/").1
  {
    PathQueryFragClosedForm("/");
  }

  /** `is_path` without the overwrite: true exactly when a non-empty
      prefix of `s` is an absolute, no-scheme or rootless path. */
  function IsPathIntended(s: seq<char>): (r: bool)
    ensures r <==> exists n :: 0 < n <= |s|
                     && (MatchesAt(PathAbsPat, s, n) || MatchesAt(NoSchemePat, s, n) || MatchesAt(RootlessPat, s, n))
  {
    if Longest(PathAbsPat, s).Some? then
      MatchNonEmpty(PathAbsPat, s[..Longest(PathAbsPat, s).value]);
      true
    else if Longest(NoSchemePat, s).Some? then
      MatchNonEmpty(NoSchemePat, s[..Longest(NoSchemePat, s).value]);
      true
    else if Longest(RootlessPat, s).Some? then
      MatchNonEmpty(RootlessPat, s[..Longest(RootlessPat, s).value]);
      true
    else
      false
  }

  /** Anything starting with '/' is a path; a path starts with '/', a
      pchar or a percent sign. */
  lemma IsPathIntendedShape(s: seq<char>)
    ensures |s| > 0 && s[0] == '/' ==> IsPathIntended(s)
    ensures IsPathIntended(s) ==> |s| > 0 && (s[0] == '/' || InClass(PChars, s[0]) || s[0] == '%')
  {
    PathQueryFragClosedForm(s);
    if IsPathIntended(s) {
      var n :| 0 < n <= |s|
        && (MatchesAt(PathAbsPat, s, n) || MatchesAt(NoSchemePat, s, n) || MatchesAt(RootlessPat, s, n));
      var w := s[..n];
      assert w[0] == s[0];
      if InLang(PathAbsPat, w) {
        PathAbsShape(w);
      } else if InLang(RootlessPat, w) {
        RootlessStart(w);
      } else {
        var i :| 1 <= i <= |w| && Tokens(NoSchemeChars, w[..i])
          && (i == |w| || (w[i] == '/' && Tokens(PathChars, w[i + 1..])));
        TokensFirst(NoSchemeChars, w[..i]);
        assert w[..i][0] == s[0];
      }
    }
  }

  /** The texts of the first `n` parts, in order; an absent part adds
      nothing. */
  function Concat(parts: seq<Option<Buffer>>, n: nat): seq<char>
    requires n <= |parts|
  {
    if n == 0 then [] else Concat(parts, n - 1) + PartText(parts[n - 1])
  }

  /** The scheme, userinfo, host and port parts of a URL, in order. */
  function Authority(u: UrlT): seq<char>
    requires |u.parts| == RE_URL_NUM
  {
    Concat(u.parts, Index(Path))
  }

  /** What `replace_path` can come to: a new URL, NULL because the original
      URL does not parse, or a dereference of an absent part. */
  datatype Rebuilt = Built(url: seq<char>) | Rejected | Undefined

  /** The loop of `replace_path` that appends the scheme, userinfo, host
      and port parts: it reads through a NULL pointer, `None` here, as soon
      as one of them is absent. */
  method AppendAuthority(u: UrlT) returns (r: Option<seq<char>>)
    requires |u.parts| == RE_URL_NUM
    ensures r.None? <==> exists i :: 0 <= i < Index(Path) && u.parts[i].None?
    ensures r.Some? ==> r.value == Authority(u)
  {
    var acc: seq<char> := [];
    for i := 0 to Index(Path)
      invariant forall j :: 0 <= j < i ==> u.parts[j].Some?
      invariant acc == Concat(u.parts, i)
    {
      if u.parts[i].None? {
        return None;
      }
      acc := acc + Content(u.parts[i].value);
    }
    r := Some(acc);
  }

  /** The same loop with an absent part read as the empty string. */
  method AppendAuthorityIntended(u: UrlT) returns (r: seq<char>)
    requires |u.parts| == RE_URL_NUM
    ensures r == Authority(u)
  {
    r := [];
    for i := 0 to Index(Path)
      invariant r == Concat(u.parts, i)
    {
      r := r + PartText(u.parts[i]);
    }
  }

  /** `replace_path` as written: the original URL is parsed into a fresh
      `url_t`; the scheme, userinfo, host and port parts are appended, then
      the original path unless the new one starts with '/', then the new
      path. `parsed` is the local `url_t`. Appending an absent part reads
      through a NULL pointer; that is `Undefined`. */
  method ReplacePath(orig: seq<char>, path: seq<char>) returns (r: Rebuilt, parsed: UrlT)
    requires NoNul(orig) && NoNul(path)
    ensures Reusable(parsed)
    ensures r.Rejected? <==> Rejects(|orig|, Scan(orig), parsed.kind)
    ensures !r.Rejected? ==> (r.Undefined? <==> exists i :: 0 <= i < Index(Path) && parsed.parts[i].None?)
    ensures r.Built? ==>
              r.url == Authority(parsed) + (if |path| > 0 && path[0] == '/' then [] else PartText(Part(parsed, Path))) + path
    ensures !r.Rejected? && Scan(orig)[Index(UserInfo)].hit.None? ==> r.Undefined?
    ensures r.Built? && parsed.kind != FileSrc && Scan(orig)[Index(Port)].hit.Some?
            && |Text(orig, Scan(orig)[Index(Port)])| > 1
            ==> PartText(Part(parsed, Port)) == LowerAll(Text(orig, Scan(orig)[Index(Port)])[1..])
  {
    var code, steps;
    code, parsed, steps := ParseFresh(orig);
    if code != Success {
      return Rejected, parsed;
    }
    r := Assemble(parsed, path);
  }

  /** `parse_url` on a freshly initialised `url_t`, as `replace_path` calls
      it: what the rebuilding relies on. */
  method ParseFresh(orig: seq<char>) returns (code: Code, parsed: UrlT, steps: seq<Step>)
    requires NoNul(orig)
    ensures steps == Scan(orig) && |steps| == RE_URL_NUM
    ensures Reusable(parsed)
    ensures code == Success <==> !Rejects(|orig|, steps, parsed.kind)
    ensures code == Success && steps[Index(UserInfo)].hit.None? ==> parsed.parts[Index(UserInfo)].None?
    ensures code == Success && parsed.kind != FileSrc && steps[Index(Port)].hit.Some?
            && |Text(orig, steps[Index(Port)])| > 1
            ==> PartText(Part(parsed, Port)) == LowerAll(Text(orig, steps[Index(Port)])[1..])
  {
    code, parsed, steps := ParseUrl(InitUrl(), orig);
    assert StoredAs(Part(InitUrl(), UserInfo), Part(parsed, UserInfo), orig, steps[Index(UserInfo)]);
  }

  /** The appending part of `replace_path`, on the parsed original. */
  method Assemble(parsed: UrlT, path: seq<char>) returns (r: Rebuilt)
    requires |parsed.parts| == RE_URL_NUM
    ensures !r.Rejected?
    ensures r.Undefined? <==> exists i :: 0 <= i < Index(Path) && parsed.parts[i].None?
    ensures r.Built? ==>
              r.url == Authority(parsed) + (if |path| > 0 && path[0] == '/' then [] else PartText(Part(parsed, Path))) + path
  {
    var auth := AppendAuthority(parsed);
    if auth.None? {
      return Undefined;
    }
    var tail := if |path| > 0 && path[0] == '/' then [] else PartText(Part(parsed, Path));
    r := Built(auth.value + tail + path);
  }

  /** `replace_path` with absent parts read as empty strings, as the
      comment on the `parse_url` call implies was meant: an accepted
      original URL always yields a new URL. */
  method ReplacePathIntended(orig: seq<char>, path: seq<char>) returns (r: Rebuilt, parsed: UrlT)
    requires NoNul(orig) && NoNul(path)
    ensures Reusable(parsed)
    ensures !r.Undefined?
    ensures r.Rejected? <==> Rejects(|orig|, Scan(orig), parsed.kind)
    ensures r.Built? ==>
              r.url == Authority(parsed) + (if |path| > 0 && path[0] == '/' then [] else PartText(Part(parsed, Path))) + path
  {
    var code, steps;
    code, parsed, steps := ParseUrl(InitUrl(), orig);
    if code != Success {
      return Rejected, parsed;
    }
    var auth := AppendAuthorityIntended(parsed);
    var tail := if |path| > 0 && path[0] == '/' then [] else PartText(Part(parsed, Path));
    r := Built(auth + tail + path);
  }
}
